=== FILE: README.md ===
# resolver: text engine and expression language, modelled in Dafny

This project models the two sequential subsystems at the core of the
resolver editor and proves properties about them.

The **text engine**:
- `layout`, the single-pass word wrap (src/text/layout.rs). It counts every line in code points and in UTF-8 bytes.
- The cursor model built on it (src/text/mod.rs): `index`, the movements, `line_with_index`, `offset_for_index`, `insert`, `backspace` and the `_rel` variants that move the remembered cursor `loc`.
- Style spans and their markup rendering (src/text/attrs.rs).
- The two earlier buffers still in the tree:
  - src/text.rs: the same reflow with an older hard-break rule, with byte cursor indices.
  - src/content.rs: fixed-width rows.

The **expression language** (src/rdl):
- units of measure, with their conversion ladders and same-unit addition;
- the character cursor and tokenizer;
- the recursive-descent parser;
- the variable context and the evaluator.

It also models the helper `coalesce` (src/util/mod.rs).

Modules follow the source files:

| module | file | source |
|---|---|---|
| `Wrappers` | wrappers.dfy | `Option` and `Result` |
| `RdlError` | errors.dfy | the rdl error variants, plus `InvalidASTNode`, which the evaluator uses but src/rdl/error.rs does not declare |
| `Utf8` | utf8.dfy | the UTF-8 length of a code point (section 3 of RFC 3629); byte offsets and their inverse; Unicode `White_Space` |
| `Cursor` | cursor.dfy | `Pos` and `ZERO_POS` |
| `Layout` | layout.dfy | src/text/layout.rs |
| `TextBuffer` | text.dfy | src/text/mod.rs |
| `Attrs` | attrs.dfy | src/text/attrs.rs |
| `AttrsExamples` | attrs_examples.dfy | the tests of src/text/attrs.rs |
| `LegacyText` | legacy_text.dfy | src/text.rs |
| `ContentBuffer` | content.dfy | src/content.rs |
| `Units` | units.dfy | src/rdl/unit.rs |
| `Scan` | scan.dfy | src/rdl/scan.rs |
| `Tokenize` | tokenize.dfy | the token stream of src/rdl/scan.rs |
| `Parse` | parse.dfy | src/rdl/parse.rs |
| `Exec` | exec.dfy | src/rdl/exec.rs |
| `Util` | util.dfy | src/util/mod.rs |

How the model represents the source:
- Everything is an immutable datatype with pure functions. A `&mut self` method becomes a function that returns the new state next to its result.
- Text is `seq<char>`. A byte offset is computed from the code points with `Utf8.Offset`.
- Unit quantities are exact `real`s.
- Where a source operation panics, the model either answers `None` or states the source's own guard as a precondition. `backspace` in src/text/mod.rs requires `idx >= 1`, because `idx - 1` would underflow at 0 and `backspace_rel` guards against that.

## Model

| member | source | states |
|---|---|---|
| Util.Coalesce | src/util/mod.rs:2-10 | The first argument wins when present, otherwise the second; the result is `None` exactly when both are |
| Util.CoalesceMonoid | src/util/mod.rs:2-10 | Coalescing is associative, `None` is a unit on both sides, and coalescing a value with itself returns it |
| Util.FirstPresent | src/util/mod.rs:2-10 | A fold of `coalesce` over a list is `None` exactly when every entry is, and otherwise is the value of the earliest present entry |
| Units.From | src/rdl/unit.rs:24-47 | No name gives a plain quantity; a found name gives the unit so named, with the quantity kept |
| Units.FromName | src/rdl/unit.rs:24-47 | Each of the twelve names is found as its own unit, and a name is found exactly when it is one of the twelve |
| Units.Base | src/rdl/unit.rs:49-70 | The result is in the family's base unit and is the same amount: 1 gallon is 768 teaspoons, 1 ml is 0.001 l, 1 kg is 1000 g |
| Units.BaseOfBase | src/rdl/unit.rs:49-70 | `base` leaves teaspoons, litres, grams and plain quantities unchanged |
| Units.Pack | src/rdl/unit.rs:72-142 | The result stays in the family and denotes the same base amount. It is packed: a top unit, or below the threshold for climbing. An already packed unit is unchanged |
| Units.PackIdempotent | src/rdl/unit.rs:72-142 | Packing twice is packing once |
| Units.PackClimbs | src/rdl/unit.rs:72-142 | `pack` never moves to a smaller unit |
| Units.Add | src/rdl/unit.rs:144-166 | Same kinds add their quantities; different kinds return the left operand unchanged |
| Units.AddSameKind | src/rdl/unit.rs:144-166 | Same-kind addition commutes, and the sum's base amount is the sum of the base amounts |
| Units.ToFraction | src/rdl/unit.rs:190-208 | A name is returned exactly for 1/8 … 7/8, and it is that fraction in lowest terms |
| Scan.New | src/rdl/scan.rs:72-80 | A new scanner is valid, has consumed nothing and has queued nothing |
| Scan.Peek | src/rdl/scan.rs:86-91 | Returns the next unread char, or `None` at the end; the state is not touched, so repeated peeks agree |
| Scan.Skip | src/rdl/scan.rs:93-96 | Consumes exactly the char a peek sees and adds one to the count; past the end only the count moves |
| Scan.Next | src/rdl/scan.rs:98-105 | Returns what a peek returns and consumes it; at the end it returns `None` and leaves the scanner as it was |
| Scan.NextExhausted | src/rdl/scan.rs:98-105 | Once the input is exhausted, `next` keeps returning `None` |
| Scan.NextInOrder | src/rdl/scan.rs:98-105 | `k` calls of `next` yield the first `k` unread chars in order and consume exactly them |
| Scan.PeekFn | src/rdl/scan.rs:110-116 | True exactly when a next char exists and satisfies the predicate |
| Scan.ExpectFn | src/rdl/scan.rs:146-154 | Consumes and returns the next char exactly when it satisfies the predicate; otherwise nothing changes |
| Scan.Expect | src/rdl/scan.rs:137-142 | Consumes the next char exactly when it equals the expected one |
| Scan.AssertFn | src/rdl/scan.rs:127-133 | Consumes and returns a char that passes; otherwise `AssertionFailed` with nothing consumed |
| Scan.AssertChar | src/rdl/scan.rs:120-122 | `assert` on a char: succeeds exactly on that char, otherwise `AssertionFailed` with nothing consumed |
| Scan.TakeWhile | src/rdl/scan.rs:294-320 | The consuming loops take exactly the longest prefix of the input whose chars pass the predicate, and nothing else |
| Scan.Whitespace | src/rdl/scan.rs:265-276 | Consumes and returns exactly the run of whitespace at the cursor |
| Scan.SkipWs | src/rdl/scan.rs:260-263 | Leaves the input after the whitespace run; the next char, if any, is not whitespace |
| Scan.IdentText | src/rdl/scan.rs:294-306 | Succeeds exactly at an identifier start, and takes that char and the longest run of identifier chars after it; otherwise it fails without consuming |
| Scan.Integer | src/rdl/scan.rs:308-320 | Succeeds exactly at a digit and takes the whole run of digits |
| Scan.NumberText | src/rdl/scan.rs:322-333 | A successful number is digits with an optional dot and digits, taken from the front of the input, with no digit after it. It fails without consuming where no digit starts. The rewinding scanner succeeds exactly at a digit |
| Scan.NumberCases | src/rdl/scan.rs:322-333 | `number` gives, on every input starting with a digit, the answer of the grammar `NumberSpec` and consumes exactly the chars it counts. The grammar, written on the input alone: a digit run, a `.` and a digit run are taken together; a digit run with no `.` after it is taken alone; a `.` followed by the end or a non-digit is `AssertionFailed` with the integer and the `.` consumed, and the rewinding scanner instead ends the number before that `.` |
| Scan.NumberFraction | src/rdl/scan.rs:322-333 | A digit run, a `.` and a digit run: the number is exactly those chars, and the rest of the input stays unread |
| Scan.NumberDanglingDot | src/rdl/scan.rs:322-333 | A digit run and a `.` with no digit after it: as written, `AssertionFailed` with both consumed; rewinding, the digit run alone with the `.` unread |
| Scan.NumberInteger | src/rdl/scan.rs:322-333 | A digit run with no `.` after it is the whole number |
| Scan.NumberFails | src/rdl/scan.rs:322-333 | The non-rewinding scan fails exactly where no digit starts, or where the digit run is followed by a `.` and then by the end or a non-digit |
| Scan.FractionTaken | src/rdl/scan.rs:322-333 | Digits, a `.` and digits, followed by anything but a digit, are taken as one number by either scanner, and exactly the rest is left |
| Scan.FractionToken | src/rdl/scan.rs:234-241 | `scan_number` queues digits, a `.` and digits as one `Number` token |
| Scan.IntegerAt | src/rdl/scan.rs:308-320 | `integer` on a digit run in front of a non-digit takes exactly that run |
| Scan.EscapeInverse | src/rdl/scan.rs:352-369 | The escape table is a bijection between its eight codes and the chars they stand for |
| Scan.EscapeSeq | src/rdl/scan.rs:352-369 | A backslash and a code give the char the code stands for. An unknown code is a `SyntaxError`; a backslash at the end is `EndOfInput`; no backslash is `AssertionFailed` with nothing consumed |
| Scan.EscapeRoundTrip | src/rdl/scan.rs:352-369 | Writing an escapable char after a backslash and scanning the escape gives the char back |
| Scan.StringText | src/rdl/scan.rs:335-350 | A literal must start with a quote and consumes both quotes; otherwise `AssertionFailed` with nothing consumed |
| Scan.StringRoundTrip | src/rdl/scan.rs:335-350 | Quoting text that has no quote or backslash and scanning it gives the text back, with the rest of the input untouched |
| Scan.StringUnterminated | src/rdl/scan.rs:335-350 | A literal with no closing quote is `AssertionFailed` |
| Scan.Push | src/rdl/scan.rs:170-172 | Appends one token to the queue and changes nothing else |
| Scan.ScanIdent | src/rdl/scan.rs:225-232 | At an identifier start, queues one `Ident` token holding the whole identifier |
| Scan.ScanNumber | src/rdl/scan.rs:234-241 | On success, queues one `Number` token holding the number text. On failure the queue is unchanged, but the consumed chars stay consumed |
| Scan.ScanOperator | src/rdl/scan.rs:243-258 | Queues one `Operator` token holding the whole run of operator chars, which is consumed |
| Scan.ScanSemantic | src/rdl/scan.rs:185-196 | Tries identifier, then number, then operator. The token kind follows the first char. Any other char is `TokenNotMatched` with nothing consumed |
| Scan.VerbatimPlain | src/rdl/scan.rs:198-223 | Without escapes, a verbatim run copies its chars exactly, up to the next char that starts a token |
| Scan.ScanVerbatim | src/rdl/scan.rs:198-223 | One `Verbatim` token for the run that ends at a token start or at the end of the input |
| Scan.ScanStep | src/rdl/scan.rs:174-183 | At the end of the input nothing happens, and a failed step queues nothing |
| Scan.ScanDispatch | src/rdl/scan.rs:174-183 | Tries the semantic token first; when it fails, falls back to a verbatim run from wherever the failed attempt stopped |
| Scan.ScanProgress | src/rdl/scan.rs:174-183 | Every successful scan step on non-empty input queues exactly one token and consumes at least one char |
| Scan.NextToken | src/rdl/scan.rs:159-168 | Returns the first queued token, scanning when the queue is empty; returns an `End` token with empty text once the input is exhausted; never adds work |
| Scan.LaType | src/rdl/parse.rs:24-27 | The lookahead the parser calls: the kind of the next token, with that token left in place for `token` |
| Tokenize.Lossless | src/rdl/scan.rs:174-223 | Clean text scans without error, and the token texts concatenate back to the text |
| Tokenize.TokensClean | src/rdl/scan.rs:159-223 | From any point in clean text, the stream succeeds, has no empty token and spells the unread text |
| Tokenize.ScanClean | src/rdl/scan.rs:174-223 | On clean input, one scan step queues one non-empty token whose text is exactly the chars it consumed |
| Tokenize.DanglingDot | src/rdl/scan.rs:322-333 | On `1.a` the number scan fails after taking `1.`, and the fallback verbatim token is empty, so no token holds `1.` |
| Tokenize.RewindingLossless | src/rdl/scan.rs:322-333 | A scanner whose number stops before a dot with no digit after it loses no char on any text without backslashes |
| Tokenize.DanglingDotKept | src/rdl/scan.rs:322-333 | The corrected scanner keeps every char of a digit, a dot and a non-digit |
| Tokenize.FractionStep | src/rdl/scan.rs:174-183 | A scan step on digits, a `.` and digits, such as `1.5`, queues them as one `Number` token and consumes them all |
| Parse.ParseFloat | src/rdl/parse.rs:59 | Number text parses, and anything else is `ParseFloatError` |
| Parse.ParseFloatParts | src/rdl/parse.rs:59 | Digits read as their integer value, and digits, a dot and digits read as the decimal they spell |
| Parse.Primary | src/rdl/parse.rs:52-63 | An `Ident` token gives the identifier leaf holding its text. A `Number` token succeeds exactly when its text is number text, and then gives the number leaf holding `parse::<f64>` of that text; otherwise `ParseFloatError`. `End` gives `EndOfInput`; any other kind gives `TokenNotMatched` |
| Parse.PrimaryLeaf | src/rdl/parse.rs:52-63 | The leaf holds the token's content: an identifier its name, a run of digits its integer value, and digits, a dot and digits the decimal they spell |
| Parse.Combine | src/rdl/parse.rs:46-49 | As written, any operator builds a sum. With the intended reading, exactly `+` builds a sum and any other operator is `TokenNotMatched` |
| Parse.ParsePrimary | src/rdl/parse.rs:52-63 | Takes one token; a success consumes work |
| Parse.ParseArith | src/rdl/parse.rs:21-50 | Stays valid and never adds work |
| Parse.ParseAgrees | src/rdl/parse.rs:21-50 | On any scanner whose stream scans, `parse_arith` returns what the grammar returns and leaves exactly the tokens the grammar did not consume |
| Parse.RestAgrees | src/rdl/parse.rs:24-49 | What follows the left operand agrees with the grammar in the same way |
| Parse.RefArith | src/rdl/parse.rs:21-50 | The grammar consumes no more than the stream and, on success, at least one token |
| Parse.SumComplete | src/rdl/parse.rs:40-49 | A stream of primaries separated by operators is consumed completely and builds the right-nested sum of its primaries |
| Parse.RefShape | src/rdl/parse.rs:40-49 | Whatever the grammar builds is a well-formed tree of sums that nests to the right |
| Parse.ParseShape | src/rdl/parse.rs:21-50 | The parser builds a well-formed, right-nested tree whenever the stream scans |
| Parse.NextStream | src/rdl/scan.rs:159-168 | `token` returns the head of the stream and leaves its tail |
| Parse.EndToken | src/rdl/scan.rs:159-168 | The only `End` token is the empty one, returned on an exhausted scanner |
| Parse.LaNext | src/rdl/parse.rs:24-31 | The lookahead does not disturb the stream: `token` after it returns what it would have returned |
| Parse.LaStream | src/rdl/parse.rs:24-31 | On a stream that scans, the lookahead names the head's kind and keeps the stream |
| Parse.MixedOperators | src/rdl/parse.rs:40-49 | `a+b*c` as written is `a + (b + c)`: there is no precedence, and `*` builds a sum. The intended reading rejects it |
| Parse.MinusIsSum | src/rdl/parse.rs:46-49 | `1-2` as written is the sum of 1 and 2; the intended reading rejects it |
| Exec.Set | src/rdl/exec.rs:17-19 | Binds the key to the value and adds exactly that key |
| Exec.Get | src/rdl/exec.rs:21-26 | A value is present exactly when the key is bound |
| Exec.SetGet | src/rdl/exec.rs:11-26 | A get after a set returns the value set; other keys keep their values; a new context binds nothing |
| Exec.ExecIdent | src/rdl/exec.rs:85-94 | A bound name gives its value; an unbound name gives `UnboundVariable(name)`; a node without a name gives `InvalidASTNode` |
| Exec.ExecNumber | src/rdl/exec.rs:96-101 | A literal gives a plain quantity of its value; a node without a value gives `InvalidASTNode` |
| Exec.Exec | src/rdl/exec.rs:76-83 | Node types other than identifier, number and sum give `InvalidASTNode` |
| Exec.ExecAdd | src/rdl/exec.rs:103-115 | Missing children give `InvalidASTNode`. The left child's error wins, then the right's; otherwise the two values are combined with `Unit`'s `+` |
| Exec.ExecAsWritten | src/rdl/exec.rs:76-83 | As written, every node is evaluated as an identifier |
| Exec.AsWrittenRejects | src/rdl/exec.rs:76-83 | As written, no literal and no sum evaluates, while the intended dispatch evaluates literals |
| Exec.ExecTest | src/rdl/exec.rs:122-134 | The module's test sums `a + b = 2` and `a + c = 3` hold for the intended dispatch and fail as written |
| Exec.EvalAll | src/rdl/exec.rs:103-115 | Left-to-right evaluation of leaves: it succeeds exactly when every leaf does, and otherwise fails with the error of some leaf |
| Exec.FirstErrorUnique | src/rdl/exec.rs:103-115 | The error reported is the one of the first failing leaf |
| Exec.EvalAllAppend | src/rdl/exec.rs:103-115 | Evaluating the leaves of two parts: the left part's error wins, then the right part's, and otherwise the values are the left values followed by the right |
| Exec.ExecLeaves | src/rdl/exec.rs:76-115 | A well-formed tree fails exactly when its leaves do, with the first leaf's error. It takes the kind of its leftmost leaf, and when all leaves share that kind it is their sum |
| Exec.ExecBound | src/rdl/exec.rs:85-115 | A well-formed tree evaluates exactly when every name in it is bound |
| Exec.LeavesWellFormed | src/rdl/exec.rs:49-74 | The constructors build trees whose leaves are identifiers and literals with their field present |
| Layout.Layout | src/text/layout.rs:7-104 | The lines tile the text in code points and in bytes, from 0/0 to the char count and the byte length, numbered 0, 1, 2, …. Each consumes at least one code point. A line is hard exactly when it ends in a newline, and then it shows everything but that newline. What a line consumes without showing is whitespace. With width ≥ 1, every line fits the width |
| Layout.Reflow | src/text/layout.rs:7-104 | Both reflow rules give tiling lines of the shape above; with width ≥ 1 the last line is soft |
| Layout.PassOk | src/text/layout.rs:29-101 | The whole pass establishes the tiling and the shape of every line, and a last soft line shorter than the width shows all it consumes |
| Layout.RunInv | src/text/layout.rs:29-88 | The loop keeps its invariant to the end of the text |
| Layout.StepInv | src/text/layout.rs:29-88 | One turn of the loop keeps the invariant |
| Layout.CloseOk | src/text/layout.rs:90-101 | Closing the last line tiles the whole text, and the last line is soft |
| Layout.TiledBytes | src/text/layout.rs:52-76 | Tiling in code points implies tiling in bytes, from 0 to the byte length |
| Layout.LineBytes | src/text/layout.rs:55-59 | The shown bytes of every line lie inside the text, and a hard line shows one byte fewer than it consumes |
| TextBuffer.LineText | src/text/mod.rs:33-35 | The shown code points of a line sit at its start, and their UTF-8 bytes are the range `[boff, boff + bytes)` |
| TextBuffer.LinePos | src/text/mod.rs:45-59 | `None` exactly outside `[coff, cext)`; inside, the row is the line's and the column is the distance from `coff`, capped at the width |
| TextBuffer.LinesAreLayout | src/text/mod.rs:353-356 | The buffer's lines are `layout` of its text |
| TextBuffer.New | src/text/mod.rs:231-263 | A new buffer is laid out, holds the given text, and has its cursor at 0 |
| TextBuffer.SetText | src/text/mod.rs:503-506 | Replaces the text and lays it out again, keeping the width and the cursor |
| TextBuffer.NumLines | src/text/mod.rs:187-189 | No lines exactly for the empty text, and never more lines than code points |
| TextBuffer.LineMetrics | src/text/mod.rs:191-197 | Line `i` exactly when it exists; it is numbered `i` and lies in the text |
| TextBuffer.LineTextAt | src/text/mod.rs:199-204 | The shown text of line `i` exactly when the line exists |
| TextBuffer.Len | src/text/mod.rs:279-287 | The last line's extent is the number of code points, and it is 0 with no lines |
| TextBuffer.LineWithIndex | src/text/mod.rs:293-303 | Finds a line containing the index exactly when the index is inside the text, and that line is the only one |
| TextBuffer.FindLineTiles | src/text/mod.rs:293-303 | On tiling lines the search succeeds exactly inside the range, at the one line containing the index |
| TextBuffer.OffsetForIndex | src/text/mod.rs:305-326 | `None` exactly when no line contains the index. Otherwise it is the byte offset of the index, capped at the end of the line's shown part |
| TextBuffer.OffsetForIndexShown | src/text/mod.rs:305-326 | Inside a line's shown part, the offset is the UTF-8 length of the first `idx` code points |
| TextBuffer.NextOffset | src/text/mod.rs:344-351 | Is the byte length of the text |
| TextBuffer.Index | src/text/mod.rs:477-501 | `ZERO_POS` at 0 or on an empty text; otherwise the index is capped at the length. Inside the text the cursor is on the line containing it, at its distance from the line start capped at the width. At the end it is after the last line, or at the start of a new row when that line is hard or full |
| TextBuffer.Left | src/text/mod.rs:414-420 | One code point back, capped at the text; `ZERO_POS` at 0 and 1 |
| TextBuffer.Right | src/text/mod.rs:428-430 | One code point forward, never past the text |
| TextBuffer.Up | src/text/mod.rs:358-371 | `ZERO_POS` from row 0. Otherwise the row above, at the cursor's column when that row shows that many code points, else at its end |
| TextBuffer.Down | src/text/mod.rs:379-406 | `ZERO_POS` with no lines. From the last row, the end of the text: after the last line, or on a new row when it is hard. Otherwise the row below, at the same column or its end |
| TextBuffer.Home | src/text/mod.rs:438-449 | Column 0 of the cursor's row, at the row's start, never after the cursor; past the last row, the end of the text on a new row |
| TextBuffer.End | src/text/mod.rs:457-469 | The end of the shown part of the cursor's row, at the column of its shown width; past the last row, the end of the text on a new row |
| TextBuffer.Insert | src/text/mod.rs:508-516 | Splices exactly one code point into the text and lays it out again; the cursor is the position after `idx` |
| TextBuffer.InsertCursor | src/text/mod.rs:508-516 | Inserting lengthens the text by one and moves the cursor one past `idx`, or to the new end |
| TextBuffer.InsertLands | src/text/mod.rs:508-516 | The code point goes at `idx` whenever `idx` is shown, and at the end past the text |
| TextBuffer.Backspace | src/text/mod.rs:524-533 | Past the text nothing changes and the answer is `ZERO_POS`. Otherwise the text is laid out again and the cursor is the position of `idx - 1` |
| TextBuffer.BackspaceRemoves | src/text/mod.rs:524-533 | Inside the text, `backspace` removes exactly one code point: the one its byte offset names |
| TextBuffer.BackspaceCursor | src/text/mod.rs:524-533 | Inside the text, `backspace` shortens it by one and moves the cursor back by one |
| TextBuffer.BackspaceAt | src/text/mod.rs:305-326 | The offset `backspace` computes exists exactly inside the text and names the code point removed |
| TextBuffer.NonWhitespaceShown | src/text/layout.rs:40-84 | A code point that is not whitespace is shown, so `backspace` removes exactly it |
| TextBuffer.InsertBackspace | src/text/mod.rs:508-533 | Backspacing just after an inserted non-whitespace code point gives the text back |
| TextBuffer.UpRel | src/text/mod.rs:373-377 | `up` from `loc`, with the answer remembered in `loc` |
| TextBuffer.DownRel | src/text/mod.rs:408-412 | `down` from `loc`, with the answer remembered in `loc` |
| TextBuffer.LeftRel | src/text/mod.rs:422-426 | `left` from `loc`; inside the text, `loc` steps back by one |
| TextBuffer.RightRel | src/text/mod.rs:432-436 | `right` from `loc`; inside the text, `loc` steps forward by one |
| TextBuffer.HomeRel | src/text/mod.rs:451-455 | `home` from `loc`, with the answer remembered in `loc` |
| TextBuffer.EndRel | src/text/mod.rs:471-475 | `end` from `loc`, with the answer remembered in `loc` |
| TextBuffer.InsertRel | src/text/mod.rs:518-522 | Inserts at `loc`; with `loc` inside the text or at its end, `loc` advances by exactly one |
| TextBuffer.BackspaceRel | src/text/mod.rs:524-542 | At `loc` 0, `ZERO_POS` and no change. Inside the text, the code point before the cursor is removed and `loc` steps back one. Past the end of the text, where `SetText` can leave `loc`, `backspace` finds no offset: the text is kept, the answer is `ZERO_POS` and `loc` becomes 0 |
| Attrs.Tags | src/text/attrs.rs:41-57 | The tags are `b` when bold, then the colour when set, outermost first; there are none exactly for plain attributes |
| Attrs.RenderHtml | src/text/attrs.rs:41-57 | The text is wrapped in the tags, outermost first; plain attributes give the text unchanged |
| Attrs.Compare | src/text/attrs.rs:66-76 | Spans compare by start only |
| Attrs.InsertSpanSorted | src/text/attrs.rs:114-116 | Inserting a span into a sorted list keeps it sorted and adds exactly that span |
| Attrs.SortSpansSorted | src/text/attrs.rs:114-116 | The sort returns a sorted permutation of its input |
| Attrs.SortStable | src/text/attrs.rs:114-116 | The sort is stable: spans with the same start keep their relative order |
| Attrs.SortedUnique | src/text/attrs.rs:114-116 | Two sorted permutations of the same spans are equal when no two spans share a start |
| Attrs.SortOrderFree | src/text/attrs.rs:114-116 | With distinct starts, the input order of the spans does not change the sort |
| Attrs.Splice | src/text/attrs.rs:118-136 | With no spans left, the rest of the text is copied |
| Attrs.SpliceUntagged | src/text/attrs.rs:118-136 | For sorted, non-overlapping spans inside the text, deleting the tags gives the text back |
| Attrs.RenderWith | src/text/attrs.rs:114-137 | With no spans, the output is the text |
| Attrs.RenderMarkup | src/text/attrs.rs:114-137 | In Markup mode, with no spans, the output is the text |
| Attrs.RenderOrderFree | src/text/attrs.rs:114-137 | With distinct starts, the input order of the spans does not change the output |
| Attrs.RenderUntagged | src/text/attrs.rs:114-137 | Rendering sorted, non-overlapping, in-bounds spans and deleting the tags gives the text back |
| Attrs.SpanClamped | src/text/attrs.rs:122-129 | Span bounds are capped at the text length, and a span that is empty after capping renders nothing |
| Attrs.RenderAttributed | src/text/attrs.rs:101-108 | `Attributed` renders as the free function on its own text and spans |
| Attrs.SortTwo | src/text/attrs.rs:66-76 | Two spans sort by start, and a tie keeps their order |
| AttrsExamples.BoldExample | src/text/attrs.rs:144-151 | Bold `Hello` renders as `<b>Hello</b>` |
| AttrsExamples.BoldBlueExample | src/text/attrs.rs:144-151 | Bold blue nests the colour inside the bold tag |
| AttrsExamples.GreenExample | src/text/attrs.rs:144-151 | A colour alone gives one tag |
| AttrsExamples.HelloExample | src/text/attrs.rs:158-175 | The test's `Hello, there.` with two spans given out of order renders both fragments in text order |
| LegacyText.Reflow | src/text.rs:177-270 | The lines are numbered in order. They tile the bytes of the text from 0 to its byte length, and each consumes at least one byte. A hard line consumed a newline and does not show it |
| LegacyText.LinePos | src/text.rs:47-61 | `None` exactly outside `[offset, extent)`; inside, the row is the line's and the column is the byte distance capped at the width |
| LegacyText.New | src/text.rs:72-100 | A new buffer is laid out, holds the given text, and has no lines exactly for the empty text |
| LegacyText.SetText | src/text.rs:402-405 | Replaces the text and lays it out again |
| LegacyText.Len | src/text.rs:103-105 | The byte length, which is where the last line ends |
| LegacyText.FindLineTiles | src/text.rs:376-400 | The search of `index` succeeds exactly below the byte length, at the one line holding the byte |
| LegacyText.Index | src/text.rs:376-400 | `ZERO_POS` at 0 or on an empty text; otherwise the byte index is capped at the length. Inside the text the cursor is on the line holding the byte. At the end it is after the last shown part, or at the start of a new row |
| LegacyText.IndexRowsOrdered | src/text.rs:376-400 | Inside the text, a later byte is never on an earlier row |
| LegacyText.Left | src/text.rs:328-334 | One byte back, capped at the text; `ZERO_POS` at 0 and 1 |
| LegacyText.Right | src/text.rs:342-344 | One byte forward, never past the text |
| LegacyText.Up | src/text.rs:276-289 | `ZERO_POS` from row 0; otherwise the row above at the same column, capped at its shown width |
| LegacyText.Down | src/text.rs:297-320 | `ZERO_POS` with no lines; from the last row, the end of its shown part; otherwise the row below at the same column, capped |
| LegacyText.Home | src/text.rs:352-356 | Column 0 at the row's start, never after the cursor; a panic (`None`) exactly where the row does not exist |
| LegacyText.End | src/text.rs:364-368 | The end of the shown part at its width; a panic exactly where `home` panics |
| LegacyText.LineWithIndex | src/text.rs:119-135 | Finds the line whose range of shown code points, counted across lines, holds the index; `None` exactly past all shown code points |
| LegacyText.LineWithIndexUnique | src/text.rs:119-135 | At most one line holds a shown index, and the search finds it |
| LegacyText.OffsetForIndex | src/text.rs:137-158 | The line's offset plus the UTF-8 bytes of the shown code points before the index, which is the byte offset of that code point in the text; `None` exactly where the line search fails |
| LegacyText.BoundaryAt | src/text.rs:407-425 | A byte offset starts a code point exactly when converting it to a code point count and back returns it |
| LegacyText.Insert | src/text.rs:407-410 | Panics exactly off a code point boundary; otherwise inserts the code point's bytes at `idx` and lays the text out again |
| LegacyText.Backspace | src/text.rs:418-425 | No change on an empty text. Otherwise it panics exactly where no code point starts at `idx`, and else removes that code point |
| LegacyText.InsertBackspace | src/text.rs:407-425 | A backspace at the byte where a code point was inserted succeeds and gives the text back |
| LegacyText.UpRel | src/text.rs:291-295 | `up` from `loc`, with the answer remembered |
| LegacyText.DownRel | src/text.rs:322-326 | `down` from `loc`, with the answer remembered |
| LegacyText.LeftRel | src/text.rs:336-340 | `left` from `loc`, with the answer remembered |
| LegacyText.RightRel | src/text.rs:346-350 | `right` from `loc`, with the answer remembered |
| LegacyText.HomeRel | src/text.rs:358-362 | `home` from `loc`; it panics where `home` does |
| LegacyText.EndRel | src/text.rs:370-374 | `end` from `loc`; it panics where `end` does |
| LegacyText.InsertRel | src/text.rs:412-416 | Inserts at `loc` and always advances `loc` by one byte |
| LegacyText.BackspaceRel | src/text.rs:427-433 | At 0, `ZERO_POS` and no change; otherwise `loc` steps back one byte and the code point there is removed |
| LegacyText.InsertRelBackspaceRel | src/text.rs:407-433 | `backspace_rel` after `insert_rel` gives back both the text and `loc` |
| LegacyText.TrailingBlank | src/text.rs:200-208 | At a newline the older rule keeps an earlier whitespace boundary: on `a \n` the legacy line shows `a`, where `layout` shows `a ` |
| ContentBuffer.Reflow | src/content.rs:65-92 | No rows exactly for the empty text |
| ContentBuffer.LaidIsReflow | src/content.rs:65-92 | `reflow` is the one layout whose rows follow each other with no gap, hold 1 to `width` chars, break only after a newline or when full, and are numbered 0, 1, 2, … |
| ContentBuffer.RowsUnique | src/content.rs:65-92 | Two layouts of the same text with those properties are equal |
| ContentBuffer.ScanRows | src/content.rs:65-92 | Every state the reflow loop passes through yields the rows of the rest of the text |
| ContentBuffer.RowsOrdered | src/content.rs:20-22 | An earlier row ends (`upper`) where or before a later one starts |
| ContentBuffer.New | src/content.rs:33-51 | A new content is laid out, holds the given text, has its cursor at 0, and has no rows when empty |
| ContentBuffer.IndexAsWritten | src/content.rs:159-189 | As written, the index is capped at the length, and only index 0 returns `ZERO_POS` at once |
| ContentBuffer.Index | src/content.rs:159-189 | `ZERO_POS` at 0 or on an empty text. Inside the text the cursor is on the row holding the index, at its distance from the row start. At the end it is after the last row, or at the start of a new row when the text ends in a newline or the row is full |
| ContentBuffer.IndexAgrees | src/content.rs:159-189 | On a non-empty text the corrected `index` is the source's |
| ContentBuffer.Left | src/content.rs:135-141 | One char back, capped at the text; `ZERO_POS` at 0 and 1. It goes through the corrected `ContentBuffer.Index`, so on an empty text it answers `ZERO_POS` where the source answers `x = 1` (see Findings) |
| ContentBuffer.Right | src/content.rs:149-151 | One char forward, never past the text. It goes through the corrected `ContentBuffer.Index`, so on an empty text it answers `ZERO_POS` where the source answers `x = 1` (see Findings) |
| ContentBuffer.Onto | src/content.rs:100-105 | The row above or below, at the same column when the row is that long, else at its last char |
| ContentBuffer.Up | src/content.rs:94-106 | `ZERO_POS` from the first row; otherwise onto the row above |
| ContentBuffer.DownAsWritten | src/content.rs:114-127 | As written, `down` panics exactly when the cursor is on the row after the last |
| ContentBuffer.Down | src/content.rs:114-127 | Stays put past the last row. From the last row it goes to that row's end, otherwise onto the row below. Wherever the source does not panic, it agrees with it |
| ContentBuffer.Insert | src/content.rs:191-195 | Splices exactly one char in at `idx` and answers the position one after it |
| ContentBuffer.Backspace | src/content.rs:203-210 | No change on an empty text; otherwise removes exactly the char at `idx` and answers its position |
| ContentBuffer.InsertBackspace | src/content.rs:191-210 | Deleting at the position just inserted at gives the text back |
| ContentBuffer.UpRel | src/content.rs:108-112 | `up` from `loc`, with the answer remembered |
| ContentBuffer.DownRel | src/content.rs:129-133 | `down` from `loc`, with the answer remembered |
| ContentBuffer.LeftRel | src/content.rs:143-147 | `loc` steps back one, never below 0 |
| ContentBuffer.RightRel | src/content.rs:153-157 | `loc` steps forward one, never past the text |
| ContentBuffer.InsertRel | src/content.rs:197-201 | Inserts at `loc` and advances `loc` by exactly one |
| ContentBuffer.BackspaceRelAsWritten | src/content.rs:212-217 | As written, at `loc` 0 the first char of the text is deleted |
| ContentBuffer.BackspaceRel | src/content.rs:212-217 | Nothing happens at `loc` 0. Otherwise the char before `loc` is deleted and `loc` steps back onto its place, as the source does |
| ContentBuffer.InsertThenBackspace | src/content.rs:191-217 | Typing a char and deleting it again gives back the text and the cursor |
| ContentBuffer.EmptyIndexAsWritten | src/content.rs:159-189 | On an empty text, the source's `index` answers column 1 for every index but 0 |
| ContentBuffer.DownPanics | src/content.rs:114-127 | On `Hi\n`, the source's `down` from the end of the text indexes past the only row |
| ContentBuffer.BackspaceAtStart | src/content.rs:212-217 | At `loc` 0 of `ab`, the source's `backspace_rel` deletes the `a` after the cursor |
| Utf8.Utf8Len | src/text/layout.rs:52-53 | A code point takes 1 to 4 bytes: exactly 1 below 0x80 and exactly 4 from 0x10000 |
| Utf8.BytesAppend | src/text/layout.rs:52-53 | The byte length of a concatenation is the sum of the byte lengths |
| Utf8.OffsetIsBytes | src/text/layout.rs:52-53 | The byte offset of code point `k` is the byte length of the first `k` code points |
| Utf8.CharCountOfOffset | src/text/mod.rs:524-533 | Converting a code point position to a byte offset and back returns the position |

## Left out

- Terminal I/O and rendering to the screen are not modelled: `Renderable`/`write_line`, `Display for Text`, the debug caret helpers, `lines()` (a `str::Lines` view), `read_line`, and the editor, frame, writer and key-handling files. Each writes to an output buffer or a terminal.
- `Attributes::render_term` and `Token::styled` are left out, because they call a terminal styling library.
- `render_with_offset`, which `write_line_with_attrs` calls, is not part of this model.
- The `Content` storage type of src/text/mod.rs (lines 93-172) is left out. It is the storage behind rendering, and its `Storage` methods read fields the same way the `Text` ones do.
- `TextBuffer.New` models no spans. `Text::new_with_attributed` sorts the spans of an `Attributed` and keeps them only for rendering. No cursor operation reads or edits them, so `Text` has no spans field.
- The decimal printing of `format_qty` and `Display for Unit` is left out; it is Rust's float-to-string conversion.
- src/rdl/mod.rs `render` is left out; it joins clauses with a `Display for Node` that does not exist.
- Error messages are left out: the variants are modelled, and `SyntaxError` carries its source text, range and message, but the `Display` wording of each error is not.
- Units.From: quantities are exact `real`s, not `f64`, so rounding, NaN and the infinities are not modelled.
- Units.Pack: the threshold comparisons are exact on `real`s, where the source compares rounded `f64` values.
- Units.Add: the sum is exact, where the source rounds to `f64`.
- Scan.IsAlphabetic: accepts only the ASCII letters, while Rust's `char::is_alphabetic` accepts every Unicode `Alphabetic` code point. A Unicode letter such as `é` starts an identifier in the source but not in the model.
- Scan.Skip: the source keeps the next unread char in a one-char peek slot in front of an iterator, and the model folds the slot into `rest`. On a slot not yet loaded, the source's `skip` would load the char without consuming it. Every call site peeks first, so that state never reaches `skip`, and the modelled `index` agrees on every path the scanner takes.
- Parse.ParseFloat: accepts only digits with an optional dot and digits. Those are the only texts a `Number` token carries. Rust's `f64` parser also accepts exponents, signs and `inf`, which the scanner never produces.
- Parse.Combine: an operator token with empty text is answered `TokenNotMatched`, where the source's `unwrap` would panic; the scanner never queues one.
- Scan.LaType: `la_type` is called by the parser but defined nowhere. It is modelled as the kind of the next token, which is not consumed, or `None` when scanning fails.
- TextBuffer.Backspace: requires `idx >= 1`. At 0, `idx - 1` underflows in the source, and `backspace_rel` never calls it there.
- TextBuffer.InsertBackspace: is proved only for a code point that is not whitespace. For whitespace the round trip is false. On `ab cd` with width 5, inserting a tab at 3 gives `ab \tcd`, which wraps as `ab` with its hidden tail. Backspace at 4 then clamps the index to the end of the shown part and removes the original space, leaving `ab\tcd`.
- LegacyText.Home, LegacyText.End, LegacyText.Insert and LegacyText.Backspace: where the source panics (an index past the lines, an edit off a code point boundary), the model answers `None`.
- ContentBuffer.Reflow: the source counts `len()`, slices and edit positions in bytes but counts a row's characters. The model counts every character as one unit, which agrees with the source on ASCII text.
- ContentBuffer.Insert and ContentBuffer.Backspace: they require the position the source can edit without panicking: at most the length for `insert`, and below it for `backspace` on a non-empty text.
- Attrs.Splice: positions index the text's code points, where the source counts bytes and slices `str`s with them; on ASCII text they agree.
- Exec.Exec: evaluation takes the context as an immutable value, so "evaluation never changes the context" holds by construction and is not stated separately.

## Findings

| source | as written | input that shows it | evidently intended | confidence | as-written member | corrected member |
|---|---|---|---|---|---|---|
| src/rdl/parse.rs:46-49 | The arm `ADD =>` is an unqualified name, so it binds every operator char and every operator builds a sum | `1-2` parses as `1 + 2`; `a+b*c` parses as `a + (b + c)` | only `+` builds `Add`; any other operator is `TokenNotMatched` | not executed | Parse.MinusIsSum | Parse.Combine |
| src/rdl/exec.rs:76-83 | The arms `Ident`, `Number` and `Add` are unqualified names; the first binds every node, so every node is evaluated as an identifier | `Node::new_number(1.0)` gives `InvalidASTNode`; the module's test `a + b` fails | dispatch on the node type, as the test expects | not executed | Exec.AsWrittenRejects | Exec.ExecTest |
| src/rdl/scan.rs:322-333 | After a `.` the number demands a digit and fails with the integer and the dot consumed; `scan` then falls back to verbatim from there | `1.a` yields an empty `Verbatim` token and no token holds `1.` | the scanner loses no input: the number ends before a dot with no digit after it | not executed | Tokenize.DanglingDot | Tokenize.RewindingLossless |
| src/content.rs:159-189 | Only `idx == 0` returns `ZERO_POS` at once; on an empty text the loop never runs and the fall-through answers column 1 | `index(1)` on an empty content of width 1 gives `x = 1` | `ZERO_POS` on an empty text, as the later buffers do | not executed | ContentBuffer.EmptyIndexAsWritten | ContentBuffer.Index |
| src/content.rs:114-127 | With no row below, `down` reads `lines[pos.y]`, which is out of bounds when the cursor is on the row after the last | `down(3)` on `Hi\n` with width 4 panics | stay at the position past the last row | not executed | ContentBuffer.DownPanics | ContentBuffer.Down |
| src/content.rs:212-217 | At `loc` 0 `backspace_rel` still calls `backspace(0)`, deleting the char after the cursor | `backspace_rel` at `loc` 0 of `ab` leaves `b` | nothing is deleted at 0, as the later buffers do | not executed | ContentBuffer.BackspaceAtStart | ContentBuffer.BackspaceRel |

=== FILE: attrs.dfy ===
/**
 * Styled spans over a text (src/text/attrs.rs): the attributes of a span,
 * their markup rendering, the ordering of spans by start, and the splice
 * that copies the text between spans and renders the text inside them.
 *
 * The splice takes the renderer of one fragment as a parameter: the source
 * chooses it by `Mode`, and `Markup` is `RenderHtml`. Positions index the
 * text's elements; the source counts bytes and slices `str`s with them.
 */
module Attrs {
  import opened Wrappers
  import opened Cursor

  /** A colour, carried by the name its `Debug` format prints (`Blue`, `Green`, ...). */
  datatype Color = Color(name: string)

  datatype Attributes = Attributes(bold: bool, color: Option<Color>)

  /** No attribute set. */
  const Plain: Attributes := Attributes(false, None)

  /** The tags a fragment is wrapped in, outermost first: `b`, then the colour. */
  function Tags(a: Attributes): (tags: seq<string>)
    ensures |tags| == (if a.bold then 1 else 0) + (if a.color.Some? then 1 else 0)
    ensures tags == [] <==> a == Plain
    ensures a.bold ==> tags[0] == "b"
    ensures a.color.Some? ==> tags[|tags| - 1] == a.color.value.name
  {
    (if a.bold then ["b"] else []) + (if a.color.Some? then [a.color.value.name] else [])
  }

  function OpenTag(name: string): string
  {
    "<" + name + ">"
  }

  function CloseTag(name: string): string
  {
    "</" + name + ">"
  }

  /** A fragment nested in tags, the first tag outermost, each closed in reverse order. */
  function Wrap(tags: seq<string>, text: string): string
  {
    if tags == [] then text else OpenTag(tags[0]) + Wrap(tags[1..], text) + CloseTag(tags[0])
  }

  /**
   * `render_html`: the text nested in its attributes' tags, bold outside the
   * colour, each tag present only when its attribute is set.
   */
  function RenderHtml(a: Attributes, text: string): (r: string)
    ensures r == Wrap(Tags(a), text)
    ensures a == Plain ==> r == text
  {
    var b := if a.bold then OpenTag("b") else "";
    var c := if a.color.Some? then OpenTag(a.color.value.name) else "";
    var d := if a.color.Some? then CloseTag(a.color.value.name) else "";
    var e := if a.bold then CloseTag("b") else "";
    var r := b + c + text + d + e;
    if a.bold && a.color.Some? then
      NestBoth(a, text, r);
      r
    else if a.color.Some? then
      NestOne(a, a.color.value.name, text, r);
      r
    else if a.bold then
      NestOne(a, "b", text, r);
      r
    else
      assert Tags(a) == [] && r == [] + [] + text + [] + [];
      r
  }

  /** One tag around a fragment. */
  lemma WrapOne(n: string, text: string)
    ensures Wrap([n], text) == OpenTag(n) + text + CloseTag(n)
  {
    assert [n][1..] == [];
  }

  /** Two tags around a fragment, the first outermost. */
  lemma WrapTwo(m: string, n: string, text: string)
    ensures Wrap([m, n], text) == OpenTag(m) + OpenTag(n) + text + CloseTag(n) + CloseTag(m)
  {
    assert [m, n][1..] == [n];
    WrapOne(n, text);
  }

  /** Bold outside a colour: the `b` tags enclose the colour's. */
  lemma NestBoth(a: Attributes, text: string, r: string)
    requires a.bold && a.color.Some?
    requires r == OpenTag("b") + OpenTag(a.color.value.name) + text + CloseTag(a.color.value.name) + CloseTag("b")
    ensures Wrap(Tags(a), text) == r
  {
    assert Tags(a) == ["b", a.color.value.name];
    WrapTwo("b", a.color.value.name, text);
  }

  /** A single tag, with nothing opened or closed around it. */
  lemma NestOne(a: Attributes, n: string, text: string, r: string)
    requires Tags(a) == [n]
    requires r == [] + OpenTag(n) + text + CloseTag(n) + []
    ensures Wrap(Tags(a), text) == r
  {
    WrapOne(n, text);
  }

  /** A styled byte range. */
  datatype Span = Span(start: nat, end: nat, attrs: Attributes)

  /** `Ord for Span`: spans compare by start alone. */
  function Compare(a: Span, b: Span): (c: int)
    ensures c < 0 <==> a.start < b.start
    ensures c == 0 <==> a.start == b.start
    ensures c > 0 <==> a.start > b.start
  {
    if a.start < b.start then -1 else if a.start == b.start then 0 else 1
  }

  predicate Sorted(s: seq<Span>)
  {
    forall i, j | 0 <= i < j < |s| :: s[i].start <= s[j].start
  }

  /** A span after sorted spans none of which starts later keeps them sorted. */
  lemma SortedSnoc(s: seq<Span>, e: Span)
    requires Sorted(s) && forall f | f in s :: f.start <= e.start
    ensures Sorted(s + [e])
  {
    forall i, j | 0 <= i < j < |s + [e]| ensures (s + [e])[i].start <= (s + [e])[j].start {
      if j == |s| { assert (s + [e])[i] in s; }
    }
  }

  /** Place `x` after every trailing span that starts later, so after every span of equal start. */
  function InsertSpan(s: seq<Span>, x: Span): (r: seq<Span>)
    ensures |r| == |s| + 1
    decreases |s|
  {
    if s == [] || Compare(s[|s| - 1], x) <= 0 then s + [x]
    else InsertSpan(s[..|s| - 1], x) + [s[|s| - 1]]
  }

  /** Inserting into a sorted list keeps it sorted and adds exactly `x`. */
  lemma {:induction false} InsertSpanSorted(s: seq<Span>, x: Span)
    requires Sorted(s)
    ensures Sorted(InsertSpan(s, x)) && multiset(InsertSpan(s, x)) == multiset(s) + multiset{x}
    decreases |s|
  {
    if s == [] || Compare(s[|s| - 1], x) <= 0 {
      SortedSnoc(s, x);
    } else {
      var init := s[..|s| - 1];
      var last := s[|s| - 1];
      assert s == init + [last];
      var r := InsertSpan(init, x);
      InsertSpanSorted(init, x);
      assert forall f | f in r :: f.start <= last.start by {
        forall f | f in r ensures f.start <= last.start {
          assert f in multiset(r);
          if f != x {
            assert f in multiset(init);
            assert f in s;
          }
        }
      }
      SortedSnoc(r, last);
    }
  }

  /** `slice::sort` on spans: a stable insertion sort by start. */
  function SortSpans(s: seq<Span>): (r: seq<Span>)
    ensures |r| == |s|
  {
    if s == [] then [] else InsertSpan(SortSpans(s[..|s| - 1]), s[|s| - 1])
  }

  /** The sort orders the spans by start and keeps every one of them. */
  lemma {:induction false} SortSpansSorted(s: seq<Span>)
    ensures Sorted(SortSpans(s)) && multiset(SortSpans(s)) == multiset(s)
  {
    if s != [] {
      assert s == s[..|s| - 1] + [s[|s| - 1]];
      SortSpansSorted(s[..|s| - 1]);
      InsertSpanSorted(SortSpans(s[..|s| - 1]), s[|s| - 1]);
    }
  }

  /** `e`, if it starts at `k`. */
  function Keep(e: Span, k: nat): seq<Span>
  {
    if e.start == k then [e] else []
  }

  /** The spans starting at `k`, in their order. */
  function At(s: seq<Span>, k: nat): seq<Span>
  {
    if s == [] then [] else At(s[..|s| - 1], k) + Keep(s[|s| - 1], k)
  }

  lemma AtSnoc(s: seq<Span>, e: Span, k: nat)
    ensures At(s + [e], k) == At(s, k) + Keep(e, k)
  {
    assert (s + [e])[..|s|] == s;
  }

  /** Inserting before the last span: the last span stays last. */
  lemma InsertBeforeLast(s: seq<Span>, x: Span)
    requires s != [] && s[|s| - 1].start > x.start
    ensures s == s[..|s| - 1] + [s[|s| - 1]]
    ensures InsertSpan(s, x) == InsertSpan(s[..|s| - 1], x) + [s[|s| - 1]]
  {
    assert s == s[..|s| - 1] + [s[|s| - 1]];
  }

  lemma {:induction false} AtInsert(s: seq<Span>, x: Span, k: nat)
    ensures At(InsertSpan(s, x), k) == At(s, k) + Keep(x, k)
    decreases |s|
  {
    if s == [] || Compare(s[|s| - 1], x) <= 0 {
      AtSnoc(s, x, k);
    } else {
      var init := s[..|s| - 1];
      var last := s[|s| - 1];
      InsertBeforeLast(s, x);
      var r := InsertSpan(init, x);
      AtInsert(init, x, k);
      AtSnoc(r, last, k);
      AtSnoc(init, last, k);
      assert Keep(last, k) == [] || Keep(x, k) == [];
    }
  }

  /**
   * The sort is stable: the spans that share a start keep their input
   * order, as `slice::sort` promises.
   */
  lemma {:induction false} SortStable(s: seq<Span>, k: nat)
    ensures At(SortSpans(s), k) == At(s, k)
  {
    if s != [] {
      var init := s[..|s| - 1];
      assert s == init + [s[|s| - 1]];
      SortStable(init, k);
      AtInsert(SortSpans(init), s[|s| - 1], k);
      AtSnoc(init, s[|s| - 1], k);
    }
  }

  /** Spans that share a start are the same span: the order among them cannot show. */
  predicate TieFree(s: seq<Span>)
  {
    forall i, j | 0 <= i < |s| && 0 <= j < |s| && s[i].start == s[j].start :: s[i] == s[j]
  }

  /** Reordering keeps a list tie-free. */
  lemma TieFreePermutation(s: seq<Span>, a: seq<Span>)
    requires TieFree(s) && multiset(a) == multiset(s)
    ensures TieFree(a)
  {
    forall i, j | 0 <= i < |a| && 0 <= j < |a| && a[i].start == a[j].start ensures a[i] == a[j] {
      assert a[i] in multiset(s) && a[j] in multiset(s);
      var p :| 0 <= p < |s| && s[p] == a[i];
      var q :| 0 <= q < |s| && s[q] == a[j];
    }
  }

  /** Two sorted lists holding the same spans start with spans of the same start. */
  lemma SameFirst(a: seq<Span>, b: seq<Span>)
    requires Sorted(a) && Sorted(b) && multiset(a) == multiset(b) && a != [] && b != []
    ensures a[0].start == b[0].start && b[0] in a
  {
    assert b[0] in multiset(a) && a[0] in multiset(b);
    var i :| 0 <= i < |a| && a[i] == b[0];
    var j :| 0 <= j < |b| && b[j] == a[0];
  }

  /** Dropping the first span keeps the rest equal as multisets, and tie-free. */
  lemma DropFirst(a: seq<Span>, b: seq<Span>)
    requires TieFree(a) && multiset(a) == multiset(b) && a != [] && b != [] && a[0] == b[0]
    ensures multiset(a[1..]) == multiset(b[1..]) && TieFree(a[1..])
  {
    assert a == [a[0]] + a[1..] && b == [b[0]] + b[1..];
    assert multiset(a) == multiset{a[0]} + multiset(a[1..]);
    assert multiset(b) == multiset{b[0]} + multiset(b[1..]);
    assert multiset(a[1..]) == multiset(a) - multiset{a[0]};
    assert multiset(b[1..]) == multiset(b) - multiset{b[0]};
    forall i, j | 0 <= i < |a[1..]| && 0 <= j < |a[1..]| && a[1..][i].start == a[1..][j].start
      ensures a[1..][i] == a[1..][j]
    {
      assert a[1..][i] == a[i + 1] && a[1..][j] == a[j + 1];
    }
  }

  /** Two sorted tie-free lists that hold the same spans are the same list. */
  lemma {:induction false} SortedUnique(a: seq<Span>, b: seq<Span>)
    requires Sorted(a) && Sorted(b) && TieFree(a) && multiset(a) == multiset(b)
    ensures a == b
    decreases |a|
  {
    assert |a| == |multiset(a)| == |b|;
    if a != [] {
      SameFirst(a, b);
      var i :| 0 <= i < |a| && a[i] == b[0];
      assert a[0] == b[0];
      DropFirst(a, b);
      SortedUnique(a[1..], b[1..]);
      assert a == [a[0]] + a[1..] && b == [b[0]] + b[1..];
    }
  }

  /** Sorting tie-free spans forgets their input order. */
  lemma SortOrderFree(s: seq<Span>, t: seq<Span>)
    requires multiset(s) == multiset(t) && TieFree(s)
    ensures SortSpans(s) == SortSpans(t)
  {
    SortSpansSorted(s);
    SortSpansSorted(t);
    TieFreePermutation(s, SortSpans(s));
    SortedUnique(SortSpans(s), SortSpans(t));
  }

  /** What the splice needs of a fragment renderer. */
  type Renderer = (Attributes, string) -> string

  /**
   * The loop of `render_with_mode` from text position `x` over sorted
   * spans: the text before a span that starts after `x`, then the span's
   * clamped range rendered when it is not empty; then the rest of the text.
   */
  function Splice(text: string, spans: seq<Span>, x: nat, render: Renderer): (r: string)
    requires x <= |text|
    ensures spans == [] ==> r == text[x..]
  {
    if spans == [] then
      if x < |text| then text[x..] else []
    else
      var span := spans[0];
      var start := Min(span.start, |text|);
      var end := Min(span.end, |text|);
      var gap := if span.start > x then text[x..start] else [];
      var body := if end > start then render(span.attrs, text[start..end]) else [];
      gap + body + Splice(text, spans[1..], end, render)
  }

  /** Spans that are sorted, inside the text from `x` on, and do not overlap. */
  predicate Disjoint(text: string, spans: seq<Span>, x: nat)
  {
    && (forall i | 0 <= i < |spans| :: spans[i].start <= spans[i].end <= |text|)
    && (spans != [] ==> x <= spans[0].start)
    && (forall i | 0 < i < |spans| :: spans[i - 1].end <= spans[i].start)
  }

  /** A renderer that drops the markup, leaving the fragment. */
  function Untagged(a: Attributes, s: string): string
  {
    s
  }

  /**
   * Over disjoint in-bounds spans the text between and after the spans is
   * copied verbatim: rendering with the tags deleted gives back the text
   * from `x`.
   */
  lemma {:induction false} SpliceUntagged(text: string, spans: seq<Span>, x: nat)
    requires x <= |text| && Disjoint(text, spans, x)
    ensures Splice(text, spans, x, Untagged) == text[x..]
    decreases |spans|
  {
    if spans != [] {
      var span := spans[0];
      assert Disjoint(text, spans[1..], span.end) by {
        forall i | 0 < i < |spans[1..]| ensures spans[1..][i - 1].end <= spans[1..][i].start {
          assert spans[1..][i] == spans[i + 1];
        }
        if |spans| > 1 { assert spans[0].end <= spans[1].start; }
      }
      SpliceUntagged(text, spans[1..], span.end);
      var gap := if span.start > x then text[x..span.start] else [];
      var body := if span.end > span.start then text[span.start..span.end] else [];
      assert gap + body + text[span.end..] == text[x..];
    }
  }

  /**
   * The free `render_with_mode`: sort a copy of the spans, then splice. With
   * no spans the text comes back unchanged; spans that are sorted with no
   * ties come back in the same order.
   */
  function RenderWith(text: string, spans: seq<Span>, render: Renderer): (r: string)
    ensures spans == [] ==> r == text
  {
    Splice(text, SortSpans(spans), 0, render)
  }

  /** `render_with_mode` in `Markup` mode. */
  function RenderMarkup(text: string, spans: seq<Span>): (r: string)
    ensures spans == [] ==> r == text
  {
    RenderWith(text, spans, RenderHtml)
  }

  /** The spans as a caller lists them, in any order, render as they do sorted. */
  lemma RenderOrderFree(text: string, s: seq<Span>, t: seq<Span>, render: Renderer)
    requires multiset(s) == multiset(t) && TieFree(s)
    ensures RenderWith(text, s, render) == RenderWith(text, t, render)
  {
    SortOrderFree(s, t);
  }

  /**
   * Disjoint in-bounds spans render to the text, with each span's range
   * wrapped in tags: deleting the tags gives back the text.
   */
  lemma RenderUntagged(text: string, spans: seq<Span>)
    requires Disjoint(text, SortSpans(spans), 0)
    ensures RenderWith(text, spans, Untagged) == text
  {
    SpliceUntagged(text, SortSpans(spans), 0);
  }

  /** A span whose clamped range is empty renders nothing; one past the text is cut at its end. */
  lemma SpanClamped(text: string, span: Span, x: nat, render: Renderer)
    requires x <= |text|
    ensures Min(span.end, |text|) <= Min(span.start, |text|) ==>
      Splice(text, [span], x, render) ==
        (if span.start > x then text[x..Min(span.start, |text|)] else []) + Splice(text, [], Min(span.end, |text|), render)
    ensures x <= span.start < span.end ==>
      Splice(text, [span], x, render) ==
        text[x..Min(span.start, |text|)]
        + (if span.start < |text| then render(span.attrs, text[span.start..Min(span.end, |text|)]) else [])
        + text[Min(span.end, |text|)..]
  {
    assert [span][1..] == [];
  }

  /** `Attributed`: a text and its spans. */
  datatype Attributed = Attributed(text: string, spans: seq<Span>)

  /** `Attributed::render_with_mode` in `Markup` mode: the free renderer on its own text and spans. */
  function RenderAttributed(a: Attributed): (r: string)
    ensures r == RenderMarkup(a.text, a.spans)
    ensures a.spans == [] ==> r == a.text
  {
    Splice(a.text, SortSpans(a.spans), 0, RenderHtml)
  }

  /** A single span is sorted as it stands. */
  lemma SortOne(e: Span)
    ensures SortSpans([e]) == [e]
  {
    assert [e][..0] == [];
  }

  /** Two spans sort by start; on a tie they keep their order. */
  lemma SortTwo(p: Span, q: Span)
    ensures p.start <= q.start ==> SortSpans([p, q]) == [p, q]
    ensures q.start < p.start ==> SortSpans([p, q]) == [q, p]
  {
    assert [p, q][..1] == [p] && [p, q][1] == q;
    SortOne(p);
    assert SortSpans([p, q]) == InsertSpan([p], q);
    if q.start < p.start {
      assert [p][..0] == [];
      assert InsertSpan([p], q) == InsertSpan([], q) + [p];
    } else {
      assert InsertSpan([p], q) == [p] + [q];
    }
  }

  /** One in-bounds span at or after `x`: the gap before it, its fragment, then the rest. */
  lemma SpliceCons(text: string, span: Span, rest: seq<Span>, x: nat, render: Renderer)
    requires x <= span.start < span.end <= |text|
    ensures Splice(text, [span] + rest, x, render) ==
      text[x..span.start] + render(span.attrs, text[span.start..span.end]) + Splice(text, rest, span.end, render)
  {
    assert ([span] + rest)[0] == span && ([span] + rest)[1..] == rest;
    if span.start == x { assert text[x..span.start] == []; }
  }

  /** Two disjoint in-bounds spans from `x`: each gap copied, each fragment rendered. */
  lemma SpliceTwo(text: string, p: Span, q: Span, x: nat, render: Renderer)
    requires x <= p.start < p.end <= q.start < q.end <= |text|
    ensures Splice(text, [p, q], x, render) == text[x..p.start] + render(p.attrs, text[p.start..p.end])
      + text[p.end..q.start] + render(q.attrs, text[q.start..q.end]) + text[q.end..]
  {
    SpliceCons(text, q, [], p.end, render);
    assert [q] + [] == [q];
    SpliceCons(text, p, [q], x, render);
    assert [p] + [q] == [p, q];
  }
}

=== FILE: attrs_examples.dfy ===
/**
 * The renderings the source's tests pin down, derived from the general
 * lemmas of `Attrs`.
 */
module AttrsExamples {
  import opened Wrappers
  import opened Attrs

  lemma BoldExample()
    ensures RenderHtml(Attributes(true, None), "Hello") == "<b>Hello</b>"
  {
  }

  lemma BoldBlueExample()
    ensures RenderHtml(Attributes(true, Some(Color("Blue"))), "Hello") == "<b>" + "<Blue>" + "Hello" + "</Blue>" + "</b>"
  {
    assert OpenTag("Blue") == "<Blue>" && CloseTag("Blue") == "</Blue>";
  }

  lemma GreenExample()
    ensures RenderHtml(Attributes(false, Some(Color("Green"))), "there") == "<Green>" + "there" + "</Green>"
  {
    assert OpenTag("Green") == "<Green>" && CloseTag("Green") == "</Green>";
  }

  /** One span at the front of a text: its fragment rendered, then the rest. */
  lemma MarkupExample(t: string, a: Attributes)
    requires |t| >= 5
    ensures RenderMarkup(t, [Span(0, 5, a)]) == RenderHtml(a, t[..5]) + t[5..]
  {
    SortOne(Span(0, 5, a));
    SpliceCons(t, Span(0, 5, a), [], 0, RenderHtml);
    assert [Span(0, 5, a)] + [] == [Span(0, 5, a)];
    assert t[0..0] == [];
  }

  /** Two spans given out of order render in text order, with the gaps between them copied. */
  lemma AttributedExample(t: string, p: Attributes, q: Attributes, render: Renderer)
    requires |t| >= 12
    ensures RenderWith(t, [Span(7, 12, q), Span(0, 5, p)], render)
      == render(p, t[0..5]) + t[5..7] + render(q, t[7..12]) + t[12..]
  {
    var spans := [Span(7, 12, q), Span(0, 5, p)];
    var sorted := [Span(0, 5, p), Span(7, 12, q)];
    SortTwo(Span(7, 12, q), Span(0, 5, p));
    assert SortSpans(spans) == sorted;
    assert RenderWith(t, spans, render) == Splice(t, sorted, 0, render);
    SpliceTwo(t, Span(0, 5, p), Span(7, 12, q), 0, render);
    assert t[0..0] == [];
  }

  lemma HelloSlices(t: string)
    requires t == "Hello, there."
    ensures t[0..5] == "Hello" && t[5..7] == ", " && t[7..12] == "there" && t[12..] == "."
  {
  }

  /** The greeting's fragments, before their tags are spelled out. */
  lemma HelloPieces(t: string, spans: seq<Span>)
    requires t == "Hello, there."
    requires spans == [Span(7, 12, Attributes(false, Some(Color("Green")))), Span(0, 5, Attributes(true, Some(Color("Blue"))))]
    ensures RenderAttributed(Attributed(t, spans))
      == RenderHtml(Attributes(true, Some(Color("Blue"))), "Hello") + ", "
       + RenderHtml(Attributes(false, Some(Color("Green"))), "there") + "."
  {
    assert RenderAttributed(Attributed(t, spans)) == RenderWith(t, spans, RenderHtml);
    AttributedExample(t, Attributes(true, Some(Color("Blue"))), Attributes(false, Some(Color("Green"))), RenderHtml);
    HelloSlices(t);
  }

  /** The source's own example: a bold blue greeting and a green word, listed out of order. */
  lemma HelloExample(t: string, spans: seq<Span>)
    requires t == "Hello, there."
    requires spans == [Span(7, 12, Attributes(false, Some(Color("Green")))), Span(0, 5, Attributes(true, Some(Color("Blue"))))]
    ensures RenderAttributed(Attributed(t, spans))
      == "<b>" + "<Blue>" + "Hello" + "</Blue>" + "</b>" + ", " + "<Green>" + "there" + "</Green>" + "."
  {
    HelloPieces(t, spans);
    BoldBlueExample();
    GreenExample();
  }
}

=== FILE: content.dfy ===
/**
 * The first generation of the text buffer (src/content.rs): a text cut into
 * rows of at most `width` characters, or at a newline, with cursor motion
 * and single-character editing on top.
 *
 * The source counts `len()`, slices and edit positions in bytes but counts
 * the characters of a row; the model treats every character as one unit,
 * which is exact for ASCII text.
 */
module ContentBuffer {
  import opened Wrappers
  import opened Cursor

  /** A row: its number, the position of its first character and how many characters it holds. */
  datatype Line = Line(num: nat, index: nat, length: nat)

  /** `upper`: the position just after the row. */
  function Upper(l: Line): nat
  {
    l.index + l.length
  }

  datatype Content = Content(text: seq<char>, width: nat, lines: seq<Line>, loc: nat)

  /** The widest a row can be: a width of 0 still puts one character on each row. */
  function MaxRow(width: nat): nat
  {
    if width == 0 then 1 else width
  }

  /**
   * The loop of `reflow` from character `i` on: the current row started at
   * `f`, holds `x` characters and is numbered `y`. A row ends after a
   * newline or once it reaches `width` characters; what is left at the end
   * is a last, unfinished row.
   */
  function Scan(text: seq<char>, width: nat, i: nat, f: nat, x: nat, y: nat): (r: seq<Line>)
    requires i <= |text|
    ensures r == [] <==> i == |text| && x == 0
    decreases |text| - i
  {
    if i == |text| then
      if x > 0 then [Line(y, f, x)] else []
    else
      var x1 := x + 1;
      if text[i] == '\n' || x1 >= width then [Line(y, f, x1)] + Scan(text, width, i + 1, f + x1, 0, y + 1)
      else Scan(text, width, i + 1, f, x1, y)
  }

  /** `reflow`. */
  function Reflow(text: seq<char>, width: nat): (r: seq<Line>)
    ensures r == [] <==> text == []
  {
    Scan(text, width, 0, 0, 0, 0)
  }

  /** No newline inside a row, except as its last character. */
  predicate NoInnerBreak(text: seq<char>, l: Line)
  {
    Upper(l) <= |text| && forall j | l.index <= j < Upper(l) - 1 :: text[j] != '\n'
  }

  /** A row that `reflow` closes: it ends in a newline or is full. */
  predicate Broken(text: seq<char>, width: nat, l: Line)
  {
    1 <= l.length && Upper(l) <= |text| && (text[Upper(l) - 1] == '\n' || l.length >= width)
  }

  /**
   * The rows of `text[f..]`, numbered from `y`: they follow each other with
   * no gap up to the end of the text, each holds one to `MaxRow(width)`
   * characters and no newline before its last, and each but the last was
   * closed by a newline or by filling up.
   */
  predicate Rows(text: seq<char>, width: nat, r: seq<Line>, f: nat, y: nat)
  {
    && (r == [] <==> f == |text|)
    && (r != [] ==> r[0].index == f && Upper(r[|r| - 1]) == |text|)
    && Chained(r, y)
    && (forall k | 0 <= k < |r| :: r[k].length <= MaxRow(width))
    && (forall k | 0 <= k < |r| :: NoInnerBreak(text, r[k]))
    && (forall k | 0 <= k < |r| - 1 :: Broken(text, width, r[k]))
  }

  /** Non-empty rows numbered from `y`, each starting where the one before ends. */
  predicate Chained(r: seq<Line>, y: nat)
  {
    && (forall k | 0 < k < |r| :: r[k].index == Upper(r[k - 1]))
    && (forall k | 0 <= k < |r| :: r[k].num == y + k && 1 <= r[k].length)
  }

  /** A layout of the whole text, rows numbered from 0. */
  predicate Laid(text: seq<char>, width: nat, lines: seq<Line>)
  {
    Rows(text, width, lines, 0, 0)
  }

  /** A closed first row followed by the rows of the rest. */
  lemma RowsCons(text: seq<char>, width: nat, l: Line, rest: seq<Line>, f: nat, y: nat)
    requires Rows(text, width, rest, Upper(l), y + 1)
    requires l.index == f && l.num == y && 1 <= l.length <= MaxRow(width) && NoInnerBreak(text, l)
    requires rest != [] ==> Broken(text, width, l)
    ensures Rows(text, width, [l] + rest, f, y)
  {
    var r := [l] + rest;
    assert forall k | 0 < k < |r| :: r[k] == rest[k - 1];
    if rest != [] {
      assert r[|r| - 1] == rest[|rest| - 1];
    }
  }

  /** The rows after the first are the rows of the rest of the text. */
  lemma RowsTail(text: seq<char>, width: nat, r: seq<Line>, f: nat, y: nat)
    requires Rows(text, width, r, f, y) && r != []
    ensures Rows(text, width, r[1..], Upper(r[0]), y + 1)
  {
    var t := r[1..];
    assert forall k | 0 <= k < |t| :: t[k] == r[k + 1];
    if t == [] {
      assert Upper(r[0]) == |text|;
    } else {
      assert t[|t| - 1] == r[|r| - 1];
      assert Upper(r[0]) < |text| by {
        assert r[1].index == Upper(r[0]);
        assert Upper(r[1]) <= |text|;
      }
    }
  }

  /** Every state the loop of `reflow` passes through yields rows of the rest of the text. */
  lemma {:induction false} ScanRows(text: seq<char>, width: nat, i: nat, f: nat, x: nat, y: nat)
    requires i <= |text| && f + x == i && x < MaxRow(width)
    requires forall j | f <= j < i :: text[j] != '\n'
    ensures Rows(text, width, Scan(text, width, i, f, x, y), f, y)
    decreases |text| - i
  {
    if i == |text| {
      ScanLast(text, width, f, x, y);
    } else if text[i] == '\n' || x + 1 >= width {
      ScanRows(text, width, i + 1, i + 1, 0, y + 1);
      ScanClose(text, width, i, f, x, y);
    } else {
      ScanRows(text, width, i + 1, f, x + 1, y);
    }
  }

  /** At the end of the text, what the loop holds is the last row, if anything. */
  lemma ScanLast(text: seq<char>, width: nat, f: nat, x: nat, y: nat)
    requires f + x == |text| && x < MaxRow(width)
    requires forall j | f <= j < |text| :: text[j] != '\n'
    ensures Rows(text, width, Scan(text, width, |text|, f, x, y), f, y)
  {
    if x > 0 {
      var r := [Line(y, f, x)];
      assert Scan(text, width, |text|, f, x, y) == r;
      assert r[|r| - 1] == Line(y, f, x);
    }
  }

  /** A character that closes the row puts the row in front of the rows of the rest. */
  lemma ScanClose(text: seq<char>, width: nat, i: nat, f: nat, x: nat, y: nat)
    requires i < |text| && f + x == i && x < MaxRow(width) && (text[i] == '\n' || x + 1 >= width)
    requires forall j | f <= j < i :: text[j] != '\n'
    requires Rows(text, width, Scan(text, width, i + 1, i + 1, 0, y + 1), i + 1, y + 1)
    ensures Rows(text, width, Scan(text, width, i, f, x, y), f, y)
  {
    var l := Line(y, f, x + 1);
    var rest := Scan(text, width, i + 1, i + 1, 0, y + 1);
    assert Scan(text, width, i, f, x, y) == [l] + rest;
    assert NoInnerBreak(text, l);
    RowsCons(text, width, l, rest, f, y);
  }

  /** `reflow` lays the text out as `Laid` describes. */
  lemma ReflowLaid(text: seq<char>, width: nat)
    ensures Laid(text, width, Reflow(text, width))
  {
    ScanRows(text, width, 0, 0, 0, 0);
  }

  /** Two layouts of the same text from the same place are the same rows. */
  lemma {:induction false} RowsUnique(text: seq<char>, width: nat, r1: seq<Line>, r2: seq<Line>, f: nat, y: nat)
    requires Rows(text, width, r1, f, y) && Rows(text, width, r2, f, y)
    ensures r1 == r2
    decreases |r1|
  {
    if r1 != [] {
      var a := r1[0];
      var b := r2[0];
      assert a.length == b.length by {
        FirstRowShortest(text, width, r1, r2, f, y);
        FirstRowShortest(text, width, r2, r1, f, y);
      }
      RowsTail(text, width, r1, f, y);
      RowsTail(text, width, r2, f, y);
      RowsUnique(text, width, r1[1..], r2[1..], Upper(a), y + 1);
      assert r1 == [a] + r1[1..] && r2 == [b] + r2[1..];
    }
  }

  /** No layout of a text closes its first row before another layout of it does. */
  lemma FirstRowShortest(text: seq<char>, width: nat, r1: seq<Line>, r2: seq<Line>, f: nat, y: nat)
    requires Rows(text, width, r1, f, y) && Rows(text, width, r2, f, y) && r1 != []
    ensures r2 != [] && r2[0].length <= r1[0].length
  {
    var a := r1[0];
    var b := r2[0];
    assert NoInnerBreak(text, b);
    if |r1| > 1 {
      assert Broken(text, width, a);
    }
  }

  /** `Laid` characterizes `reflow`: its rows are the only layout with those properties. */
  lemma LaidIsReflow(text: seq<char>, width: nat, lines: seq<Line>)
    ensures Laid(text, width, lines) <==> lines == Reflow(text, width)
  {
    ReflowLaid(text, width);
    if Laid(text, width, lines) {
      RowsUnique(text, width, lines, Reflow(text, width), 0, 0);
    }
  }

  /** Chained rows are ordered: an earlier row ends where or before a later one starts. */
  lemma {:induction false} RowsOrdered(r: seq<Line>, y: nat, j: nat, k: nat)
    requires Chained(r, y) && j < k < |r|
    ensures Upper(r[j]) <= r[k].index
    ensures j + 1 < k ==> Upper(r[j]) < r[k].index
    decreases k - j
  {
    if j + 1 < k {
      RowsOrdered(r, y, j, k - 1);
    }
  }

  /** A content laid out from its text; every row is non-empty and inside the text. */
  predicate Wf(c: Content)
  {
    && c.lines == Reflow(c.text, c.width)
    && forall k | 0 <= k < |c.lines| :: 1 <= c.lines[k].length && Upper(c.lines[k]) <= |c.text|
  }

  /** A text and its `reflow`. */
  function Laidout(text: seq<char>, width: nat, loc: nat): (c: Content)
    ensures Wf(c) && c.text == text && c.width == width && c.loc == loc
  {
    ReflowLaid(text, width);
    Content(text, width, Reflow(text, width), loc)
  }

  /** A laid-out content whose remembered cursor is inside the text, as every `_rel` operation keeps it. */
  predicate Placed(c: Content)
  {
    Wf(c) && c.loc <= |c.text|
  }

  /** `new` and `new_with_text`. */
  function New(width: nat, text: seq<char>): (c: Content)
    ensures Placed(c) && c.text == text && c.width == width && c.loc == 0
    ensures text == [] ==> c.lines == []
  {
    Laidout(text, width, 0)
  }

  /** A laid-out content's rows, with the facts about them the operations use. */
  lemma WfLaid(c: Content)
    requires Wf(c)
    ensures Laid(c.text, c.width, c.lines)
    ensures c.lines == [] <==> c.text == []
  {
    ReflowLaid(c.text, c.width);
  }

  /**
   * The loop of `index` from row `i` on; `x`, `y` and `nl` are what the loop
   * has recorded so far. A row whose range holds `idx`, its end included,
   * answers the column `idx - index` if that is inside the row; otherwise
   * its last column and whether its last character is a newline are
   * recorded and the loop goes on.
   */
  function IndexLoop(text: seq<char>, width: nat, lines: seq<Line>, idx: nat, i: nat, x: nat, y: nat, nl: bool): (p: Pos)
    requires i <= |lines| && forall l <- lines :: Upper(l) <= |text|
    ensures p.index == idx
    decreases |lines| - i
  {
    if i == |lines| then
      if nl || x + 1 > width then Pos(idx, 0, y + 1) else Pos(idx, x + 1, y)
    else
      var l := lines[i];
      assert l in lines;
      if l.index <= idx <= Upper(l) then
        var eix := idx - l.index;
        if eix < l.length then Pos(idx, eix, l.num)
        else if l.length == 0 then IndexLoop(text, width, lines, idx, i + 1, x, l.num, true)
        else IndexLoop(text, width, lines, idx, i + 1, l.length - 1, l.num, text[Upper(l) - 1] == '\n')
      else IndexLoop(text, width, lines, idx, i + 1, x, l.num, nl)
  }

  lemma LaidInBounds(text: seq<char>, width: nat, lines: seq<Line>)
    requires Laid(text, width, lines)
    ensures forall l <- lines :: Upper(l) <= |text|
  {
    forall l <- lines ensures Upper(l) <= |text| {
      var k :| 0 <= k < |lines| && lines[k] == l;
    }
  }

  /** `index` as the source writes it: only a zero index answers `ZERO_POS` at once. */
  function IndexAsWritten(c: Content, idx: nat): (p: Pos)
    requires Wf(c)
    ensures p.index == if idx == 0 then 0 else Min(idx, |c.text|)
  {
    WfLaid(c);
    LaidInBounds(c.text, c.width, c.lines);
    if idx == 0 then Zero else IndexLoop(c.text, c.width, c.lines, Min(idx, |c.text|), 0, 0, 0, false)
  }

  /**
   * `index`, answering `ZERO_POS` for an empty text as well, as the later
   * buffers do. Inside the text the cursor is on the row that holds the
   * index, at its distance from the row start. At the end of the text it is
   * after the last row's last character, or at the start of the next row
   * when that row ends in a newline or has no room left.
   */
  function Index(c: Content, idx: nat): (p: Pos)
    requires Wf(c)
    ensures p.index == Min(idx, |c.text|)
    ensures idx == 0 || |c.text| == 0 ==> p == Zero
    ensures p.y <= |c.lines|
    ensures 0 < idx < |c.text| ==>
      && p.y < |c.lines|
      && c.lines[p.y].index <= idx < Upper(c.lines[p.y])
      && p.x == idx - c.lines[p.y].index
    ensures 0 < |c.text| <= idx ==>
      var l := c.lines[|c.lines| - 1];
      if c.text[|c.text| - 1] == '\n' || l.length > c.width then p == Pos(|c.text|, 0, |c.lines|)
      else p == Pos(|c.text|, l.length, |c.lines| - 1)
  {
    if idx == 0 || |c.text| == 0 then Zero
    else
      IndexFacts(c, idx);
      IndexAsWritten(c, idx)
  }

  /** On a non-empty text the corrected `index` is the source's. */
  lemma IndexAgrees(c: Content, idx: nat)
    requires Wf(c) && |c.text| > 0
    ensures Index(c, idx) == IndexAsWritten(c, idx)
  {
  }

  lemma IndexFacts(c: Content, idx: nat)
    requires Wf(c) && 0 < idx && 0 < |c.text|
    ensures var p := IndexAsWritten(c, idx);
      && p.y <= |c.lines|
      && (idx < |c.text| ==>
            && p.y < |c.lines|
            && c.lines[p.y].index <= idx < Upper(c.lines[p.y])
            && p.x == idx - c.lines[p.y].index)
      && (|c.text| <= idx ==>
            var l := c.lines[|c.lines| - 1];
            if c.text[|c.text| - 1] == '\n' || l.length > c.width then p == Pos(|c.text|, 0, |c.lines|)
            else p == Pos(|c.text|, l.length, |c.lines| - 1))
  {
    WfLaid(c);
    LaidInBounds(c.text, c.width, c.lines);
    var lines := c.lines;
    if idx < |c.text| {
      var k := RowOf(c.text, c.width, lines, idx);
      IndexInside(c.text, c.width, lines, idx, 0, 0, 0, false, k);
    } else {
      IndexEnd(c.text, c.width, lines, 0, 0, 0, false);
    }
  }

  /** The row holding a position inside the text. */
  lemma RowOf(text: seq<char>, width: nat, lines: seq<Line>, idx: nat) returns (k: nat)
    requires Laid(text, width, lines) && idx < |text|
    ensures k < |lines| && lines[k].index <= idx < Upper(lines[k])
  {
    k := RowOfFrom(text, width, lines, idx, |lines|);
  }

  lemma {:induction false} RowOfFrom(text: seq<char>, width: nat, lines: seq<Line>, idx: nat, m: nat) returns (k: nat)
    requires Laid(text, width, lines) && 0 < m <= |lines| && idx < Upper(lines[m - 1])
    ensures k < m && lines[k].index <= idx < Upper(lines[k])
    decreases m
  {
    if idx >= lines[m - 1].index {
      k := m - 1;
    } else {
      assert lines[0].index == 0;
      assert lines[m - 1].index == Upper(lines[m - 2]);
      k := RowOfFrom(text, width, lines, idx, m - 1);
    }
  }

  /** Before the row holding `idx`, the loop of `index` only moves on; at that row it answers. */
  lemma {:induction false} IndexInside(text: seq<char>, width: nat, lines: seq<Line>, idx: nat,
                                       i: nat, x: nat, y: nat, nl: bool, k: nat)
    requires Chained(lines, 0) && forall l <- lines :: Upper(l) <= |text|
    requires i <= k < |lines| && lines[k].index <= idx < Upper(lines[k])
    ensures IndexLoop(text, width, lines, idx, i, x, y, nl) == Pos(idx, idx - lines[k].index, k)
    decreases k - i
  {
    var l := lines[i];
    if i < k {
      RowsOrdered(lines, 0, i, k);
      assert l.length >= 1;
      if l.index <= idx <= Upper(l) {
        assert idx - l.index == l.length;
        IndexInside(text, width, lines, idx, i + 1, l.length - 1, l.num, text[Upper(l) - 1] == '\n', k);
      } else {
        IndexInside(text, width, lines, idx, i + 1, x, l.num, nl, k);
      }
    } else {
      assert l.num == k;
    }
  }

  /** At the end of the text the loop runs through every row and answers from the last. */
  lemma {:induction false} IndexEnd(text: seq<char>, width: nat, lines: seq<Line>, i: nat, x: nat, y: nat, nl: bool)
    requires Chained(lines, 0) && forall l <- lines :: Upper(l) <= |text|
    requires 0 < |text| && i < |lines| && Upper(lines[|lines| - 1]) == |text|
    ensures var l := lines[|lines| - 1];
      IndexLoop(text, width, lines, |text|, i, x, y, nl) ==
        if text[|text| - 1] == '\n' || l.length > width then Pos(|text|, 0, |lines|)
        else Pos(|text|, l.length, |lines| - 1)
    decreases |lines| - i
  {
    var l := lines[i];
    var n := |lines|;
    if i + 1 < n {
      RowsOrdered(lines, 0, i, n - 1);
      assert l.index <= Upper(l) < |text| by {
        assert lines[n - 1].length >= 1;
      }
      IndexEnd(text, width, lines, i + 1, x, l.num, nl);
    } else {
      assert Upper(l) == |text| && l.num == n - 1 && l.length >= 1;
      var p := IndexLoop(text, width, lines, |text|, n, l.length - 1, l.num, text[Upper(l) - 1] == '\n');
      assert IndexLoop(text, width, lines, |text|, i, x, y, nl) == p;
    }
  }

  /** `left`: one character back, or `ZERO_POS` at the start. */
  function Left(c: Content, idx: nat): (p: Pos)
    requires Wf(c)
    ensures p.index == if idx == 0 then 0 else Min(idx - 1, |c.text|)
    ensures idx <= 1 ==> p == Zero
  {
    if idx > 0 then Index(c, idx - 1) else Zero
  }

  /** `right`: one character forward, never past the text. */
  function Right(c: Content, idx: nat): (p: Pos)
    requires Wf(c)
    ensures p.index == Min(idx + 1, |c.text|)
  {
    Index(c, idx + 1)
  }

  /** The row above or below a cursor at column `x`: the same column if the row is that long, else its last. */
  function Onto(l: Line, x: nat, n: nat): (p: Pos)
    requires l.length >= 1
    ensures p.y == n && p.x < l.length && p.index == l.index + p.x && p.index < Upper(l)
    ensures p.x == x || (p.x == l.length - 1 && x >= l.length)
  {
    if l.length > x then Pos(l.index + x, x, n) else Pos(Upper(l) - 1, l.length - 1, n)
  }

  /** `up`: from the first row, `ZERO_POS`; otherwise onto the row above. */
  function Up(c: Content, idx: nat): (p: Pos)
    requires Wf(c)
    ensures var q := Index(c, idx);
      && (q.y == 0 ==> p == Zero)
      && (q.y > 0 ==> p == Onto(c.lines[q.y - 1], q.x, q.y - 1))
    ensures p.index <= |c.text|
  {
    var pos := Index(c, idx);
    if pos.y == 0 then Zero
    else
      WfLaid(c);
      LaidInBounds(c.text, c.width, c.lines);
      var l := c.lines[pos.y - 1];
      assert l in c.lines;
      Onto(l, pos.x, pos.y - 1)
  }

  /**
   * `down` as the source writes it, `None` where it panics. With no row
   * below, it stays on the cursor's row at its end, which indexes
   * `lines[pos.y]`: out of bounds when the cursor is on the row after the
   * last one, and on an empty text.
   */
  function DownAsWritten(c: Content, idx: nat): (r: Option<Pos>)
    requires Wf(c)
    ensures r.None? <==> IndexAsWritten(c, idx).y >= |c.lines|
  {
    var pos := IndexAsWritten(c, idx);
    var n := pos.y + 1;
    if n >= |c.lines| then
      if pos.y < |c.lines| then
        var l := c.lines[pos.y];
        Some(Pos(Upper(l) - 1, l.length, pos.y))
      else None
    else
      WfLaid(c);
      LaidInBounds(c.text, c.width, c.lines);
      var l := c.lines[n];
      assert l in c.lines;
      Some(Onto(l, pos.x, n))
  }

  /**
   * `down`, staying put when the cursor is already below the last row. On
   * the last row it goes to the row's end; otherwise onto the row below.
   */
  function Down(c: Content, idx: nat): (p: Pos)
    requires Wf(c)
    ensures var q := Index(c, idx);
      && (q.y >= |c.lines| ==> p == q)
      && (q.y + 1 == |c.lines| ==>
            var l := c.lines[q.y]; p == Pos(Upper(l) - 1, l.length, q.y))
      && (q.y + 1 < |c.lines| ==> p == Onto(c.lines[q.y + 1], q.x, q.y + 1))
    ensures Index(c, idx).y < |c.lines| ==> DownAsWritten(c, idx) == Some(p)
    ensures p.index <= |c.text|
  {
    var pos := Index(c, idx);
    if pos.y >= |c.lines| then pos
    else
      DownAgrees(c, idx);
      DownAsWritten(c, idx).value
  }

  lemma DownAgrees(c: Content, idx: nat)
    requires Wf(c) && Index(c, idx).y < |c.lines|
    ensures Index(c, idx) == IndexAsWritten(c, idx)
  {
    WfLaid(c);
  }

  /**
   * `insert` (which panics past the end of the text): splice `ch` in at
   * `idx`, lay out again and answer the position one after `idx`.
   */
  function Insert(c: Content, idx: nat, ch: char): (r: (Content, Pos))
    requires Wf(c) && idx <= |c.text|
    ensures Wf(r.0) && r.0.width == c.width && r.0.loc == c.loc
    ensures r.0.text == c.text[..idx] + [ch] + c.text[idx..]
    ensures r.1 == Index(r.0, idx + 1) && r.1.index == idx + 1
  {
    var text := c.text[..idx] + [ch] + c.text[idx..];
    var c2 := Laidout(text, c.width, c.loc);
    (c2, Index(c2, idx + 1))
  }

  /**
   * `backspace` (which panics at or past the end of a non-empty text):
   * nothing on an empty text; otherwise remove the character at `idx`, lay
   * out again and answer the position of `idx`.
   */
  function Backspace(c: Content, idx: nat): (r: (Content, Pos))
    requires Wf(c) && (|c.text| == 0 || idx < |c.text|)
    ensures Wf(r.0) && r.0.width == c.width && r.0.loc == c.loc
    ensures |c.text| == 0 ==> r == (c, Zero)
    ensures |c.text| > 0 ==>
      && r.0.text == c.text[..idx] + c.text[idx + 1..]
      && r.1 == Index(r.0, idx) && r.1.index == idx
  {
    if |c.text| == 0 then (c, Zero)
    else
      var text := c.text[..idx] + c.text[idx + 1..];
      var c2 := Laidout(text, c.width, c.loc);
      (c2, Index(c2, idx))
  }

  /** Deleting at the position just inserted at gives the text back. */
  lemma InsertBackspace(c: Content, idx: nat, ch: char)
    requires Wf(c) && idx <= |c.text|
    ensures Backspace(Insert(c, idx, ch).0, idx).0.text == c.text
  {
    var u := c.text[..idx] + [ch] + c.text[idx..];
    assert u[..idx] == c.text[..idx];
    assert u[idx + 1..] == c.text[idx..];
  }

  /** Move the remembered cursor to where an operation answered. */
  function Moved(c: Content, p: Pos): (r: (Content, Pos))
    ensures r.0 == c.(loc := p.index) && r.1 == p
  {
    (c.(loc := p.index), p)
  }

  /** `up_rel`. */
  function UpRel(c: Content): (r: (Content, Pos))
    requires Placed(c)
    ensures Placed(r.0) && r.1 == Up(c, c.loc) && r.0 == c.(loc := r.1.index)
  {
    Moved(c, Up(c, c.loc))
  }

  /** `down_rel`. */
  function DownRel(c: Content): (r: (Content, Pos))
    requires Placed(c)
    ensures Placed(r.0) && r.1 == Down(c, c.loc) && r.0 == c.(loc := r.1.index)
  {
    Moved(c, Down(c, c.loc))
  }

  /** `left_rel`: one character back from `loc`, never below 0. */
  function LeftRel(c: Content): (r: (Content, Pos))
    requires Placed(c)
    ensures Placed(r.0) && r.1 == Left(c, c.loc)
    ensures r.0.loc == if c.loc == 0 then 0 else c.loc - 1
  {
    Moved(c, Left(c, c.loc))
  }

  /** `right_rel`: one character forward from `loc`, never past the text. */
  function RightRel(c: Content): (r: (Content, Pos))
    requires Placed(c)
    ensures Placed(r.0) && r.1 == Right(c, c.loc)
    ensures r.0.loc == Min(c.loc + 1, |c.text|)
  {
    Moved(c, Right(c, c.loc))
  }

  /** `insert_rel`: insert at `loc` and step `loc` past the new character. */
  function InsertRel(c: Content, ch: char): (r: (Content, Pos))
    requires Placed(c)
    ensures Placed(r.0) && r.0.text == c.text[..c.loc] + [ch] + c.text[c.loc..]
    ensures r.0.loc == c.loc + 1 && r.1 == Index(r.0, c.loc + 1)
  {
    var (c2, p) := Insert(c, c.loc, ch);
    (c2.(loc := c.loc + 1), p)
  }

  /**
   * `backspace_rel` as the source writes it: `loc` steps back when it can,
   * then the character at `loc` goes, so at `loc` 0 the first character
   * of the text is deleted.
   */
  function BackspaceRelAsWritten(c: Content): (r: (Content, Pos))
    requires Placed(c)
    ensures Placed(r.0)
    ensures c.loc == 0 && |c.text| > 0 ==> r.0.text == c.text[1..]
  {
    var c1 := if c.loc > 0 then c.(loc := c.loc - 1) else c;
    Backspace(c1, c1.loc)
  }

  /**
   * `backspace_rel`, doing nothing at `loc` 0 as the later buffers do;
   * otherwise deleting the character before `loc` and stepping back onto
   * its place.
   */
  function BackspaceRel(c: Content): (r: (Content, Pos))
    requires Placed(c)
    ensures Placed(r.0)
    ensures c.loc == 0 ==> r == (c, Zero)
    ensures c.loc > 0 ==>
      && r.0.text == c.text[..c.loc - 1] + c.text[c.loc..]
      && r.0.loc == c.loc - 1 && r.1.index == c.loc - 1
    ensures c.loc > 0 ==> r == BackspaceRelAsWritten(c)
  {
    if c.loc == 0 then (c, Zero)
    else
      BackspaceRelAsWritten(c)
  }

  /** Typing a character and deleting it again restores the text and the cursor. */
  lemma InsertThenBackspace(c: Content, ch: char)
    requires Placed(c)
    ensures var r := BackspaceRel(InsertRel(c, ch).0).0;
      r.text == c.text && r.loc == c.loc
  {
    var c2 := InsertRel(c, ch).0;
    var u := c2.text;
    assert u[..c.loc] == c.text[..c.loc];
    assert u[c.loc + 1..] == c.text[c.loc..];
    assert c.text[..c.loc] + c.text[c.loc..] == c.text;
  }

  /** On an empty text, the source's `index` answers column 1 for any index but 0. */
  lemma EmptyIndexAsWritten(width: nat, idx: nat)
    requires width >= 1 && idx > 0
    ensures IndexAsWritten(New(width, []), idx) == Pos(0, 1, 0)
    ensures Index(New(width, []), idx) == Zero
  {
  }

  /** On "Hi\n", the source's `down` from the end of the text indexes past the only row. */
  lemma DownPanics(width: nat)
    requires width >= 4
    ensures |New(width, "Hi\n").lines| == 1
    ensures DownAsWritten(New(width, "Hi\n"), 3).None?
    ensures Down(New(width, "Hi\n"), 3) == Pos(3, 0, 1)
  {
    var c := New(width, "Hi\n");
    assert c.lines == [Line(0, 0, 3)];
    IndexAgrees(c, 3);
    assert c.text[2] == '\n';
  }

  /** At `loc` 0 of "ab", the source's `backspace_rel` deletes the `a` after the cursor. */
  lemma BackspaceAtStart(width: nat)
    ensures BackspaceRelAsWritten(New(width, "ab")).0.text == "b"
    ensures BackspaceRel(New(width, "ab")).0.text == "ab"
  {
    assert "ab"[1..] == "b";
  }
}

=== FILE: cursor.dfy ===
/**
 * A cursor position, shared by the three generations of the text buffer
 * (src/text/mod.rs, src/text.rs and src/content.rs each declare the same
 * `Pos`): an absolute `index` into the text and the visual column `x` and
 * row `y` it is displayed at.
 */
module Cursor {
  datatype Pos = Pos(index: nat, x: nat, y: nat)

  /** `ZERO_POS`. */
  const Zero: Pos := Pos(0, 0, 0)

  function Min(a: nat, b: nat): nat
  {
    if a <= b then a else b
  }
}

=== FILE: errors.dfy ===
/**
 * The error variants of the expression language (src/rdl/error.rs), as
 * values. Display strings are not modelled; the payloads keep what the
 * variants carry that the rest of the language inspects.
 */
module RdlError {

  datatype Error =
    | IOError(msg: string)
    | EndOfInput
    | TokenNotMatched
    | UnboundVariable(name: string)
    | AssertionFailed
      /** The source text, the range of the offending position, and a message. */
    | SyntaxError(src: string, start: nat, end: nat, msg: string)
    | ParseFloatError
      /** Returned by the evaluator; absent from the enum the evaluator refers to. */
    | InvalidASTNode
}

=== FILE: exec.dfy ===
/**
 * The evaluator of the expression language (src/rdl/exec.rs): a context
 * of named quantities, the syntax tree the parser builds, and the
 * evaluation of a tree against a context.
 *
 * The dispatch in `exec` names the node types without qualifying them, so
 * in the source the first arm binds every node and everything is
 * evaluated as an identifier. `ExecAsWritten` is that behaviour; `Exec` is
 * the dispatch the arms spell out, which the test of the module expects.
 */
module Exec {
  import opened Wrappers
  import opened RdlError
  import Units

  /** The variables an expression is evaluated against (`Context`). */
  datatype Context = Context(vars: map<string, Units.Unit>)

  /** `Context::new`: no variables. */
  const EmptyContext: Context := Context(map[])

  /** `set`: bind `key` to `val`, replacing an earlier binding. */
  function Set(cxt: Context, key: string, val: Units.Unit): (r: Context)
    ensures key in r.vars && r.vars[key] == val
    ensures r.vars.Keys == cxt.vars.Keys + {key}
  {
    Context(cxt.vars[key := val])
  }

  /** `get`: the value bound to `key`, if any. */
  function Get(cxt: Context, key: string): (r: Option<Units.Unit>)
    ensures r.Some? <==> key in cxt.vars
  {
    if key in cxt.vars then Some(cxt.vars[key]) else None
  }

  /**
   * A get after a set answers the value set; every other name keeps its
   * value; nothing is bound in a new context.
   */
  lemma SetGet(cxt: Context, key: string, val: Units.Unit, other: string)
    ensures Get(Set(cxt, key, val), key) == Some(val)
    ensures other != key ==> Get(Set(cxt, key, val), other) == Get(cxt, other)
    ensures Get(EmptyContext, other) == None
  {
  }

  datatype NType = Ident | Number | Add | Sub | Mul | Div | Mod

  /** A syntax tree node; which fields matter depends on `ntype`. */
  datatype Node = Node(
    ntype: NType,
    left: Option<Node>,
    right: Option<Node>,
    text: Option<string>,
    value: Option<real>)

  /** `Node::new_ident`. */
  function NewIdent(name: string): Node
  {
    Node(Ident, None, None, Some(name), None)
  }

  /** `Node::new_number`. */
  function NewNumber(v: real): Node
  {
    Node(Number, None, None, None, Some(v))
  }

  /** `Node::new_add`. */
  function NewAdd(l: Node, r: Node): Node
  {
    Node(Add, Some(l), Some(r), None, None)
  }

  /** The trees the three constructors build. */
  predicate WellFormed(n: Node)
  {
    match n.ntype
    case Ident => n.text.Some?
    case Number => n.value.Some?
    case Add =>
      && n.left.Some? && n.right.Some?
      && WellFormed(n.left.value) && WellFormed(n.right.value)
    case _ => false
  }

  /** `exec_ident`: the value bound to the node's name. */
  function ExecIdent(n: Node, cxt: Context): (r: Result<Units.Unit, Error>)
    ensures n.text.None? ==> r == Err(InvalidASTNode)
    ensures n.text.Some? && n.text.value in cxt.vars ==> r == Ok(cxt.vars[n.text.value])
    ensures n.text.Some? && n.text.value !in cxt.vars ==> r == Err(UnboundVariable(n.text.value))
  {
    match n.text
    case None => Err(InvalidASTNode)
    case Some(name) =>
      match Get(cxt, name)
      case Some(v) => Ok(v)
      case None => Err(UnboundVariable(name))
  }

  /** `exec_number`: the node's literal as a quantity without unit. */
  function ExecNumber(n: Node): (r: Result<Units.Unit, Error>)
    ensures n.value.Some? <==> r.Ok?
    ensures r.Ok? ==> r.value == Units.Unit(Units.NoUnit, n.value.value)
    ensures r.Err? ==> r.error == InvalidASTNode
  {
    match n.value
    case Some(v) => Ok(Units.Unit(Units.NoUnit, v))
    case None => Err(InvalidASTNode)
  }

  /**
   * `exec` as the arms spell it out: identifiers, numbers and sums are
   * evaluated; the other operators are `InvalidASTNode`.
   */
  function Exec(n: Node, cxt: Context): (r: Result<Units.Unit, Error>)
    ensures n.ntype !in {Ident, Number, Add} ==> r == Err(InvalidASTNode)
    decreases n, 1
  {
    match n.ntype
    case Ident => ExecIdent(n, cxt)
    case Number => ExecNumber(n)
    case Add => ExecAdd(n, cxt)
    case _ => Err(InvalidASTNode)
  }

  /**
   * `exec_add`: both children must be present; the left one is evaluated
   * first and its error wins; the values are added with `Unit`'s `+`.
   */
  function ExecAdd(n: Node, cxt: Context): (r: Result<Units.Unit, Error>)
    ensures n.left.None? || n.right.None? ==> r == Err(InvalidASTNode)
    ensures n.left.Some? && n.right.Some? && Exec(n.left.value, cxt).Err? ==>
      r == Err(Exec(n.left.value, cxt).error)
    ensures n.left.Some? && n.right.Some? && Exec(n.left.value, cxt).Ok? && Exec(n.right.value, cxt).Err? ==>
      r == Err(Exec(n.right.value, cxt).error)
    ensures n.left.Some? && n.right.Some? && Exec(n.left.value, cxt).Ok? && Exec(n.right.value, cxt).Ok? ==>
      r == Ok(Units.Add(Exec(n.left.value, cxt).value, Exec(n.right.value, cxt).value))
    decreases n, 0
  {
    if n.left.None? || n.right.None? then Err(InvalidASTNode)
    else
      match Exec(n.left.value, cxt)
      case Err(e) => Err(e)
      case Ok(a) =>
        match Exec(n.right.value, cxt)
        case Err(e) => Err(e)
        case Ok(b) => Ok(Units.Add(a, b))
  }

  /**
   * `exec` as written: the unqualified `Ident` arm binds every node type,
   * so every node is evaluated as an identifier, and a node without a name
   * is `InvalidASTNode`.
   */
  function ExecAsWritten(n: Node, cxt: Context): (r: Result<Units.Unit, Error>)
    ensures n.text.None? ==> r == Err(InvalidASTNode)
    ensures n.text.Some? ==> (r.Ok? <==> n.text.value in cxt.vars)
  {
    ExecIdent(n, cxt)
  }

  /**
   * As written, no literal and no sum evaluates, whatever the context,
   * while the intended dispatch evaluates every literal.
   */
  lemma AsWrittenRejects(l: Node, r: Node, v: real, cxt: Context)
    ensures ExecAsWritten(NewAdd(l, r), cxt) == Err(InvalidASTNode)
    ensures ExecAsWritten(NewNumber(v), cxt) == Err(InvalidASTNode)
    ensures Exec(NewNumber(v), cxt) == Ok(Units.Unit(Units.NoUnit, v))
  {
  }

  /** The context of the module's test: `a = 1`, `b = 1`, `c = 2`. */
  function TestContext(): Context
  {
    Set(Set(Set(EmptyContext, "a", Units.Unit(Units.NoUnit, 1.0)), "b", Units.Unit(Units.NoUnit, 1.0)), "c", Units.Unit(Units.NoUnit, 2.0))
  }

  /** The test's sums: `a + b` is 2 and `a + c` is 3, where the code as written fails. */
  lemma ExecTest()
    ensures Exec(NewAdd(NewIdent("a"), NewIdent("b")), TestContext()) == Ok(Units.Unit(Units.NoUnit, 2.0))
    ensures Exec(NewAdd(NewIdent("a"), NewIdent("c")), TestContext()) == Ok(Units.Unit(Units.NoUnit, 3.0))
    ensures ExecAsWritten(NewAdd(NewIdent("a"), NewIdent("b")), TestContext()) == Err(InvalidASTNode)
  {
    var cxt := TestContext();
    assert "a" != "b" && "a" != "c" && "b" != "c";
    assert Get(cxt, "a") == Some(Units.Unit(Units.NoUnit, 1.0));
    assert Get(cxt, "b") == Some(Units.Unit(Units.NoUnit, 1.0));
    assert Get(cxt, "c") == Some(Units.Unit(Units.NoUnit, 2.0));
  }

  /** The identifiers and literals of a tree, left to right. */
  function Leaves(n: Node): (ls: seq<Node>)
    ensures |ls| > 0
    decreases n
  {
    if n.ntype == Add && n.left.Some? && n.right.Some? then
      Leaves(n.left.value) + Leaves(n.right.value)
    else [n]
  }

  /**
   * Evaluate a list of leaves left to right, stopping at the first error:
   * the reference the tree evaluation is measured against.
   */
  function EvalAll(ls: seq<Node>, cxt: Context): (r: Result<seq<Units.Unit>, Error>)
    ensures r.Ok? <==> forall i | 0 <= i < |ls| :: Exec(ls[i], cxt).Ok?
    ensures r.Ok? ==> |r.value| == |ls| && forall i | 0 <= i < |ls| :: r.value[i] == Exec(ls[i], cxt).value
    ensures r.Err? ==> exists i | 0 <= i < |ls| ::
      Exec(ls[i], cxt) == Err(r.error) && forall j | 0 <= j < i :: Exec(ls[j], cxt).Ok?
  {
    if ls == [] then Ok([])
    else
      match Exec(ls[0], cxt)
      case Err(e) => Err(e)
      case Ok(u) =>
        match EvalAll(ls[1..], cxt)
        case Err(e) =>
          ghost var i :| 0 <= i < |ls[1..]| && Exec(ls[1..][i], cxt) == Err(e) && forall j | 0 <= j < i :: Exec(ls[1..][j], cxt).Ok?;
          assert Exec(ls[i + 1], cxt) == Err(e);
          assert forall j | 0 <= j < i + 1 :: Exec(ls[j], cxt).Ok? by {
            forall j | 0 <= j < i + 1 ensures Exec(ls[j], cxt).Ok? {
              if j > 0 { assert ls[j] == ls[1..][j - 1]; }
            }
          }
          Err(e)
        case Ok(us) =>
          assert forall i | 0 < i < |ls| :: ls[i] == ls[1..][i - 1];
          Ok([u] + us)
  }

  /** Leaf-by-leaf evaluation of a concatenation: the left part first, and its error wins. */
  lemma EvalAllAppend(xs: seq<Node>, ys: seq<Node>, cxt: Context)
    ensures EvalAll(xs + ys, cxt) ==
      match EvalAll(xs, cxt)
      case Err(e) => Err(e)
      case Ok(a) =>
        match EvalAll(ys, cxt)
        case Err(e) => Err(e)
        case Ok(b) => Ok(a + b)
  {
    var ex := EvalAll(xs, cxt);
    if ex.Err? {
      AppendLeftErr(xs, ys, cxt);
    } else {
      var ey := EvalAll(ys, cxt);
      if ey.Err? {
        AppendRightErr(xs, ys, cxt);
      } else {
        AppendOk(xs, ys, cxt);
      }
    }
  }

  /** A failing left part: its first error is the concatenation's. */
  lemma AppendLeftErr(xs: seq<Node>, ys: seq<Node>, cxt: Context)
    requires EvalAll(xs, cxt).Err?
    ensures EvalAll(xs + ys, cxt) == EvalAll(xs, cxt)
  {
    var all := xs + ys;
    var e := EvalAll(xs, cxt).error;
    var i :| 0 <= i < |xs| && Exec(xs[i], cxt) == Err(e) && forall j | 0 <= j < i :: Exec(xs[j], cxt).Ok?;
    assert forall j | 0 <= j <= i :: all[j] == xs[j];
    FirstErrorUnique(all, cxt, i);
  }

  /** A passing left part and a failing right part: the right part's first error is the concatenation's. */
  lemma AppendRightErr(xs: seq<Node>, ys: seq<Node>, cxt: Context)
    requires EvalAll(xs, cxt).Ok? && EvalAll(ys, cxt).Err?
    ensures EvalAll(xs + ys, cxt) == EvalAll(ys, cxt)
  {
    var all := xs + ys;
    var e := EvalAll(ys, cxt).error;
    var i :| 0 <= i < |ys| && Exec(ys[i], cxt) == Err(e) && forall j | 0 <= j < i :: Exec(ys[j], cxt).Ok?;
    assert all[|xs| + i] == ys[i];
    forall j | 0 <= j < |xs| + i ensures Exec(all[j], cxt).Ok? {
      if j >= |xs| { assert all[j] == ys[j - |xs|]; } else { assert all[j] == xs[j]; }
    }
    FirstErrorUnique(all, cxt, |xs| + i);
  }

  /** Both parts pass: the concatenation's values are theirs, in order. */
  lemma AppendOk(xs: seq<Node>, ys: seq<Node>, cxt: Context)
    requires EvalAll(xs, cxt).Ok? && EvalAll(ys, cxt).Ok?
    ensures EvalAll(xs + ys, cxt) == Ok(EvalAll(xs, cxt).value + EvalAll(ys, cxt).value)
  {
    var all := xs + ys;
    var ab := EvalAll(xs, cxt).value + EvalAll(ys, cxt).value;
    forall i | 0 <= i < |all| ensures Exec(all[i], cxt).Ok? && Exec(all[i], cxt).value == ab[i] {
      AppendAt(xs, ys, cxt, i);
    }
    var r := EvalAll(all, cxt);
    assert r.Ok? && |r.value| == |ab|;
    assert r.value == ab;
  }

  /** Leaf `i` of a concatenation of two passing parts evaluates to value `i` of their values. */
  lemma AppendAt(xs: seq<Node>, ys: seq<Node>, cxt: Context, i: nat)
    requires EvalAll(xs, cxt).Ok? && EvalAll(ys, cxt).Ok? && i < |xs| + |ys|
    ensures Exec((xs + ys)[i], cxt).Ok?
    ensures Exec((xs + ys)[i], cxt).value == (EvalAll(xs, cxt).value + EvalAll(ys, cxt).value)[i]
  {
    var a, b := EvalAll(xs, cxt).value, EvalAll(ys, cxt).value;
    assert |a| == |xs|;
    ConcatAt(xs, ys, i);
    ConcatAt(a, b, i);
    if i < |xs| {
      ValueAt(xs, cxt, i);
    } else {
      ValueAt(ys, cxt, i - |xs|);
    }
  }

  /** Value `k` of a passing evaluation is what leaf `k` evaluates to. */
  lemma ValueAt(ls: seq<Node>, cxt: Context, k: nat)
    requires EvalAll(ls, cxt).Ok? && k < |ls|
    ensures Exec(ls[k], cxt).Ok? && EvalAll(ls, cxt).value[k] == Exec(ls[k], cxt).value
  {
  }

  /** Element `i` of a concatenation comes from the left part, or else from the right one. */
  lemma ConcatAt<T>(a: seq<T>, b: seq<T>, i: nat)
    requires i < |a| + |b|
    ensures (a + b)[i] == if i < |a| then a[i] else b[i - |a|]
  {
  }

  /** The error `EvalAll` reports is the one of the first leaf that fails. */
  lemma FirstErrorUnique(ls: seq<Node>, cxt: Context, i: nat)
    requires i < |ls| && Exec(ls[i], cxt).Err? && forall j | 0 <= j < i :: Exec(ls[j], cxt).Ok?
    ensures EvalAll(ls, cxt) == Err(Exec(ls[i], cxt).error)
  {
    var r := EvalAll(ls, cxt);
    var k :| 0 <= k < |ls| && Exec(ls[k], cxt) == Err(r.error) && forall j | 0 <= j < k :: Exec(ls[j], cxt).Ok?;
    assert k == i;
  }

  /** Every leaf of a well-formed tree is an identifier or a literal with its field present. */
  lemma LeavesWellFormed(n: Node)
    requires WellFormed(n)
    ensures forall l <- Leaves(n) :: WellFormed(l) && l.ntype in {Ident, Number}
  {
  }

  function Total(us: seq<Units.Unit>): real
  {
    if us == [] then 0.0 else us[0].q + Total(us[1..])
  }

  lemma {:induction false} TotalAppend(a: seq<Units.Unit>, b: seq<Units.Unit>)
    ensures Total(a + b) == Total(a) + Total(b)
  {
    if a == [] {
      assert a + b == b;
    } else {
      assert (a + b)[0] == a[0] && (a + b)[1..] == a[1..] + b;
      TotalAppend(a[1..], b);
    }
  }

  /** All the quantities have kind `k`. */
  predicate AllOfKind(us: seq<Units.Unit>, k: Units.Kind)
  {
    forall i | 0 <= i < |us| :: us[i].kind == k
  }

  /**
   * Evaluating a well-formed tree agrees with evaluating its leaves left to
   * right: it succeeds exactly when every leaf does, fails with the error of
   * the first leaf that fails (an unbound name), takes the kind of its
   * leftmost leaf, and, when all leaves share that kind, is their sum.
   */
  lemma {:induction false} ExecLeaves(n: Node, cxt: Context)
    requires WellFormed(n)
    ensures Exec(n, cxt).Err? <==> EvalAll(Leaves(n), cxt).Err?
    ensures Exec(n, cxt).Err? ==> Exec(n, cxt).error == EvalAll(Leaves(n), cxt).error
    ensures Exec(n, cxt).Ok? ==> Exec(n, cxt).value.kind == EvalAll(Leaves(n), cxt).value[0].kind
    ensures Exec(n, cxt).Ok? && AllOfKind(EvalAll(Leaves(n), cxt).value, Exec(n, cxt).value.kind) ==>
      Exec(n, cxt).value.q == Total(EvalAll(Leaves(n), cxt).value)
    decreases n
  {
    if n.ntype == Add {
      var l, r := n.left.value, n.right.value;
      ExecLeaves(l, cxt);
      ExecLeaves(r, cxt);
      EvalAllAppend(Leaves(l), Leaves(r), cxt);
      var el, er := EvalAll(Leaves(l), cxt), EvalAll(Leaves(r), cxt);
      if el.Ok? && er.Ok? {
        TotalAppend(el.value, er.value);
        var all := el.value + er.value;
        assert all[0] == el.value[0];
        if Exec(n, cxt).Ok? {
          AllOfKindSplit(el.value, er.value, Exec(n, cxt).value.kind);
        }
      }
    } else {
      assert Leaves(n) == [n];
    }
  }

  /** Every quantity of a concatenation has kind `k` exactly when every quantity of both parts has. */
  lemma AllOfKindSplit(a: seq<Units.Unit>, b: seq<Units.Unit>, k: Units.Kind)
    ensures AllOfKind(a + b, k) <==> AllOfKind(a, k) && AllOfKind(b, k)
  {
    var all := a + b;
    if AllOfKind(all, k) {
      forall i | 0 <= i < |a| ensures a[i].kind == k {
        assert all[i] == a[i];
      }
      forall i | 0 <= i < |b| ensures b[i].kind == k {
        assert all[|a| + i] == b[i];
      }
    }
  }

  /** A well-formed tree evaluates exactly when every name in it is bound. */
  lemma ExecBound(n: Node, cxt: Context)
    requires WellFormed(n)
    ensures Exec(n, cxt).Ok? <==> forall l <- Leaves(n) :: l.ntype == Ident ==> l.text.Some? && l.text.value in cxt.vars
  {
    ExecLeaves(n, cxt);
    LeavesWellFormed(n);
    var ls := Leaves(n);
    assert forall i | 0 <= i < |ls| :: ls[i] in ls;
  }
}

=== FILE: layout.dfy ===
/**
 * The word-wrap reflow (src/text/layout.rs). One pass over the code points
 * of a text produces visual `Line` records that carry two parallel sets of
 * counters: code points (`coff`, `cext`, `chars`) and UTF-8 bytes (`boff`,
 * `bext`, `bytes`).
 *
 * The earlier buffer (src/text.rs) runs the same pass with one different
 * rule at a hard break; the engine below takes that rule as the `legacy`
 * flag so the pass and its proof exist once.
 */
module Layout {
  import opened Utf8

  /**
   * One visual line. `[coff, cext)` is the consumed range of code points;
   * the displayed text is the `chars` code points from `coff` (which may
   * stop short of `cext` when whitespace is swallowed at a soft break).
   */
  datatype Line = Line(
    num: nat,
    coff: nat,
    boff: nat,
    cext: nat,
    bext: nat,
    chars: nat,
    bytes: nat,
    hard: bool)

  /** Only a literal newline forces a break. */
  predicate IsBreak(c: char)
  {
    c == '\n'
  }

  /**
   * The local variables of the pass: absolute offsets `ac`/`ab`, the width
   * of the line so far `lc`/`lb`, the last whitespace boundary `wc`/`wb`,
   * the last non-whitespace boundary `rc`/`rb`, the line number `ly`, the
   * previous character `p`, and the lines closed so far.
   */
  datatype Acc = Acc(
    ac: nat, ab: nat,
    lc: nat, lb: nat,
    wc: nat, wb: nat,
    rc: nat, rb: nat,
    ly: nat,
    p: char,
    lines: seq<Line>)

  const Start: Acc := Acc(0, 0, 0, 0, 0, 0, 0, 0, 0, '\0', [])

  /** A close can subtract the consume width from the line width. */
  predicate Ready(st: Acc)
  {
    st.rc <= st.lc && st.rb <= st.lb
  }

  /** At a newline: close the run of non-whitespace and mark the whitespace boundary. */
  function MarkBreak(legacy: bool, st: Acc): Acc
  {
    var s0 := if !IsWhitespace(st.p) then st.(rc := st.lc, rb := st.lb) else st;
    if !legacy || s0.wc == 0 then s0.(wc := s0.lc, wb := s0.lb) else s0
  }

  /** A whitespace run starts (or a word starts) where the class of the code point changes. */
  function MarkClass(c: char, st: Acc): Acc
  {
    if IsWhitespace(c) then
      if !IsWhitespace(st.p) then st.(wc := st.lc, wb := st.lb) else st
    else
      if IsWhitespace(st.p) then st.(rc := st.lc, rb := st.lb) else st
  }

  /** Boundary bookkeeping before the code point is counted. */
  function Mark(c: char, legacy: bool, st: Acc): Acc
  {
    MarkClass(c, if IsBreak(c) then MarkBreak(legacy, st) else st)
  }

  /** The line closed at `c`: its consume width and its display width. */
  function NewLine(c: char, m: Acc): Line
  {
    var hard := IsBreak(c);
    var lc := m.lc + 1;
    var lb := m.lb + Utf8Len(c);
    var bc := if hard || m.wc > 0 then m.wc else lc;
    var bb := if hard || m.wb > 0 then m.wb else lb;
    var cc := if !hard && m.rc > 0 then m.rc else lc;
    var cb := if !hard && m.rb > 0 then m.rb else lb;
    Line(m.ly, m.ac, m.ab, m.ac + cc, m.ab + cb, bc, bb, hard)
  }

  /** Count `c` on a marked state, and close a line on a break or at the width. */
  function Count(c: char, width: nat, m: Acc): (r: Acc)
    requires Ready(m)
    ensures Ready(r)
  {
    var lc := m.lc + 1;
    var lb := m.lb + Utf8Len(c);
    if IsBreak(c) || lc >= width then
      var l := NewLine(c, m);
      Acc(l.cext, l.bext, m.ac + lc - l.cext, m.ab + lb - l.bext, 0, 0, 0, 0, m.ly + 1, '\0', m.lines + [l])
    else
      m.(lc := lc, lb := lb, p := c)
  }

  /** One iteration of the pass. */
  function Step(c: char, width: nat, legacy: bool, st: Acc): (r: Acc)
    requires Ready(st)
    ensures Ready(r)
  {
    Count(c, width, Mark(c, legacy, st))
  }

  /** The loop over `text[i..]`: stop at the end, else take a turn. */
  function Run(text: seq<char>, width: nat, legacy: bool, i: nat, st: Acc): Acc
    requires i <= |text| && Ready(st)
    decreases |text| - i, 2
  {
    if i == |text| then st else Turn(text, width, legacy, i, st)
  }

  /** One turn of the loop: read the code point at `i`. */
  function Turn(text: seq<char>, width: nat, legacy: bool, i: nat, st: Acc): Acc
    requires i < |text| && Ready(st)
    decreases |text| - i, 1
  {
    Feed(text, width, legacy, i, text[i], st)
  }

  /** Feed the code point `c` read at `i` through one iteration, then go on from `i + 1`. */
  function Feed(text: seq<char>, width: nat, legacy: bool, i: nat, c: char, st: Acc): Acc
    requires i < |text| && Ready(st)
    decreases |text| - i, 0
  {
    Run(text, width, legacy, i + 1, Step(c, width, legacy, st))
  }

  /** A turn of the loop at `i` is one iteration followed by the loop from `i + 1`. */
  lemma RunTurn(text: seq<char>, width: nat, legacy: bool, i: nat, st: Acc)
    requires i < |text| && Ready(st)
    ensures Run(text, width, legacy, i, st) == Run(text, width, legacy, i + 1, Step(text[i], width, legacy, st))
  {
    assert Turn(text, width, legacy, i, st) == Feed(text, width, legacy, i, text[i], st);
  }

  /** After the loop: a non-empty remainder becomes a final, unterminated line. */
  function Close(st: Acc): seq<Line>
  {
    if st.lc > 0 then
      st.lines + [Line(st.ly, st.ac, st.ab, st.ac + st.lc, st.ab + st.lb, st.lc, st.lb, false)]
    else
      st.lines
  }

  /** Every code point in `[a, b)` is whitespace. */
  ghost predicate Blank(text: seq<char>, a: nat, b: nat)
  {
    forall j | a <= j < b :: j < |text| && IsWhitespace(text[j])
  }

  ghost predicate NoWhitespace(s: seq<char>)
  {
    forall j | 0 <= j < |s| :: !IsWhitespace(s[j])
  }

  /**
   * What every line of the result satisfies: it consumes at least one code
   * point, its byte counters agree with its code point counters, its
   * displayed slice is in bounds, it is hard exactly when it consumed a
   * trailing newline, and it respects the width.
   */
  ghost predicate LineOk(text: seq<char>, width: nat, legacy: bool, l: Line)
  {
    LineCounters(text, l) && LineBreak(text, legacy, l) && LineWidth(text, width, l)
  }

  /** The line consumes something, and its byte counters match its code point counters. */
  ghost predicate LineCounters(text: seq<char>, l: Line)
  {
    && l.coff < l.cext <= |text|
    && l.coff + l.chars <= |text|
    && l.boff == Offset(text, l.coff)
    && l.bext == Offset(text, l.cext)
    && l.boff + l.bytes == Offset(text, l.coff + l.chars)
  }

  /** How the line ends, and what it consumes without showing. */
  ghost predicate LineBreak(text: seq<char>, legacy: bool, l: Line)
    requires 0 < l.cext <= |text|
  {
    && (l.hard <==> text[l.cext - 1] == '\n')
    && (l.hard ==> l.chars < l.cext - l.coff)
    && (!legacy || !l.hard ==> Blank(text, l.coff + l.chars, l.cext))
    && (!legacy && l.hard ==> l.chars == l.cext - l.coff - 1)
  }

  /** The width bounds, and the split of a word longer than the width. */
  ghost predicate LineWidth(text: seq<char>, width: nat, l: Line)
    requires l.coff <= l.cext <= |text|
  {
    && (width >= 1 ==> l.cext - l.coff <= width && l.chars <= width)
    && (width >= 1 && !l.hard && NoWhitespace(text[l.coff..l.cext]) ==>
          (l.cext - l.coff == width && l.chars == width)
          || (l.cext == |text| && l.chars == l.cext - l.coff))
  }

  /** Lines numbered 0, 1, 2, ... that tile `[0, upto)` without gaps. */
  ghost predicate Tiled(lines: seq<Line>, upto: nat)
  {
    && (forall k | 0 <= k < |lines| :: lines[k].num == k)
    && (|lines| > 0 ==> lines[0].coff == 0)
    && (forall k | 0 < k < |lines| :: lines[k].coff == lines[k - 1].cext)
    && (|lines| == 0 ==> upto == 0)
    && (|lines| > 0 ==> lines[|lines| - 1].cext == upto)
  }

  ghost predicate AllLinesOk(text: seq<char>, width: nat, legacy: bool, lines: seq<Line>)
  {
    forall l <- lines :: LineOk(text, width, legacy, l)
  }

  /** The facts about the open line at code point `i`. */
  ghost predicate Open(text: seq<char>, width: nat, i: nat, st: Acc)
  {
    && i <= |text|
    && st.ac + st.lc == i
    && st.wc <= st.lc && st.rc <= st.lc
    && st.ab == Offset(text, st.ac)
    && st.ab + st.lb == Offset(text, i)
    && st.ab + st.wb == Offset(text, st.ac + st.wc)
    && st.ab + st.rb == Offset(text, st.ac + st.rc)
    && st.wb <= st.lb && st.rb <= st.lb
    && (st.lb == 0 <==> st.lc == 0)
    && (st.wb == 0 <==> st.wc == 0)
    && (st.rb == 0 <==> st.rc == 0)
    && (st.wc > 0 ==> st.ac + st.wc < i && IsWhitespace(text[st.ac + st.wc]))
    && (st.rc > 0 ==> IsWhitespace(text[st.ac + st.rc - 1]))
    && (width >= 1 ==> st.lc < width)
    && (st.p == '\0' || (st.ac < i && st.p == text[i - 1]))
    && (forall j | st.ac <= j < i :: text[j] != '\n')
    && (st.wc > 0 ==> st.ac < i && st.p == text[i - 1])
    && (IsWhitespace(st.p) ==> st.rc <= st.wc)
    && ((st.wc > 0 || IsWhitespace(st.p)) && st.rc <= st.wc ==> Blank(text, st.ac + st.wc, i))
    && (st.rc > st.wc ==> Blank(text, st.ac + st.wc, st.ac + st.rc))
  }

  /** The facts about the lines closed so far, which tile `[0, ac)`. */
  ghost predicate Done(text: seq<char>, width: nat, legacy: bool, lines: seq<Line>, ac: nat)
  {
    Tiled(lines, ac) && AllLinesOk(text, width, legacy, lines)
  }

  /** A soft line that left nothing over filled the width. */
  ghost predicate FullIfEmpty(width: nat, st: Acc)
  {
    width >= 1 && st.lc == 0 && |st.lines| > 0 && !st.lines[|st.lines| - 1].hard ==>
      st.lines[|st.lines| - 1].cext - st.lines[|st.lines| - 1].coff == width
  }

  /** The loop invariant of the pass at code point `i`. */
  ghost predicate Inv(text: seq<char>, width: nat, legacy: bool, i: nat, st: Acc)
  {
    && Open(text, width, i, st)
    && st.ly == |st.lines|
    && Done(text, width, legacy, st.lines, st.ac)
    && FullIfEmpty(width, st)
  }

  /** The code point and byte counters of the open line agree. */
  ghost predicate Counters(text: seq<char>, i: nat, m: Acc)
  {
    && i < |text|
    && m.ac + m.lc == i
    && m.wc <= m.lc && m.rc <= m.lc
    && m.ab == Offset(text, m.ac)
    && m.ab + m.lb == Offset(text, i)
    && m.ab + m.wb == Offset(text, m.ac + m.wc)
    && m.ab + m.rb == Offset(text, m.ac + m.rc)
    && m.wb <= m.lb && m.rb <= m.lb
    && (m.wb == 0 <==> m.wc == 0)
    && (m.rb == 0 <==> m.rc == 0)
  }

  /**
   * The open-line facts between `Mark` and `Count` at code point `i`: the
   * boundaries may now sit at `i` itself, and after a newline only the
   * whitespace boundary is still meaningful.
   */
  ghost predicate Boundaries(text: seq<char>, width: nat, legacy: bool, i: nat, m: Acc)
  {
    && Counters(text, i, m)
    && (m.wc > 0 ==> IsWhitespace(text[m.ac + m.wc]))
    && (!IsBreak(text[i]) && m.rc > 0 ==> IsWhitespace(text[m.ac + m.rc - 1]))
    && (IsBreak(text[i]) && !legacy ==> m.wc == m.lc && m.wb == m.lb)
    && (width >= 1 ==> m.lc < width)
    && (m.p == '\0' || (m.ac < i && m.p == text[i - 1]))
    && (forall j | m.ac <= j < i :: text[j] != '\n')
    && (!IsBreak(text[i]) && IsWhitespace(text[i]) ==> m.rc <= m.wc)
    && (!IsBreak(text[i]) && (m.wc > 0 || IsWhitespace(text[i])) && m.rc <= m.wc ==>
          Blank(text, m.ac + m.wc, i + 1))
    && (!IsBreak(text[i]) && m.rc > m.wc ==> Blank(text, m.ac + m.wc, m.ac + m.rc))
  }

  /** Marking touches neither the closed lines nor the open line's extent. */
  predicate SameLines(a: Acc, b: Acc)
  {
    a.ac == b.ac && a.lc == b.lc && a.ly == b.ly && a.lines == b.lines
  }

  /** Moving a boundary to the current position keeps the open-line facts. */
  lemma MarkSoft(text: seq<char>, width: nat, legacy: bool, i: nat, st: Acc)
    requires Open(text, width, i, st) && i < |text| && !IsBreak(text[i])
    ensures Boundaries(text, width, legacy, i, Mark(text[i], legacy, st))
    ensures SameLines(st, Mark(text[i], legacy, st))
  {
    var c := text[i];
    var m := Mark(c, legacy, st);
    assert m == MarkClass(c, st);
    if IsWhitespace(c) && !IsWhitespace(st.p) {
      assert m == st.(wc := st.lc, wb := st.lb);
    } else if !IsWhitespace(c) && IsWhitespace(st.p) {
      assert st.p == text[i - 1];
      assert m == st.(rc := st.lc, rb := st.lb);
    } else {
      assert m == st;
      if st.wc > 0 {
        assert IsWhitespace(text[i - 1]) <==> IsWhitespace(st.p);
      }
    }
  }

  lemma MarkHard(text: seq<char>, width: nat, legacy: bool, i: nat, st: Acc)
    requires Open(text, width, i, st) && i < |text| && IsBreak(text[i])
    ensures Boundaries(text, width, legacy, i, Mark(text[i], legacy, st))
    ensures SameLines(st, Mark(text[i], legacy, st))
  {
    var c := text[i];
    assert IsWhitespace(c);
    var s0 := if !IsWhitespace(st.p) then st.(rc := st.lc, rb := st.lb) else st;
    var s1 := if !legacy || s0.wc == 0 then s0.(wc := s0.lc, wb := s0.lb) else s0;
    assert MarkBreak(legacy, st) == s1;
    var m := Mark(c, legacy, st);
    if !IsWhitespace(st.p) {
      assert m == s1.(wc := s1.lc, wb := s1.lb);
      assert m == st.(rc := st.lc, rb := st.lb, wc := st.lc, wb := st.lb);
    } else {
      assert m == s1;
    }
  }

  /** The consume and display widths of a close, in bytes. */
  lemma CloseBytes(text: seq<char>, i: nat, m: Acc)
    requires Counters(text, i, m)
    ensures var c := text[i];
      var hard := IsBreak(c);
      var lc := m.lc + 1;
      var lb := m.lb + Utf8Len(c);
      var bc := if hard || m.wc > 0 then m.wc else lc;
      var bb := if hard || m.wb > 0 then m.wb else lb;
      var cc := if !hard && m.rc > 0 then m.rc else lc;
      var cb := if !hard && m.rb > 0 then m.rb else lb;
      && m.ab + lb == Offset(text, i + 1)
      && 1 <= cc <= lc && bc <= lc
      && m.ab + bb == Offset(text, m.ac + bc)
      && m.ab + cb == Offset(text, m.ac + cc)
      && cb <= lb
      && (lb - cb == 0 <==> lc - cc == 0)
  {
    var c := text[i];
    var lb := m.lb + Utf8Len(c);
    assert m.ab + lb == Offset(text, i + 1);
    if !IsBreak(c) && m.rc > 0 {
      OffsetMonotone(text, m.ac + m.rc, i + 1);
      assert m.rb < lb;
    } else {
      assert m.ab + lb == Offset(text, m.ac + m.lc + 1);
    }
  }

  /** The line a close produces satisfies `LineOk`. */
  lemma CloseLine(text: seq<char>, width: nat, legacy: bool, i: nat, m: Acc)
    requires Boundaries(text, width, legacy, i, m)
    requires IsBreak(text[i]) || m.lc + 1 >= width
    ensures LineOk(text, width, legacy, NewLine(text[i], m))
  {
    CloseBytes(text, i, m);
    CloseLineBreak(text, width, legacy, i, m);
    CloseLineWidth(text, width, legacy, i, m);
  }

  lemma CloseLineBreak(text: seq<char>, width: nat, legacy: bool, i: nat, m: Acc)
    requires Boundaries(text, width, legacy, i, m)
    requires IsBreak(text[i]) || m.lc + 1 >= width
    ensures NewLine(text[i], m).coff < NewLine(text[i], m).cext <= |text|
    ensures LineBreak(text, legacy, NewLine(text[i], m))
  {
    var c := text[i];
    var hard := IsBreak(c);
    var line := NewLine(c, m);
    assert 1 <= line.cext - m.ac <= m.lc + 1;
    assert text[line.cext - 1] == '\n' <==> hard by {
      if !hard && line.cext - 1 < i {
        assert m.ac <= line.cext - 1;
      }
    }
  }

  lemma CloseLineWidth(text: seq<char>, width: nat, legacy: bool, i: nat, m: Acc)
    requires Boundaries(text, width, legacy, i, m)
    requires IsBreak(text[i]) || m.lc + 1 >= width
    ensures NewLine(text[i], m).coff <= NewLine(text[i], m).cext <= |text|
    ensures LineWidth(text, width, NewLine(text[i], m))
  {
    var c := text[i];
    var hard := IsBreak(c);
    var ac := m.ac;
    var line := NewLine(c, m);
    var cc := line.cext - ac;
    assert 1 <= cc <= m.lc + 1;
    if !hard && m.rc > 0 {
      assert IsWhitespace(text[ac..ac + cc][m.rc - 1]);
    }
    if !hard && m.wc > 0 && m.rc == 0 {
      assert IsWhitespace(text[ac..ac + cc][m.wc]);
    }
  }

  /** A close keeps the open-line facts (the open line restarts after the consumed part). */
  lemma CountCloseOpen(text: seq<char>, width: nat, legacy: bool, i: nat, m: Acc)
    requires Boundaries(text, width, legacy, i, m)
    requires IsBreak(text[i]) || m.lc + 1 >= width
    ensures Open(text, width, i + 1, Count(text[i], width, m))
    ensures var r := Count(text[i], width, m);
      width >= 1 && r.lc == 0 && !IsBreak(text[i]) ==> r.ac - m.ac == width
  {
    CloseBytes(text, i, m);
  }

  /** A close appends a line that continues the tiling. */
  lemma CountCloseDone(text: seq<char>, width: nat, legacy: bool, i: nat, m: Acc)
    requires Boundaries(text, width, legacy, i, m)
    requires m.ly == |m.lines| && Done(text, width, legacy, m.lines, m.ac)
    requires IsBreak(text[i]) || m.lc + 1 >= width
    ensures var r := Count(text[i], width, m);
      && r.lines == m.lines + [NewLine(text[i], m)]
      && r.ly == |r.lines|
      && Done(text, width, legacy, r.lines, r.ac)
  {
    CloseBytes(text, i, m);
    CloseLine(text, width, legacy, i, m);
    var l := NewLine(text[i], m);
    var r := Count(text[i], width, m);
    assert r.lines == m.lines + [l];
  }

  lemma CountKeep(text: seq<char>, width: nat, legacy: bool, i: nat, m: Acc)
    requires Boundaries(text, width, legacy, i, m)
    requires !IsBreak(text[i]) && m.lc + 1 < width
    ensures Open(text, width, i + 1, Count(text[i], width, m))
    ensures var r := Count(text[i], width, m);
      r.ac == m.ac && r.ly == m.ly && r.lines == m.lines && r.lc > 0
  {
  }

  /** One step keeps the invariant. */
  lemma StepInv(text: seq<char>, width: nat, legacy: bool, i: nat, st: Acc)
    requires Inv(text, width, legacy, i, st) && i < |text|
    ensures Ready(st)
    ensures Inv(text, width, legacy, i + 1, Step(text[i], width, legacy, st))
  {
    var c := text[i];
    if IsBreak(c) {
      MarkHard(text, width, legacy, i, st);
    } else {
      MarkSoft(text, width, legacy, i, st);
    }
    var m := Mark(c, legacy, st);
    var r := Count(c, width, m);
    assert Step(c, width, legacy, st) == r;
    if IsBreak(c) || m.lc + 1 >= width {
      CountCloseOpen(text, width, legacy, i, m);
      CountCloseDone(text, width, legacy, i, m);
    } else {
      CountKeep(text, width, legacy, i, m);
    }
  }

  /** The loop keeps the invariant to the end of the text. */
  lemma {:induction false} RunInv(text: seq<char>, width: nat, legacy: bool, i: nat, st: Acc)
    requires Inv(text, width, legacy, i, st)
    ensures Ready(st)
    ensures Inv(text, width, legacy, |text|, Run(text, width, legacy, i, st))
    decreases |text| - i
  {
    if i < |text| {
      StepInv(text, width, legacy, i, st);
      RunTurn(text, width, legacy, i, st);
      RunInv(text, width, legacy, i + 1, Step(text[i], width, legacy, st));
    }
  }

  lemma StartInv(text: seq<char>, width: nat, legacy: bool)
    ensures Inv(text, width, legacy, 0, Start)
  {
  }

  /** Closing the remainder completes the tiling of the whole text. */
  lemma CloseOk(text: seq<char>, width: nat, legacy: bool, st: Acc)
    requires Inv(text, width, legacy, |text|, st)
    ensures Tiled(Close(st), |text|)
    ensures AllLinesOk(text, width, legacy, Close(st))
    ensures |Close(st)| == 0 <==> |text| == 0
    ensures width >= 1 && |Close(st)| > 0 && !Close(st)[|Close(st)| - 1].hard
            && Close(st)[|Close(st)| - 1].cext - Close(st)[|Close(st)| - 1].coff < width
            ==> Close(st)[|Close(st)| - 1].chars
                == Close(st)[|Close(st)| - 1].cext - Close(st)[|Close(st)| - 1].coff
  {
    var r := Close(st);
    if st.lc > 0 {
      var l := Line(st.ly, st.ac, st.ab, st.ac + st.lc, st.ab + st.lb, st.lc, st.lb, false);
      assert r == st.lines + [l];
      assert text[l.cext - 1] != '\n';
      assert LineOk(text, width, legacy, l);
    } else if |st.lines| > 0 {
      var l := st.lines[|st.lines| - 1];
      assert LineOk(text, width, legacy, l);
      if width >= 1 && !l.hard && l.cext - l.coff < width {
          assert false;
      }
    }
  }

  /** The bytes of every line are in bounds, and a hard line leaves out exactly its one-byte newline. */
  lemma LineBytes(text: seq<char>, width: nat, legacy: bool, l: Line)
    requires LineOk(text, width, legacy, l)
    ensures l.boff + l.bytes <= Bytes(text)
    ensures !legacy && l.hard ==> l.bytes == l.bext - l.boff - 1
  {
    OffsetMonotone(text, l.coff + l.chars, |text|);
    OffsetIsBytes(text, |text|);
    assert text[..|text|] == text;
  }

  /** Tiling in code points carries over to bytes. */
  lemma TiledBytes(text: seq<char>, width: nat, legacy: bool, lines: seq<Line>)
    requires Tiled(lines, |text|) && AllLinesOk(text, width, legacy, lines)
    ensures |lines| > 0 ==> lines[0].boff == 0 && lines[|lines| - 1].bext == Bytes(text)
    ensures forall k | 0 < k < |lines| :: lines[k].boff == lines[k - 1].bext
  {
    if |lines| > 0 {
      assert LineOk(text, width, legacy, lines[0]);
      assert LineOk(text, width, legacy, lines[|lines| - 1]);
      OffsetIsBytes(text, |text|);
      assert text[..|text|] == text;
    }
    forall k | 0 < k < |lines|
      ensures lines[k].boff == lines[k - 1].bext
    {
      assert LineOk(text, width, legacy, lines[k]);
      assert LineOk(text, width, legacy, lines[k - 1]);
    }
  }

  /** The pass, with the rule at a hard break chosen by `legacy`. */
  function Reflow(text: seq<char>, width: nat, legacy: bool): (lines: seq<Line>)
    ensures |lines| == 0 <==> |text| == 0
    ensures Tiled(lines, |text|)
    ensures AllLinesOk(text, width, legacy, lines)
    ensures width >= 1 && |lines| > 0 && !lines[|lines| - 1].hard
            && lines[|lines| - 1].cext - lines[|lines| - 1].coff < width
            ==> lines[|lines| - 1].chars == lines[|lines| - 1].cext - lines[|lines| - 1].coff
  {
    PassOk(text, width, legacy);
    Close(Run(text, width, legacy, 0, Start))
  }

  /** What the whole pass establishes, from the loop invariant. */
  lemma PassOk(text: seq<char>, width: nat, legacy: bool)
    ensures var lines := Close(Run(text, width, legacy, 0, Start));
      && (|lines| == 0 <==> |text| == 0)
      && Tiled(lines, |text|)
      && AllLinesOk(text, width, legacy, lines)
      && (width >= 1 && |lines| > 0 && !lines[|lines| - 1].hard
          && lines[|lines| - 1].cext - lines[|lines| - 1].coff < width
          ==> lines[|lines| - 1].chars == lines[|lines| - 1].cext - lines[|lines| - 1].coff)
  {
    StartInv(text, width, legacy);
    RunInv(text, width, legacy, 0, Start);
    CloseOk(text, width, legacy, Run(text, width, legacy, 0, Start));
  }

  /**
   * `layout(text, width)`: the lines tile the text in both units, every
   * line respects the width, a hard line shows everything but its newline,
   * what a line consumes without showing is whitespace, and a word too long
   * for a line is split exactly at the width.
   */
  function Layout(text: seq<char>, width: nat): (lines: seq<Line>)
    ensures |lines| == 0 <==> |text| == 0
    ensures forall k | 0 <= k < |lines| :: lines[k].num == k
    ensures |lines| > 0 ==> lines[0].coff == 0 && lines[0].boff == 0
    ensures |lines| > 0 ==> lines[|lines| - 1].cext == |text| && lines[|lines| - 1].bext == Bytes(text)
    ensures forall k | 0 < k < |lines| ::
              lines[k].coff == lines[k - 1].cext && lines[k].boff == lines[k - 1].bext
    ensures forall l <- lines ::
              && l.coff < l.cext <= |text|
              && l.boff == Offset(text, l.coff) && l.bext == Offset(text, l.cext)
              && l.coff + l.chars <= |text|
              && l.boff + l.bytes == Offset(text, l.coff + l.chars) <= Bytes(text)
    ensures forall l <- lines :: l.hard <==> text[l.cext - 1] == '\n'
    ensures forall l <- lines :: forall j | l.coff + l.chars <= j < l.cext :: IsWhitespace(text[j])
    ensures forall l <- lines :: l.hard ==>
              l.chars == l.cext - l.coff - 1 && l.bytes == l.bext - l.boff - 1
    ensures width >= 1 ==> forall l <- lines :: l.cext - l.coff <= width && l.chars <= width
    ensures width >= 1 ==> forall l <- lines ::
              !l.hard && NoWhitespace(text[l.coff..l.cext]) ==>
                (l.cext - l.coff == width && l.chars == width)
                || (l.cext == |text| && l.chars == l.cext - l.coff)
    ensures width >= 1 && |lines| > 0 && !lines[|lines| - 1].hard
            && lines[|lines| - 1].cext - lines[|lines| - 1].coff < width
            ==> lines[|lines| - 1].chars == lines[|lines| - 1].cext - lines[|lines| - 1].coff
  {
    PassOk(text, width, false);
    var lines := Close(Run(text, width, false, 0, Start));
    TiledBytes(text, width, false, lines);
    forall l <- lines
      ensures l.boff + l.bytes <= Bytes(text)
      ensures l.hard ==> l.bytes == l.bext - l.boff - 1
    {
      LineBytes(text, width, false, l);
    }
    lines
  }
}

=== FILE: legacy_text.dfy ===
/**
 * The earlier buffer of src/text.rs. It lays the text out with the same
 * pass as the current buffer, but with the older rule at a hard break
 * (`Layout.Reflow` with `legacy` set), and its cursor indices are byte
 * offsets: a line's `offset` and `extent` are the `boff` and `bext` of the
 * engine's `Line`, and `len` is the UTF-8 length of the text.
 *
 * Where the source indexes `lines` out of range or edits the string off a
 * code point boundary it panics; those operations answer `None` there.
 */
module LegacyText {
  import opened Wrappers
  import opened Utf8
  import opened Layout
  import opened Cursor
  import TextBuffer

  /** `Line::right`: the byte offset just past the displayed part. */
  function RightEdge(l: Line): nat
  {
    l.boff + l.bytes
  }

  /** `Line::contains`: the byte `idx` lies in the consumed range `[offset, extent)`. */
  predicate Holds(l: Line, idx: nat)
  {
    l.boff <= idx < l.bext
  }

  /** `reflow`: numbered lines that tile the bytes of the text in order, each of the `LineShape`. */
  function Reflow(text: seq<char>, width: nat): (lines: seq<Line>)
    ensures |lines| == 0 <==> |text| == 0
    ensures forall k | 0 <= k < |lines| :: lines[k].num == k
    ensures |lines| > 0 ==> lines[0].boff == 0 && lines[|lines| - 1].bext == Bytes(text)
    ensures forall k | 0 < k < |lines| :: lines[k].boff == lines[k - 1].bext
    ensures forall k | 0 <= k < |lines| :: LineShape(text, lines[k])
  {
    var lines := Layout.Reflow(text, width, true);
    TiledBytes(text, width, true, lines);
    forall k | 0 <= k < |lines|
      ensures LineShape(text, lines[k])
    {
      var l := lines[k];
      assert l in lines;
      assert LineOk(text, width, true, l);
      assert LineBreak(text, true, l);
      assert !l.hard ==> Blank(text, l.coff + l.chars, l.cext);
      LineBytes(text, width, true, l);
      OffsetMonotone(text, l.coff, l.cext);
      OffsetMonotone(text, l.coff, l.coff + l.chars);
    }
    lines
  }

  /**
   * What one line of the reflow satisfies: its counters agree with the
   * text; it consumes at least one byte; its displayed part, with at least
   * as many bytes as code points, lies inside the text; it is hard exactly
   * when it consumed a newline, which it does not display; and a soft line
   * consumes nothing but whitespace beyond what it displays.
   */
  ghost predicate LineShape(text: seq<char>, l: Line)
  {
    && LineCounters(text, l)
    && l.boff < l.bext && l.chars <= l.bytes && RightEdge(l) <= Bytes(text)
    && (l.hard <==> text[l.cext - 1] == '\n')
    && (l.hard ==> l.chars < l.cext - l.coff)
    && (!l.hard ==> forall j | l.coff + l.chars <= j < l.cext :: IsWhitespace(text[j]))
  }

  /** Lines that tile the bytes `[0, n)`, each consuming at least one byte. */
  ghost predicate Tiles(lines: seq<Line>, n: nat)
  {
    && (|lines| == 0 ==> n == 0)
    && (|lines| > 0 ==> lines[0].boff == 0 && lines[|lines| - 1].bext == n)
    && (forall k | 0 < k < |lines| :: lines[k].boff == lines[k - 1].bext)
    && (forall k | 0 <= k < |lines| :: lines[k].boff < lines[k].bext)
  }

  /**
   * `Line::pos`: `None` outside `[offset, extent)`; inside, the column is
   * the byte distance from the line start, clamped to the wrap width.
   */
  function LinePos(l: Line, width: nat, idx: nat): (r: Option<Pos>)
    ensures r.None? <==> !Holds(l, idx)
    ensures r.Some? ==> && r.value.index == idx && r.value.y == l.num
                        && r.value.x == Min(idx - l.boff, width)
  {
    if !Holds(l, idx) then None
    else
      var eix := idx - l.boff;
      if eix < width then Some(Pos(idx, eix, l.num)) else Some(Pos(idx, width, l.num))
  }

  datatype Text = Text(text: seq<char>, width: nat, lines: seq<Line>, loc: nat)

  /** The lines are the reflow of the text. */
  predicate Wf(t: Text)
  {
    t.lines == Reflow(t.text, t.width)
  }

  /** `Text::new_with_str`; `Text::new` is the case of the empty text. */
  function New(width: nat, text: seq<char>): (t: Text)
    ensures Wf(t) && t.text == text && t.width == width && t.loc == 0
    ensures text == [] <==> t.lines == []
  {
    Text(text, width, Reflow(text, width), 0)
  }

  /** `set_text`, and the end of every edit: replace the text and reflow it. */
  function SetText(t: Text, text: seq<char>): (r: Text)
    ensures Wf(r) && r.text == text && r.width == t.width && r.loc == t.loc
  {
    t.(text := text, lines := Reflow(text, t.width))
  }

  /** `len`: the byte length of the text, which is where the last line ends. */
  function Len(t: Text): (n: nat)
    ensures n >= |t.text| && (n == 0 <==> |t.text| == 0)
    ensures Wf(t) && |t.lines| > 0 ==> t.lines[|t.lines| - 1].bext == n
  {
    BytesBounds(t.text);
    Bytes(t.text)
  }

  /** What the reflow promises about line `k` of a well-formed text. */
  lemma LineFacts(t: Text, k: nat)
    requires Wf(t) && k < |t.lines|
    ensures LineCounters(t.text, t.lines[k]) && t.lines[k].num == k
    ensures t.lines[k].boff < t.lines[k].bext && t.lines[k].chars <= t.lines[k].bytes
    ensures RightEdge(t.lines[k]) <= Bytes(t.text)
  {
    assert LineShape(t.text, t.lines[k]);
  }

  lemma WfTiles(t: Text)
    requires Wf(t)
    ensures Tiles(t.lines, Bytes(t.text))
  {
    forall k | 0 <= k < |t.lines|
      ensures t.lines[k].boff < t.lines[k].bext
    {
      LineFacts(t, k);
    }
  }

  /** Tiling lines are ordered: an earlier line ends before a later one starts. */
  lemma {:induction false} TilesOrdered(lines: seq<Line>, n: nat, j: nat, k: nat)
    requires Tiles(lines, n) && j < k < |lines|
    ensures lines[j].bext <= lines[k].boff
    decreases k - j
  {
    if j + 1 < k {
      TilesOrdered(lines, n, j, k - 1);
    }
  }

  /** The linear search of the `index` loop, from line `i` on: the first line holding `idx`. */
  function FindLine(lines: seq<Line>, idx: nat, i: nat): (r: Option<nat>)
    requires i <= |lines|
    ensures r.Some? ==> && i <= r.value < |lines| && Holds(lines[r.value], idx)
                        && forall j | i <= j < r.value :: !Holds(lines[j], idx)
    ensures r.None? ==> forall j | i <= j < |lines| :: !Holds(lines[j], idx)
    decreases |lines| - i
  {
    if i == |lines| then None
    else if Holds(lines[i], idx) then Some(i)
    else FindLine(lines, idx, i + 1)
  }

  /** Every byte below `lines[m - 1].bext` lies in one of the first `m` lines. */
  lemma {:induction false} Covered(lines: seq<Line>, n: nat, idx: nat, m: nat)
    requires Tiles(lines, n) && 0 < m <= |lines| && idx < lines[m - 1].bext
    ensures exists k | 0 <= k < m :: Holds(lines[k], idx)
    decreases m
  {
    if idx < lines[m - 1].boff {
      Covered(lines, n, idx, m - 1);
    } else {
      assert Holds(lines[m - 1], idx);
    }
  }

  /** On tiling lines the search succeeds exactly below `n`, at the only line holding the byte. */
  lemma FindLineTiles(lines: seq<Line>, n: nat, idx: nat)
    requires Tiles(lines, n)
    ensures FindLine(lines, idx, 0).Some? <==> idx < n
    ensures forall k | 0 <= k < |lines| && Holds(lines[k], idx) :: FindLine(lines, idx, 0) == Some(k)
  {
    var r := FindLine(lines, idx, 0);
    if idx < n {
      Covered(lines, n, idx, |lines|);
    } else if |lines| > 0 {
      forall k | 0 <= k < |lines|
        ensures !Holds(lines[k], idx)
      {
        if k + 1 < |lines| {
          TilesOrdered(lines, n, k, |lines| - 1);
        }
      }
    }
    forall k | 0 <= k < |lines| && Holds(lines[k], idx)
      ensures r == Some(k)
    {
      if r.value < k {
        TilesOrdered(lines, n, r.value, k);
      }
    }
  }

  /** The loop of `index` from line `i` on; `x`, `y` and `hard` describe the line before `i`. */
  function IndexScan(lines: seq<Line>, width: nat, idx: nat, i: nat, x: nat, y: nat, hard: bool): (p: Pos)
    requires i <= |lines|
    ensures FindLine(lines, idx, i).Some? ==>
              p == LinePos(lines[FindLine(lines, idx, i).value], width, idx).value
    ensures FindLine(lines, idx, i).None? && i < |lines| ==>
              p == PastEnd(lines[|lines| - 1], |lines|, width, idx)
    decreases |lines| - i
  {
    if i == |lines| then
      if hard || x + 1 > width then Pos(idx, 0, |lines|) else Pos(idx, x, y)
    else
      var l := lines[i];
      match LinePos(l, width, idx)
      case Some(p) => p
      case None => IndexScan(lines, width, idx, i + 1, l.chars, l.num, l.hard)
  }

  /** What `index` answers after the loop: after the displayed part of the last line, or the next row. */
  function PastEnd(l: Line, n: nat, width: nat, idx: nat): Pos
  {
    if l.hard || l.chars + 1 > width then Pos(idx, 0, n) else Pos(idx, l.chars, l.num)
  }

  /**
   * `index`: the position of byte index `idx`, clamped to the length.
   * Inside the text it is on the row of the line holding the byte, at the
   * byte distance from the line start clamped to the width. At the end of
   * the text it is after the displayed part of the last line, or at the
   * start of the next row when that line is hard or full.
   */
  function Index(t: Text, idx: nat): (p: Pos)
    requires Wf(t)
    ensures p.index == Min(idx, Len(t))
    ensures Len(t) == 0 || idx == 0 ==> p == Zero
    ensures p.y <= |t.lines|
    ensures 0 < idx < Len(t) ==>
      && p.y < |t.lines| && Holds(t.lines[p.y], idx)
      && p.x == Min(idx - t.lines[p.y].boff, t.width)
    ensures 0 < Len(t) <= idx ==>
      var l := t.lines[|t.lines| - 1];
      if l.hard || l.chars + 1 > t.width then p == Pos(Len(t), 0, |t.lines|)
      else p == Pos(Len(t), l.chars, |t.lines| - 1)
  {
    if Len(t) == 0 then Zero
    else if idx == 0 then Zero
    else
      var i := Min(Len(t), idx);
      IndexScanFacts(t, i);
      IndexScan(t.lines, t.width, i, 0, 0, 0, false)
  }

  lemma IndexScanFacts(t: Text, i: nat)
    requires Wf(t) && 0 < i <= Len(t)
    ensures FindLine(t.lines, i, 0).Some? <==> i < Len(t)
    ensures FindLine(t.lines, i, 0).Some? ==> t.lines[FindLine(t.lines, i, 0).value].num == FindLine(t.lines, i, 0).value
    ensures t.lines[|t.lines| - 1].num == |t.lines| - 1
  {
    WfTiles(t);
    FindLineTiles(t.lines, Bytes(t.text), i);
  }

  /** Inside the text, `index` keeps the order of the bytes on the rows. */
  lemma IndexRowsOrdered(t: Text, i: nat, j: nat)
    requires Wf(t) && 0 < i <= j < Len(t)
    ensures Index(t, i).y <= Index(t, j).y
  {
    var p, q := Index(t, i), Index(t, j);
    if q.y < p.y {
      WfTiles(t);
      TilesOrdered(t.lines, Bytes(t.text), q.y, p.y);
    }
  }

  /** `left`: one byte back, clamped to the text. */
  function Left(t: Text, idx: nat): (p: Pos)
    requires Wf(t)
    ensures p.index == if idx == 0 then 0 else Min(idx - 1, Len(t))
    ensures idx <= 1 ==> p == Zero
  {
    if idx > 0 then Index(t, idx - 1) else Zero
  }

  /** `right`: one byte forward, clamped to the text. */
  function Right(t: Text, idx: nat): (p: Pos)
    requires Wf(t)
    ensures p.index == Min(idx + 1, Len(t))
  {
    Index(t, idx + 1)
  }

  /**
   * The cursor moved onto line `n` at column `x`: the same column if the
   * line displays that many code points, else the end of its displayed
   * part. The index adds the column to the line's byte offset.
   */
  function Onto(t: Text, n: nat, x: nat): (p: Pos)
    requires Wf(t) && n < |t.lines|
    ensures p.y == n && p.x == Min(x, t.lines[n].chars)
    ensures p.x < t.lines[n].chars ==> p.index == t.lines[n].boff + p.x
    ensures p.x == t.lines[n].chars ==> p.index == RightEdge(t.lines[n])
    ensures t.lines[n].boff <= p.index <= RightEdge(t.lines[n]) <= Len(t)
  {
    LineFacts(t, n);
    var l := t.lines[n];
    var w := l.chars;
    if w > x then Pos(l.boff + x, x, n) else Pos(RightEdge(l), w, n)
  }

  /** `up`: from row 0, `ZERO_POS`; otherwise the row above, at the cursor's column clamped to that row. */
  function Up(t: Text, idx: nat): (p: Pos)
    requires Wf(t)
    ensures p.index <= Len(t)
    ensures Index(t, idx).y == 0 ==> p == Zero
    ensures Index(t, idx).y > 0 ==> p == Onto(t, Index(t, idx).y - 1, Index(t, idx).x)
  {
    var pos := Index(t, idx);
    if pos.y == 0 then Zero else Onto(t, pos.y - 1, pos.x)
  }

  /**
   * `down`: with no lines, `ZERO_POS`. From the last row (or past it), the
   * end of the displayed part of the last line. Otherwise the row below, at
   * the cursor's column clamped to that row.
   */
  function Down(t: Text, idx: nat): (p: Pos)
    requires Wf(t)
    ensures p.index <= Len(t)
    ensures |t.lines| == 0 ==> p == Zero
    ensures |t.lines| > 0 && Index(t, idx).y + 1 >= |t.lines| ==>
      p == Onto(t, |t.lines| - 1, t.lines[|t.lines| - 1].chars)
    ensures Index(t, idx).y + 1 < |t.lines| ==> p == Onto(t, Index(t, idx).y + 1, Index(t, idx).x)
  {
    var nl := |t.lines|;
    if nl == 0 then Zero
    else
      var pos := Index(t, idx);
      var y := Min(nl - 1, pos.y);
      var n := y + 1;
      if n >= nl then
        LineFacts(t, y);
        var l := t.lines[y];
        Pos(RightEdge(l), l.chars, y)
      else Onto(t, n, pos.x)
  }

  /**
   * `home`: column 0 of the cursor's row, at the row's start, which is
   * never after the cursor. `None` where the source indexes past the
   * lines: an empty text, or a cursor on the row after the last line.
   */
  function Home(t: Text, idx: nat): (r: Option<Pos>)
    requires Wf(t)
    ensures r.None? <==> Index(t, idx).y >= |t.lines|
    ensures |t.lines| == 0 ==> r.None?
    ensures r.Some? ==> var y := Index(t, idx).y;
      r.value == Pos(t.lines[y].boff, 0, y) && r.value.index <= Index(t, idx).index
  {
    var pos := Index(t, idx);
    if pos.y >= |t.lines| then None
    else
      HomeBefore(t, idx);
      Some(Pos(t.lines[pos.y].boff, 0, pos.y))
  }

  lemma HomeBefore(t: Text, idx: nat)
    requires Wf(t) && Index(t, idx).y < |t.lines|
    ensures t.lines[Index(t, idx).y].boff <= Index(t, idx).index
  {
    if 0 < Len(t) <= idx {
      LineFacts(t, |t.lines| - 1);
    }
  }

  /**
   * `end`: the end of the displayed part of the cursor's row, at the
   * column of its displayed width. `None` where `home` is.
   */
  function End(t: Text, idx: nat): (r: Option<Pos>)
    requires Wf(t)
    ensures r.None? <==> Home(t, idx).None?
    ensures r.Some? ==> var y := Index(t, idx).y;
      r.value == Onto(t, y, t.lines[y].chars) && r.value.index <= Len(t)
  {
    var pos := Index(t, idx);
    if pos.y >= |t.lines| then None
    else
      LineFacts(t, pos.y);
      var l := t.lines[pos.y];
      Some(Pos(RightEdge(l), l.chars, pos.y))
  }

  /** The sum of the displayed widths of the first `k` lines. */
  ghost function Shown(lines: seq<Line>, k: nat): nat
    requires k <= |lines|
  {
    if k == 0 then 0 else Shown(lines, k - 1) + lines[k - 1].chars
  }

  /** The loop of `line_with_index` from line `i` on, `po` being the displayed width before it. */
  function FindShown(lines: seq<Line>, index: nat, i: nat, po: nat): (r: Option<(nat, nat)>)
    requires i <= |lines| && po == Shown(lines, i) <= index
    ensures r.None? <==> index >= Shown(lines, |lines|)
    ensures r.Some? ==> && i <= r.value.0 < |lines| && r.value.1 == Shown(lines, r.value.0)
                        && r.value.1 <= index < r.value.1 + lines[r.value.0].chars
    decreases |lines| - i
  {
    if i == |lines| then None
    else
      var co := po + lines[i].chars;
      if index >= po && index < co then ShownOrdered(lines, i, |lines|); Some((i, po))
      else FindShown(lines, index, i + 1, co)
  }

  /**
   * `line_with_index` (returning the line's position in `lines` and its
   * base): the line whose range of displayed code points, counted across
   * the lines, holds `index`; `None` past the last displayed code point.
   */
  function LineWithIndex(t: Text, index: nat): (r: Option<(nat, nat)>)
    ensures r.None? <==> index >= Shown(t.lines, |t.lines|)
    ensures r.Some? ==> && r.value.0 < |t.lines| && r.value.1 == Shown(t.lines, r.value.0)
                        && r.value.1 <= index < r.value.1 + t.lines[r.value.0].chars
  {
    if |t.lines| == 0 then None else FindShown(t.lines, index, 0, 0)
  }

  /** The ranges of displayed code points of distinct lines do not overlap. */
  lemma {:induction false} ShownOrdered(lines: seq<Line>, j: nat, k: nat)
    requires j < k <= |lines|
    ensures Shown(lines, j) + lines[j].chars <= Shown(lines, k)
    decreases k - j
  {
    if j + 1 < k {
      ShownOrdered(lines, j, k - 1);
    }
  }

  /** So at most one line holds a displayed index, and `line_with_index` finds that one. */
  lemma LineWithIndexUnique(t: Text, index: nat, k: nat)
    requires k < |t.lines|
    requires Shown(t.lines, k) <= index < Shown(t.lines, k) + t.lines[k].chars
    ensures LineWithIndex(t, index) == Some((k, Shown(t.lines, k)))
  {
    FindShownUnique(t.lines, index, 0, k);
  }

  /** The search from line `i` reaches line `k` when `k`'s range holds the index, passing the lines before it. */
  lemma {:induction false} FindShownUnique(lines: seq<Line>, index: nat, i: nat, k: nat)
    requires i <= k < |lines| && Shown(lines, i) <= index
    requires Shown(lines, k) <= index < Shown(lines, k) + lines[k].chars
    ensures FindShown(lines, index, i, Shown(lines, i)) == Some((k, Shown(lines, k)))
    decreases k - i
  {
    if i < k {
      ShownOrdered(lines, i, k);
      FindShownUnique(lines, index, i + 1, k);
    }
  }

  /**
   * `offset_for_index`: `line.offset` plus the UTF-8 bytes of the first
   * `index - base` displayed code points of the line `line_with_index`
   * finds, which is the byte offset in the text of that code point; `None`
   * exactly where the line search fails.
   */
  function OffsetForIndex(t: Text, index: nat): (r: Option<nat>)
    requires Wf(t)
    ensures r.None? <==> LineWithIndex(t, index).None?
    ensures r.Some? ==>
      var kb := LineWithIndex(t, index).value;
      r.value == Offset(t.text, t.lines[kb.0].coff + (index - kb.1))
  {
    var w := LineWithIndex(t, index);
    if w.None? then None
    else
      var k, base := w.value.0, w.value.1;
      LineFacts(t, k);
      Some(ShownOffset(t.text, t.lines[k], index - base))
  }

  /** The loop over the first `rem` displayed code points of line `l`, adding their UTF-8 widths. */
  function ShownOffset(text: seq<char>, l: Line, rem: nat): (o: nat)
    requires LineCounters(text, l) && rem < l.chars
    ensures o == Offset(text, l.coff + rem)
  {
    if rem == 0 then l.boff
    else
      var s := TextBuffer.LineText(l, text);
      OffsetShift(text, l.coff, l.coff + l.chars, rem);
      match TextBuffer.Walk(s, rem)
      case Some(ecw) => l.boff + ecw
      case None => assert false; l.boff
  }

  /** The byte offset `off` starts a code point of `s` (or is its end). */
  ghost predicate Boundary(s: seq<char>, off: nat)
  {
    exists k | 0 <= k <= |s| :: Offset(s, k) == off
  }

  /** `CharCount` finds the code point at a boundary, and only there does it map back. */
  lemma BoundaryAt(s: seq<char>, off: nat)
    ensures Boundary(s, off) <==> Offset(s, CharCount(s, off)) == off
  {
    if Boundary(s, off) {
      var k :| 0 <= k <= |s| && Offset(s, k) == off;
      CharCountOfOffset(s, k);
    }
  }

  /**
   * `insert`: `String::insert` at byte `idx`, which panics (`None`) unless
   * `idx` is a code point boundary of the text; then reflow, and the
   * position of the byte after `idx`.
   */
  function Insert(t: Text, idx: nat, c: char): (r: Option<(Text, Pos)>)
    requires Wf(t)
    ensures r.None? <==> !Boundary(t.text, idx)
    ensures r.Some? ==>
      var k := CharCount(t.text, idx);
      && Offset(t.text, k) == idx
      && r.value.0 == SetText(t, t.text[..k] + [c] + t.text[k..])
      && Len(r.value.0) == Len(t) + Utf8Len(c)
      && r.value.1 == Index(r.value.0, idx + 1) && r.value.1.index == idx + 1
  {
    var k := CharCount(t.text, idx);
    BoundaryAt(t.text, idx);
    if Offset(t.text, k) != idx then None
    else
      var u := SetText(t, t.text[..k] + [c] + t.text[k..]);
      InsertLen(t.text, k, c);
      Some((u, Index(u, idx + 1)))
  }

  /** Inserting `c` at code point `k` adds its UTF-8 length, and the offset of `k` stays within the text. */
  lemma InsertLen(s: seq<char>, k: nat, c: char)
    requires k <= |s|
    ensures Bytes(s[..k] + [c] + s[k..]) == Bytes(s) + Utf8Len(c)
    ensures Offset(s, k) <= Bytes(s)
  {
    InsertBytes(s[..k], s[k..], c);
    assert s[..k] + s[k..] == s;
    OffsetMonotone(s, k, |s|);
    OffsetIsBytes(s, |s|);
    assert s[..|s|] == s;
  }

  lemma InsertBytes(a: seq<char>, b: seq<char>, c: char)
    ensures Bytes(a + [c] + b) == Bytes(a + b) + Utf8Len(c)
  {
    assert [c][1..] == [];
    BytesAppend(a, [c]);
    BytesAppend(a + [c], b);
    BytesAppend(a, b);
  }

  /** A code point starts at byte `off` exactly when `CharCount` finds one there. */
  lemma StartAt(s: seq<char>, off: nat)
    ensures Boundary(s, off) && off < Bytes(s) <==>
            CharCount(s, off) < |s| && Offset(s, CharCount(s, off)) == off
  {
    BoundaryAt(s, off);
    OffsetIsBytes(s, |s|);
    assert s[..|s|] == s;
    OffsetMonotone(s, CharCount(s, off), |s|);
  }

  /**
   * `backspace`: on an empty text, `ZERO_POS` and no change. Otherwise
   * `String::remove` at byte `idx`, which panics (`None`) unless a code
   * point starts there; then reflow, and the position of `idx`.
   */
  function Backspace(t: Text, idx: nat): (r: Option<(Text, Pos)>)
    requires Wf(t)
    ensures |t.text| == 0 ==> r == Some((t, Zero))
    ensures |t.text| > 0 ==> (r.None? <==> !(Boundary(t.text, idx) && idx < Len(t)))
    ensures |t.text| > 0 && r.Some? ==>
      var k := CharCount(t.text, idx);
      && k < |t.text| && Offset(t.text, k) == idx
      && r.value.0 == SetText(t, t.text[..k] + t.text[k + 1..])
      && r.value.1 == Index(r.value.0, idx)
  {
    if |t.text| == 0 then Some((t, Zero))
    else
      var k := CharCount(t.text, idx);
      StartAt(t.text, idx);
      if k < |t.text| && Offset(t.text, k) == idx then
        var u := SetText(t, t.text[..k] + t.text[k + 1..]);
        Some((u, Index(u, idx)))
      else None
  }

  /** The byte offset of a code point depends only on the code points before it. */
  lemma {:induction false} OffsetPrefix(s: seq<char>, u: seq<char>, k: nat)
    requires k <= |s| && k <= |u| && s[..k] == u[..k]
    ensures Offset(s, k) == Offset(u, k)
  {
    if k > 0 {
      assert s[..k - 1] == s[..k][..k - 1] && u[..k - 1] == u[..k][..k - 1];
      assert s[k - 1] == s[..k][k - 1] && u[k - 1] == u[..k][k - 1];
      OffsetPrefix(s, u, k - 1);
    }
  }

  /** In `s` with `c` inserted at code point `k`, a code point starts at the old offset of `k`, and removing it gives `s` back. */
  lemma RemoveInserted(s: seq<char>, k: nat, c: char)
    requires k <= |s|
    ensures var u := s[..k] + [c] + s[k..];
      && Offset(u, k) == Offset(s, k) && CharCount(u, Offset(s, k)) == k
      && k < |u| && u[..k] + u[k + 1..] == s
  {
    var u := s[..k] + [c] + s[k..];
    assert u[..k] == s[..k];
    OffsetPrefix(u, s, k);
    CharCountOfOffset(u, k);
    assert u[..k] + u[k + 1..] == s;
  }

  /** Backspace at the byte where a code point was inserted removes it again. */
  lemma InsertBackspace(t: Text, idx: nat, c: char)
    requires Wf(t) && Insert(t, idx, c).Some?
    ensures Backspace(Insert(t, idx, c).value.0, idx).Some?
    ensures Backspace(Insert(t, idx, c).value.0, idx).value.0.text == t.text
  {
    var u := Insert(t, idx, c).value.0;
    var k := CharCount(t.text, idx);
    RemoveInserted(t.text, k, c);
    assert u.text == t.text[..k] + [c] + t.text[k..];
    assert CharCount(u.text, idx) == k;
    StartAt(u.text, idx);
  }

  /** The `_rel` variants: the remembered cursor moves to the answer's index. */
  function Moved(t: Text, p: Pos): (r: (Text, Pos))
    ensures r.0 == t.(loc := p.index) && r.1 == p
  {
    (t.(loc := p.index), p)
  }

  /** A well-formed text whose remembered cursor lies within the text. */
  predicate Placed(t: Text)
  {
    Wf(t) && t.loc <= Len(t)
  }

  /** `up_rel`. */
  function UpRel(t: Text): (r: (Text, Pos))
    requires Wf(t)
    ensures Placed(r.0) && r.0.text == t.text && r.1 == Up(t, t.loc) && r.0.loc == r.1.index
  {
    Moved(t, Up(t, t.loc))
  }

  /** `down_rel`. */
  function DownRel(t: Text): (r: (Text, Pos))
    requires Wf(t)
    ensures Placed(r.0) && r.0.text == t.text && r.1 == Down(t, t.loc) && r.0.loc == r.1.index
  {
    Moved(t, Down(t, t.loc))
  }

  /** `left_rel`. */
  function LeftRel(t: Text): (r: (Text, Pos))
    requires Wf(t)
    ensures Placed(r.0) && r.0.text == t.text && r.1 == Left(t, t.loc) && r.0.loc == r.1.index
  {
    Moved(t, Left(t, t.loc))
  }

  /** `right_rel`. */
  function RightRel(t: Text): (r: (Text, Pos))
    requires Wf(t)
    ensures Placed(r.0) && r.0.text == t.text && r.1 == Right(t, t.loc) && r.0.loc == r.1.index
  {
    Moved(t, Right(t, t.loc))
  }

  /** `home_rel`: panics where `home` does. */
  function HomeRel(t: Text): (r: Option<(Text, Pos)>)
    requires Wf(t)
    ensures r.None? <==> Home(t, t.loc).None?
    ensures r.Some? ==> Placed(r.value.0) && r.value.1 == Home(t, t.loc).value && r.value.0.loc == r.value.1.index
  {
    match Home(t, t.loc)
    case None => None
    case Some(p) => Some(Moved(t, p))
  }

  /** `end_rel`: panics where `end` does. */
  function EndRel(t: Text): (r: Option<(Text, Pos)>)
    requires Wf(t)
    ensures r.None? <==> End(t, t.loc).None?
    ensures r.Some? ==> Placed(r.value.0) && r.value.1 == End(t, t.loc).value && r.value.0.loc == r.value.1.index
  {
    match End(t, t.loc)
    case None => None
    case Some(p) => Some(Moved(t, p))
  }

  /** `insert_rel`: insert at the remembered cursor, then advance it by one byte. */
  function InsertRel(t: Text, c: char): (r: Option<(Text, Pos)>)
    requires Wf(t)
    ensures r.None? <==> Insert(t, t.loc, c).None?
    ensures r.Some? ==> && Wf(r.value.0) && r.value.0.loc == t.loc + 1 && r.value.0.loc <= Len(r.value.0)
                        && r.value.1 == Insert(t, t.loc, c).value.1
  {
    match Insert(t, t.loc, c)
    case None => None
    case Some((u, p)) =>
      OffsetMonotone(t.text, CharCount(t.text, t.loc), |t.text|);
      OffsetIsBytes(t.text, |t.text|);
      assert t.text[..|t.text|] == t.text;
      Some((u.(loc := t.loc + 1), p))
  }

  /** `backspace_rel`: at 0, `ZERO_POS` and no change; else step the cursor back one byte and remove there. */
  function BackspaceRel(t: Text): (r: Option<(Text, Pos)>)
    requires Wf(t)
    ensures t.loc == 0 ==> r == Some((t, Zero))
    ensures t.loc > 0 ==> r == Backspace(t.(loc := t.loc - 1), t.loc - 1)
    ensures t.loc > 0 && r.Some? ==> r.value.0.loc == t.loc - 1
  {
    if t.loc == 0 then Some((t, Zero))
    else Backspace(t.(loc := t.loc - 1), t.loc - 1)
  }

  /** `backspace_rel` after `insert_rel` restores both the text and the remembered cursor. */
  lemma InsertRelBackspaceRel(t: Text, c: char)
    requires Wf(t) && InsertRel(t, c).Some?
    ensures BackspaceRel(InsertRel(t, c).value.0).Some?
    ensures BackspaceRel(InsertRel(t, c).value.0).value.0.text == t.text
    ensures BackspaceRel(InsertRel(t, c).value.0).value.0.loc == t.loc
  {
    var u := InsertRel(t, c).value.0;
    var v := Insert(t, t.loc, c).value.0;
    assert u == v.(loc := t.loc + 1);
    assert BackspaceRel(u) == Backspace(v, t.loc);
    InsertBackspace(t, t.loc, c);
  }

  /**
   * The one rule in which text.rs differs from the current layout: at a
   * newline it keeps an earlier whitespace boundary, so a hard line hides
   * the whitespace before its newline. On "a \n" the legacy line displays
   * "a", and the layout of src/text/layout.rs displays "a ".
   */
  lemma {:induction false} TrailingBlank(text: seq<char>, width: nat)
    requires text == ['a', ' ', '\n'] && width >= 3
    ensures Reflow(text, width) == [Line(0, 0, 0, 3, 3, 1, 1, true)]
    ensures Layout.Layout(text, width) == [Line(0, 0, 0, 3, 3, 2, 2, true)]
  {
    var st1 := Acc(0, 0, 1, 1, 0, 0, 0, 0, 0, 'a', []);
    var st2 := Acc(0, 0, 2, 2, 1, 1, 0, 0, 0, ' ', []);
    var end := Acc(3, 3, 0, 0, 0, 0, 0, 0, 1, '\0', []);
    assert !IsWhitespace('a') && IsWhitespace(' ') && IsWhitespace('\n') && !IsWhitespace('\0');
    assert Step('a', width, true, Start) == st1 == Step('a', width, false, Start);
    assert Step(' ', width, true, st1) == st2 == Step(' ', width, false, st1);
    assert Step('\n', width, true, st2) == end.(lines := [Line(0, 0, 0, 3, 3, 1, 1, true)]);
    assert Step('\n', width, false, st2) == end.(lines := [Line(0, 0, 0, 3, 3, 2, 2, true)]);
    forall legacy: bool
      ensures Run(text, width, legacy, 0, Start)
              == Run(text, width, legacy, 3, Step('\n', width, legacy, Step(' ', width, legacy, Step('a', width, legacy, Start))))
    {
      RunTurn(text, width, legacy, 0, Start);
      RunTurn(text, width, legacy, 1, Step('a', width, legacy, Start));
      RunTurn(text, width, legacy, 2, Step(' ', width, legacy, Step('a', width, legacy, Start)));
    }
  }
}

=== FILE: parse.dfy ===
/**
 * The parser of the expression language (src/rdl/parse.rs): a primary
 * (identifier or number), optionally followed by an operator and, unless
 * the input ends or turns to prose, a further expression, which makes
 * every sum nest to the right with no precedence between operators.
 *
 * The arm meant to pick out `+` names `ADD` without qualifying it, so it
 * binds every operator char. `plusOnly == false` is that behaviour: every
 * operator builds a sum. `plusOnly == true` is the evident intent: only a
 * `+` builds a sum and any other operator is `TokenNotMatched`.
 */
module Parse {
  import opened Wrappers
  import opened RdlError
  import opened Scan
  import opened Tokenize
  import opened Exec

  /** The value of a decimal digit. */
  function DigitValue(c: char): nat
  {
    if '0' <= c <= '9' then (c as int - '0' as int) as nat else 0
  }

  /** The value of a run of decimal digits. */
  function DigitsValue(w: string): nat
  {
    if w == [] then 0 else 10 * DigitsValue(w[..|w| - 1]) + DigitValue(w[|w| - 1])
  }

  function Pow10(n: nat): (p: nat)
    ensures p > 0
  {
    if n == 0 then 1 else 10 * Pow10(n - 1)
  }

  /** The position of the first `.` in `w`, or `|w|`. */
  function DotAt(w: string): (d: nat)
    ensures d <= |w| && (d < |w| ==> w[d] == '.')
    ensures forall j | 0 <= j < d :: w[j] != '.'
  {
    if w == [] || w[0] == '.' then 0 else 1 + DotAt(w[1..])
  }

  /** The digits of number text, and the digits after its dot, as a decimal. */
  function DecimalValue(ip: string, fp: string): real
  {
    DigitsValue(ip) as real + DigitsValue(fp) as real / Pow10(|fp|) as real
  }

  /**
   * `str::parse::<f64>` on the text of a number token: digits, optionally
   * a dot and more digits, read as a decimal; anything else is
   * `ParseFloatError`.
   */
  function ParseFloat(w: string): (r: Result<real, Error>)
    ensures r.Ok? <==> IsNumberText(w)
    ensures r.Err? ==> r.error == ParseFloatError
  {
    if IsDigits(w) then Ok(DigitsValue(w) as real)
    else if IsNumberText(w) then
      NumberDot(w);
      var d := DotAt(w);
      Ok(DecimalValue(w[..d], w[d + 1..]))
    else
      Err(ParseFloatError)
  }

  /** Number text that is not all digits has its first dot between two digit runs. */
  lemma NumberDot(w: string)
    requires IsNumberText(w) && !IsDigits(w)
    ensures 0 < DotAt(w) < |w| && IsDigits(w[..DotAt(w)]) && IsDigits(w[DotAt(w) + 1..])
  {
    var i :| 0 < i < |w| && IsDigits(w[..i]) && w[i] == '.' && IsDigits(w[i + 1..]);
    assert forall j | 0 <= j < i :: w[..i][j] == w[j];
    assert forall j | 0 <= j < i :: w[j] != '.';
    DotAtFirst(w, i);
  }

  /** The dot `DotAt` finds is the first one. */
  lemma {:induction false} DotAtFirst(w: string, i: nat)
    requires i < |w| && w[i] == '.' && forall j | 0 <= j < i :: w[j] != '.'
    ensures DotAt(w) == i
  {
    if i > 0 {
      assert w[1..][i - 1] == '.';
      assert forall j | 0 <= j < i - 1 :: w[1..][j] == w[j + 1];
      DotAtFirst(w[1..], i - 1);
    }
  }

  /** Integer digits and fraction digits around a dot read as the decimal they spell. */
  lemma ParseFloatParts(ip: string, fp: string)
    requires IsDigits(ip) && IsDigits(fp)
    ensures ParseFloat(ip) == Ok(DigitsValue(ip) as real)
    ensures ParseFloat(ip + ['.'] + fp) == Ok(DecimalValue(ip, fp))
  {
    var w := ip + ['.'] + fp;
    assert w[|ip|] == '.' && !IsDigit('.');
    assert !IsDigits(w);
    assert forall j | 0 <= j < |ip| :: w[j] == ip[j];
    assert forall j | 0 <= j < |ip| :: w[j] != '.';
    assert w[..|ip|] == ip && w[|ip| + 1..] == fp;
  }

  /** The node for a primary token, or why the token is not one. */
  function Primary(tok: Token): (r: Result<Node, Error>)
    ensures r.Ok? ==> tok.ttype in {TType.Ident, TType.Number} && WellFormed(r.value) && r.value.ntype in {NType.Ident, NType.Number}
    ensures tok.ttype == TType.Ident ==> r == Ok(NewIdent(tok.ttext))
    ensures tok.ttype == TType.Number ==> r.Ok? == IsNumberText(tok.ttext)
    ensures tok.ttype == TType.Number && r.Ok? ==> r.value == NewNumber(ParseFloat(tok.ttext).value)
    ensures tok.ttype == TType.Number && r.Err? ==> r.error == ParseFloatError
    ensures tok.ttype == End ==> r == Err(EndOfInput)
    ensures tok.ttype !in {TType.Ident, TType.Number, End} ==> r == Err(TokenNotMatched)
  {
    match tok.ttype
    case Ident => Ok(NewIdent(tok.ttext))
    case Number =>
      (match ParseFloat(tok.ttext)
       case Ok(v) => Ok(NewNumber(v))
       case Err(e) => Err(e))
    case End => Err(EndOfInput)
    case _ => Err(TokenNotMatched)
  }

  /**
   * The leaf a primary token builds holds the token's own content: an
   * identifier its name, and a number token the decimal its digits spell.
   */
  lemma PrimaryLeaf(tok: Token, ip: string, fp: string)
    requires IsDigits(ip) && IsDigits(fp)
    ensures tok.ttype == TType.Ident ==> Primary(tok).Ok? && Primary(tok).value.text == Some(tok.ttext)
    ensures tok.ttype == TType.Number && tok.ttext == ip ==>
      Primary(tok) == Ok(NewNumber(DigitsValue(ip) as real))
    ensures tok.ttype == TType.Number && tok.ttext == ip + ['.'] + fp ==>
      Primary(tok) == Ok(NewNumber(DecimalValue(ip, fp)))
  {
    ParseFloatParts(ip, fp);
  }

  /**
   * The node for `left op right`: a sum for any operator as written, and
   * only for a `+` when `plusOnly`. An operator token with no text, which
   * the scanner never queues, is answered `TokenNotMatched`.
   */
  function Combine(op: Token, left: Node, right: Node, plusOnly: bool): (r: Result<Node, Error>)
    ensures r.Ok? <==> op.ttext != [] && (!plusOnly || op.ttext[0] == '+')
    ensures r.Ok? ==> r.value == NewAdd(left, right)
    ensures r.Err? ==> r.error == TokenNotMatched
  {
    if op.ttext == [] then Err(TokenNotMatched)
    else if !plusOnly || op.ttext[0] == '+' then Ok(NewAdd(left, right))
    else Err(TokenNotMatched)
  }

  /** `parse_primary`: take one token and build its node. */
  function ParsePrimary(s: Scanner): (r: (Scanner, Result<Node, Error>))
    requires Valid(s)
    ensures Valid(r.0) && Work(r.0) <= Work(s)
    ensures r.1.Ok? ==> Work(r.0) < Work(s)
  {
    match NextToken(s)
    case (s1, Err(e)) => (s1, Err(e))
    case (s1, Ok(tok)) => (s1, Primary(tok))
  }

  /** `parse_arith`: a primary, then what may follow it. */
  function ParseArith(s: Scanner, plusOnly: bool): (r: (Scanner, Result<Node, Error>))
    requires Valid(s)
    ensures Valid(r.0) && Work(r.0) <= Work(s)
    decreases Work(s), 0
  {
    var (s1, first) := ParsePrimary(s);
    match first
    case Err(e) => (s1, Err(e))
    case Ok(left) => ArithRest(s1, left, plusOnly)
  }

  /**
   * The rest of `parse_arith` after the left operand: when the next token
   * is an operator, take it; then, unless the next token is prose or the
   * end, parse the right-hand side. A scan failure in the lookahead ends
   * the expression after the left operand.
   */
  function ArithRest(s: Scanner, left: Node, plusOnly: bool): (r: (Scanner, Result<Node, Error>))
    requires Valid(s)
    ensures Valid(r.0) && Work(r.0) <= Work(s)
    decreases Work(s), 1
  {
    var (s2, la) := LaType(s);
    if la != Some(Operator) then (s2, Ok(left))
    else
      var (s3, next) := NextToken(s2);
      match next
      case Err(e) => (s3, Err(e))
      case Ok(op) =>
        var (s4, la2) := LaType(s3);
        if la2.None? || la2 == Some(Verbatim) || la2 == Some(End) then (s4, Ok(left))
        else
          var (s5, second) := ParseArith(s4, plusOnly);
          match second
          case Err(e) => (s5, Err(e))
          case Ok(right) => (s5, Combine(op, left, right, plusOnly))
  }

  /** `parse`: one expression. */
  function Parse(s: Scanner, plusOnly: bool): (r: (Scanner, Result<Node, Error>))
    requires Valid(s)
    ensures Valid(r.0) && Work(r.0) <= Work(s)
  {
    ParseArith(s, plusOnly)
  }

  /** The token at the front of a stream; `End` once the stream is exhausted. */
  function Head(ts: seq<Token>): Token
  {
    if ts == [] then Token(End, "") else ts[0]
  }

  /**
   * The grammar of `parse_arith` over a token stream: the result and the
   * number of tokens consumed.
   */
  function RefArith(ts: seq<Token>, plusOnly: bool): (r: (Result<Node, Error>, nat))
    ensures r.1 <= |ts|
    ensures r.0.Ok? ==> r.1 > 0
    decreases |ts|, 1
  {
    match Primary(Head(ts))
    case Err(e) => (Err(e), if ts == [] then 0 else 1)
    case Ok(left) =>
      var (res, k) := RefRest(ts[1..], left, plusOnly);
      (res, 1 + k)
  }

  /** The grammar of what follows a left operand. */
  function RefRest(ts: seq<Token>, left: Node, plusOnly: bool): (r: (Result<Node, Error>, nat))
    ensures r.1 <= |ts|
    decreases |ts|, 0
  {
    if Head(ts).ttype != Operator then (Ok(left), 0)
    else if Head(ts[1..]).ttype in {Verbatim, End} then (Ok(left), 1)
    else
      match RefArith(ts[1..], plusOnly)
      case (Err(e), k) => (Err(e), 1 + k)
      case (Ok(right), k) => (Combine(ts[0], left, right, plusOnly), 1 + k)
  }

  /**
   * `token` on a scanner whose stream scans without error: it answers the
   * head of the stream and leaves the rest of it.
   */
  lemma NextStream(s: Scanner)
    requires Valid(s) && Tokens(s).Ok?
    ensures NextToken(s).1 == Ok(Head(Tokens(s).value))
    ensures Valid(NextToken(s).0)
    ensures Tokens(NextToken(s).0) == Ok(if Tokens(s).value == [] then [] else Tokens(s).value[1..])
  {
    var (s1, r) := NextToken(s);
    if r.value.ttype == End {
      EndToken(s);
      assert NextToken(s1) == (s1, Ok(Token(End, "")));
    } else {
      assert Tokens(s).value == [r.value] + Tokens(s1).value;
    }
  }

  /** The only `End` token `token` answers is the one with empty text, on an exhausted scanner. */
  lemma EndToken(s: Scanner)
    requires Valid(s) && NextToken(s).1.Ok? && NextToken(s).1.value.ttype == End
    ensures NextToken(s).1.value == Token(End, "")
    ensures NextToken(s).0.rest == [] && NextToken(s).0.tokens == []
  {
  }

  /** The lookahead does not disturb the stream: `token` after it answers what it would have. */
  lemma LaNext(s: Scanner)
    requires Valid(s)
    ensures LaType(s).1.Some? ==> NextToken(LaType(s).0) == NextToken(s)
    ensures LaType(s).1.None? ==> NextToken(s).1.Err?
  {
    if |s.tokens| == 0 {
      var (s1, e) := ScanStep(s);
      if e.Ok? && |s1.tokens| == 0 {
        ScanProgress(s);
        EndToken(s);
      }
    }
  }

  /** On a stream that scans without error, the lookahead names the head's type and keeps the stream. */
  lemma LaStream(s: Scanner)
    requires Valid(s) && Tokens(s).Ok?
    ensures LaType(s).1 == Some(Head(Tokens(s).value).ttype)
    ensures Valid(LaType(s).0) && Tokens(LaType(s).0) == Tokens(s)
  {
    LaNext(s);
    NextStream(s);
    var s1 := LaType(s).0;
    assert NextToken(s1) == NextToken(s);
  }

  /**
   * The parser agrees with the grammar on the stream: on any scanner whose
   * tokens scan without error, `parse_arith` answers what the grammar
   * answers for the stream, and leaves exactly the tokens the grammar did
   * not consume.
   */
  lemma {:induction false} ParseAgrees(s: Scanner, plusOnly: bool)
    requires Valid(s) && Tokens(s).Ok?
    ensures ParseArith(s, plusOnly).1 == RefArith(Tokens(s).value, plusOnly).0
    ensures Tokens(ParseArith(s, plusOnly).0) == Ok(Tokens(s).value[RefArith(Tokens(s).value, plusOnly).1..])
    decreases Work(s), 0
  {
    var ts := Tokens(s).value;
    NextStream(s);
    var (s1, first) := ParsePrimary(s);
    if first.Ok? {
      assert ts != [] && Tokens(s1) == Ok(ts[1..]);
      RestAgrees(s1, first.value, plusOnly);
      var k := RefRest(ts[1..], first.value, plusOnly).1;
      assert ts[1..][k..] == ts[1 + k..];
    } else if ts == [] {
      assert ts[0..] == ts;
    }
  }

  /** What follows a left operand agrees with the grammar in the same way. */
  lemma {:induction false} RestAgrees(s: Scanner, left: Node, plusOnly: bool)
    requires Valid(s) && Tokens(s).Ok?
    ensures ArithRest(s, left, plusOnly).1 == RefRest(Tokens(s).value, left, plusOnly).0
    ensures Tokens(ArithRest(s, left, plusOnly).0) == Ok(Tokens(s).value[RefRest(Tokens(s).value, left, plusOnly).1..])
    decreases Work(s), 1
  {
    var ts := Tokens(s).value;
    LaStream(s);
    var (s2, la) := LaType(s);
    if la == Some(Operator) {
      NextStream(s2);
      var (s3, next) := NextToken(s2);
      assert next == Ok(ts[0]) && Tokens(s3) == Ok(ts[1..]);
      LaStream(s3);
      var (s4, la2) := LaType(s3);
      if !(la2.None? || la2 == Some(Verbatim) || la2 == Some(End)) {
        ParseAgrees(s4, plusOnly);
        var k := RefArith(ts[1..], plusOnly).1;
        assert ts[1..][k..] == ts[1 + k..];
      }
    } else {
      assert ts[0..] == ts;
    }
  }

  /**
   * A stream that spells a sum: primaries at the even positions and
   * operators at the odd ones, with a `+` at each when `plusOnly`.
   */
  predicate SumTokens(ts: seq<Token>, plusOnly: bool)
  {
    && |ts| % 2 == 1
    && (forall i | 0 <= i < |ts| && i % 2 == 0 :: Primary(ts[i]).Ok?)
    && (forall i | 0 <= i < |ts| && i % 2 == 1 ::
          ts[i].ttype == Operator && ts[i].ttext != [] && (!plusOnly || ts[i].ttext[0] == '+'))
  }

  /** The right-nested sum of the primaries of a sum stream. */
  function Chain(ts: seq<Token>, plusOnly: bool): Node
    requires SumTokens(ts, plusOnly)
    decreases |ts|
  {
    if |ts| == 1 then Primary(ts[0]).value
    else
      SumSuffix(ts, plusOnly);
      NewAdd(Primary(ts[0]).value, Chain(ts[2..], plusOnly))
  }

  /** Dropping a primary and an operator from a longer sum stream leaves a sum stream. */
  lemma SumSuffix(ts: seq<Token>, plusOnly: bool)
    requires SumTokens(ts, plusOnly) && |ts| > 1
    ensures |ts| >= 3 && SumTokens(ts[2..], plusOnly)
  {
    forall i | 0 <= i < |ts| - 2
      ensures ts[2..][i] == ts[i + 2]
    {
    }
  }

  /**
   * The parser consumes a whole sum stream and builds the right-nested
   * sum of its primaries: nothing is left over.
   */
  lemma {:induction false} SumComplete(ts: seq<Token>, plusOnly: bool)
    requires SumTokens(ts, plusOnly)
    ensures RefArith(ts, plusOnly) == (Ok(Chain(ts, plusOnly)), |ts|)
    decreases |ts|
  {
    assert Primary(ts[0]).Ok?;
    if |ts| == 1 {
      assert ts[1..] == [];
    } else {
      SumSuffix(ts, plusOnly);
      assert ts[1] == ts[1..][0] && ts[2] == ts[2..][0];
      assert Primary(ts[2]).Ok?;
      SumComplete(ts[2..], plusOnly);
    }
  }

  /** Every left operand of a sum is a primary: sums nest to the right. */
  predicate RightNested(n: Node)
  {
    n.ntype == NType.Add && n.left.Some? && n.right.Some? ==>
      n.left.value.ntype in {NType.Ident, NType.Number} && RightNested(n.right.value)
  }

  /** Whatever the grammar builds evaluates as a tree of sums, nested to the right. */
  lemma {:induction false} RefShape(ts: seq<Token>, plusOnly: bool)
    requires RefArith(ts, plusOnly).0.Ok?
    ensures WellFormed(RefArith(ts, plusOnly).0.value)
    ensures RightNested(RefArith(ts, plusOnly).0.value)
    decreases |ts|
  {
    var left := Primary(Head(ts));
    if Head(ts[1..]).ttype == Operator && Head(ts[2..]).ttype !in {Verbatim, End} {
      RefShape(ts[2..], plusOnly);
    }
  }

  /** The parser builds a well-formed, right-nested tree whenever the stream scans. */
  lemma ParseShape(s: Scanner, plusOnly: bool)
    requires Valid(s) && Tokens(s).Ok? && ParseArith(s, plusOnly).1.Ok?
    ensures WellFormed(ParseArith(s, plusOnly).1.value) && RightNested(ParseArith(s, plusOnly).1.value)
  {
    ParseAgrees(s, plusOnly);
    RefShape(Tokens(s).value, plusOnly);
  }

  /** The tokens of `a+b*c`. */
  const Mixed: seq<Token> := [Token(TType.Ident, "a"), Token(Operator, "+"), Token(TType.Ident, "b"), Token(Operator, "*"), Token(TType.Ident, "c")]

  /**
   * `a+b*c` as written reads as `a + (b + c)`: the `*` builds a sum and
   * there is no precedence; with only `+` building sums it is rejected.
   */
  lemma MixedOperators()
    ensures RefArith(Mixed, false) == (Ok(NewAdd(NewIdent("a"), NewAdd(NewIdent("b"), NewIdent("c")))), 5)
    ensures RefArith(Mixed, true).0 == Err(TokenNotMatched)
  {
    assert Mixed[2..] == [Token(TType.Ident, "b"), Token(Operator, "*"), Token(TType.Ident, "c")];
    assert Mixed[2..][2..] == [Token(TType.Ident, "c")];
    assert Mixed[2..][2..][1..] == [];
    assert Mixed[1..][0] == Token(Operator, "+");
    assert Mixed[2..][1..][0] == Token(Operator, "*");
  }

  /** The tokens of `1-2`. */
  const Minus: seq<Token> := [Token(TType.Number, "1"), Token(Operator, "-"), Token(TType.Number, "2")]

  /** `1-2` as written is the sum `1 + 2`; with only `+` building sums it is `TokenNotMatched`. */
  lemma MinusIsSum()
    ensures RefArith(Minus, false) == (Ok(NewAdd(NewNumber(1.0), NewNumber(2.0))), 3)
    ensures RefArith(Minus, true).0 == Err(TokenNotMatched)
  {
    assert IsDigits("1") && IsDigits("2");
    assert DigitsValue("1") == 1 by { assert "1"[..0] == []; }
    assert DigitsValue("2") == 2 by { assert "2"[..0] == []; }
    assert Minus[2..] == [Token(TType.Number, "2")];
    assert Minus[2..][1..] == [];
    assert Minus[1..][0] == Token(Operator, "-");
  }
}

=== FILE: scan.dfy ===
/**
 * The character cursor and tokenizer of the expression language
 * (src/rdl/scan.rs). The scanner is a record threaded through every
 * operation: the source text, the chars not yet consumed, the queue of
 * scanned tokens and the count of consumed chars. Operations that can fail
 * return the state they leave behind next to their result, since a failed
 * scan does not rewind.
 *
 * The source keeps the unread chars as a one-char peek slot in front of a
 * char iterator. Every caller peeks before it skips, so the slot always
 * holds the next unread char when it matters, and the model folds it into
 * `rest`.
 */
module Scan {
  import opened Wrappers
  import opened RdlError
  import Utf8

  const Escape: char := '\\'
  const Quote: char := '"'

  datatype TType = Verbatim | Ident | Number | String | Operator | Symbol | End

  datatype Token = Token(ttype: TType, ttext: string)

  datatype Scanner = Scanner(text: string, rest: string, tokens: seq<Token>, index: nat, rewind: bool)

  /**
   * Every reachable scanner: `index` counts the consumed chars, so that
   * consumed and unread chars make up the text, and no queued token is an
   * `End` token.
   */
  predicate Valid(s: Scanner)
  {
    && s.index + |s.rest| == |s.text|
    && forall t <- s.tokens :: t.ttype != End
  }

  /** `Scanner::new`: nothing consumed and nothing queued. */
  function New(text: string): (s: Scanner)
    ensures Valid(s) && s.rest == text && s.index == 0 && s.tokens == [] && !s.rewind
  {
    Scanner(text, text, [], 0, false)
  }

  /**
   * A scanner like `New`, except that its number scan leaves a `.` without
   * a digit after it unread instead of failing on it.
   */
  function Rewinding(text: string): (s: Scanner)
    ensures Valid(s) && s.rest == text && s.index == 0 && s.tokens == [] && s.rewind
  {
    Scanner(text, text, [], 0, true)
  }

  /** `peek`: the next char, not consumed. */
  function Peek(s: Scanner): (r: Option<char>)
    ensures r.None? <==> s.rest == []
    ensures r.Some? ==> r.value == s.rest[0]
  {
    if |s.rest| > 0 then Some(s.rest[0]) else None
  }

  /**
   * `skip`: consume the char a peek found and count it. Past the end of the
   * input only the count moves.
   */
  function Skip(s: Scanner): (r: Scanner)
    ensures r.index == s.index + 1 && r.tokens == s.tokens && r.text == s.text && r.rewind == s.rewind
    ensures s.rest != [] ==> s.rest == [s.rest[0]] + r.rest
    ensures s.rest == [] ==> r.rest == []
    ensures Valid(s) && s.rest != [] ==> Valid(r)
  {
    s.(rest := if |s.rest| > 0 then s.rest[1..] else s.rest, index := s.index + 1)
  }

  /**
   * `next`: the next char, consumed; at the end of the input `None`, and
   * the scanner is left as it was.
   */
  function Next(s: Scanner): (r: (Scanner, Option<char>))
    ensures r.1 == Peek(s)
    ensures r.1.Some? ==> r.0.rest == s.rest[1..] && r.0.index == s.index + 1
    ensures r.1.None? ==> r.0 == s
    ensures r.0.tokens == s.tokens && r.0.text == s.text && r.0.rewind == s.rewind
    ensures Valid(s) ==> Valid(r.0)
  {
    var n := Peek(s);
    if n.Some? then (Skip(s), n) else (s, n)
  }

  /** Once the input is exhausted, `next` answers `None` forever. */
  lemma NextExhausted(s: Scanner)
    requires s.rest == []
    ensures Next(s).1.None? && Next(Next(s).0).1.None?
  {
  }

  /** `next` called `k` times, collecting what it yields. */
  function NextN(s: Scanner, k: nat): (r: (Scanner, string))
    decreases k
  {
    if k == 0 then (s, [])
    else
      var (s1, c) := Next(s);
      var (s2, w) := NextN(s1, k - 1);
      (s2, if c.Some? then [c.value] + w else w)
  }

  /** `next` yields the text's chars in order, one per call, consuming them. */
  lemma {:induction false} NextInOrder(s: Scanner, k: nat)
    requires k <= |s.rest|
    ensures NextN(s, k).1 == s.rest[..k]
    ensures NextN(s, k).0.rest == s.rest[k..]
    ensures NextN(s, k).0.index == s.index + k
    decreases k
  {
    if k > 0 {
      var s1 := Next(s).0;
      NextInOrder(s1, k - 1);
      assert s.rest[..k] == [s.rest[0]] + s.rest[1..][..k - 1];
      assert s.rest[k..] == s.rest[1..][k - 1..];
    }
  }

  /** `peek_fn`: whether the next char passes `check`; nothing is consumed. */
  function PeekFn(s: Scanner, check: char -> bool): (r: bool)
    ensures r <==> s.rest != [] && check(s.rest[0])
  {
    match Peek(s)
    case Some(c) => check(c)
    case None => false
  }

  /** `expect_fn`: consume the next char exactly when it passes `check`. */
  function ExpectFn(s: Scanner, check: char -> bool): (r: (Scanner, Option<char>))
    ensures r.1.Some? <==> s.rest != [] && check(s.rest[0])
    ensures r.1.Some? ==> r.1.value == s.rest[0] && r.0 == Skip(s)
    ensures r.1.None? ==> r.0 == s
    ensures Valid(s) ==> Valid(r.0)
  {
    match Peek(s)
    case Some(c) => if check(c) then (Skip(s), Some(c)) else (s, None)
    case None => (s, None)
  }

  /** `expect`: consume the next char exactly when it is `e`. */
  function Expect(s: Scanner, e: char): (r: (Scanner, bool))
    ensures r.1 <==> Peek(s) == Some(e)
    ensures r.0 == if r.1 then Skip(s) else s
  {
    var (s1, c) := ExpectFn(s, c => e == c);
    (s1, c.Some?)
  }

  /**
   * `assert_fn`: consume and return the next char when it passes `check`;
   * otherwise fail with `AssertionFailed` and consume nothing.
   */
  function AssertFn(s: Scanner, check: char -> bool): (r: (Scanner, Result<char, Error>))
    ensures r.1.Ok? <==> s.rest != [] && check(s.rest[0])
    ensures r.1.Ok? ==> r.1.value == s.rest[0] && r.0 == Skip(s)
    ensures r.1.Err? ==> r.1.error == AssertionFailed && r.0 == s
    ensures Valid(s) ==> Valid(r.0)
  {
    var (s1, c) := ExpectFn(s, check);
    if c.Some? then (s1, Ok(c.value)) else (s1, Err(AssertionFailed))
  }

  /** `assert`: `assert_fn` with equality to `e`. */
  function AssertChar(s: Scanner, e: char): (r: (Scanner, Result<char, Error>))
    ensures r.1.Ok? <==> Peek(s) == Some(e)
    ensures r.1.Ok? ==> r.1.value == e && r.0 == Skip(s)
    ensures r.1.Err? ==> r.1.error == AssertionFailed && r.0 == s
    ensures Valid(s) ==> Valid(r.0)
  {
    AssertFn(s, c => e == c)
  }

  /** ASCII letters; Unicode `is_alphabetic` beyond ASCII is not modelled. */
  predicate IsAlphabetic(c: char)
  {
    ('a' <= c <= 'z') || ('A' <= c <= 'Z')
  }

  /** `char::is_digit(10)`. */
  predicate IsDigit(c: char)
  {
    '0' <= c <= '9'
  }

  /** `is_ident`: a char that may continue an identifier. */
  predicate IsIdent(c: char)
  {
    IsAlphabetic(c) || IsDigit(c) || c == '_'
  }

  /** `is_ident_start`. */
  predicate IsIdentStart(c: char)
  {
    IsAlphabetic(c) || c == '_'
  }

  /** `is_number_start`. */
  predicate IsNumberStart(c: char)
  {
    IsDigit(c)
  }

  /** `is_operator`: one of `= + - * / %`. */
  predicate IsOperator(c: char)
  {
    c == '=' || c == '+' || c == '-' || c == '*' || c == '/' || c == '%'
  }

  /** The chars that end a verbatim run: those that start some other token. */
  predicate StartsToken(c: char)
  {
    IsIdentStart(c) || IsNumberStart(c) || IsOperator(c)
  }

  /** The length of the longest prefix of `w` whose chars all pass `p`. */
  function Span(p: char -> bool, w: string): (n: nat)
    ensures n <= |w|
    ensures forall i | 0 <= i < n :: p(w[i])
    ensures n < |w| ==> !p(w[n])
  {
    if |w| > 0 && p(w[0]) then 1 + Span(p, w[1..]) else 0
  }

  /**
   * The loop shared by `ident`, `integer`, `scan_operator` and
   * `whitespace`: consume and collect chars while they pass `p`. It takes
   * exactly the longest prefix that passes.
   */
  function TakeWhile(s: Scanner, p: char -> bool): (r: (Scanner, string))
    ensures |r.1| == Span(p, s.rest)
    ensures forall i | 0 <= i < |r.1| :: p(r.1[i])
    ensures s.rest == r.1 + r.0.rest
    ensures r.0.rest != [] ==> !p(r.0.rest[0])
    ensures r.0.index == s.index + |r.1| && r.0.tokens == s.tokens && r.0.text == s.text && r.0.rewind == s.rewind
    ensures Valid(s) ==> Valid(r.0)
    decreases |s.rest|
  {
    match Peek(s)
    case Some(c) =>
      if p(c) then
        var (s2, w) := TakeWhile(Skip(s), p);
        ConsSplit(c, w, s2.rest, s.rest);
        (s2, [c] + w)
      else (s, [])
    case None => (s, [])
  }

  /** Putting back the char in front of a split keeps the split. */
  lemma ConsSplit(c: char, w: string, tail: string, all: string)
    requires all == [c] + (w + tail)
    ensures all == ([c] + w) + tail
    ensures forall i | 0 < i <= |w| :: ([c] + w)[i] == w[i - 1]
  {
  }

  /** `whitespace`: the run of whitespace at the cursor, consumed. */
  function Whitespace(s: Scanner): (r: (Scanner, Result<string, Error>))
    ensures r.1.Ok? && |r.1.value| == Span(Utf8.IsWhitespace, s.rest)
    ensures s.rest == r.1.value + r.0.rest
    ensures Valid(s) ==> Valid(r.0)
  {
    var (s1, w) := TakeWhile(s, Utf8.IsWhitespace);
    (s1, Ok(w))
  }

  /** `skip_ws`: consume the run of whitespace at the cursor. */
  function SkipWs(s: Scanner): (r: (Scanner, Result<(), Error>))
    ensures r.1.Ok?
    ensures r.0.rest == s.rest[Span(Utf8.IsWhitespace, s.rest)..]
    ensures r.0.rest != [] ==> !Utf8.IsWhitespace(r.0.rest[0])
    ensures Valid(s) ==> Valid(r.0)
  {
    var (s1, w) := Whitespace(s);
    (s1, Ok(()))
  }

  /**
   * `ident`: an identifier start, then the longest run of identifier chars.
   * Fails with `AssertionFailed`, consuming nothing, if no identifier starts here.
   */
  function IdentText(s: Scanner): (r: (Scanner, Result<string, Error>))
    ensures r.1.Ok? <==> s.rest != [] && IsIdentStart(s.rest[0])
    ensures r.1.Err? ==> r.1.error == AssertionFailed && r.0 == s
    ensures r.1.Ok? ==>
      && |r.1.value| == 1 + Span(IsIdent, s.rest[1..])
      && s.rest == r.1.value + r.0.rest
      && (r.0.rest != [] ==> !IsIdent(r.0.rest[0]))
    ensures r.0.tokens == s.tokens && r.0.text == s.text && r.0.rewind == s.rewind && r.0.index + |r.0.rest| == s.index + |s.rest|
  {
    var (s1, c) := AssertFn(s, IsIdentStart);
    match c
    case Err(e) => (s1, Err(e))
    case Ok(c) =>
      var (s2, w) := TakeWhile(s1, IsIdent);
      ConsSplit(c, w, s2.rest, s.rest);
      (s2, Ok([c] + w))
  }

  /** `integer`: the longest run of decimal digits, at least one. */
  function Integer(s: Scanner): (r: (Scanner, Result<string, Error>))
    ensures r.1.Ok? <==> s.rest != [] && IsDigit(s.rest[0])
    ensures r.1.Err? ==> r.1.error == AssertionFailed && r.0 == s
    ensures r.1.Ok? ==>
      && |r.1.value| == Span(IsDigit, s.rest)
      && s.rest == r.1.value + r.0.rest
      && (r.0.rest != [] ==> !IsDigit(r.0.rest[0]))
      && IsDigits(r.1.value)
    ensures r.0.tokens == s.tokens && r.0.text == s.text && r.0.rewind == s.rewind && r.0.index + |r.0.rest| == s.index + |s.rest|
  {
    var (s1, c) := AssertFn(s, IsDigit);
    match c
    case Err(e) => (s1, Err(e))
    case Ok(c) =>
      var (s2, w) := TakeWhile(s1, IsDigit);
      ConsSplit(c, w, s2.rest, s.rest);
      DigitsCons(c, w);
      (s2, Ok([c] + w))
  }

  /** A non-empty run of decimal digits. */
  predicate IsDigits(w: string)
  {
    |w| > 0 && forall i | 0 <= i < |w| :: IsDigit(w[i])
  }

  /** A digit in front of a run of digits is a run of digits. */
  lemma DigitsCons(c: char, w: string)
    requires IsDigit(c) && forall i | 0 <= i < |w| :: IsDigit(w[i])
    ensures IsDigits([c] + w)
  {
    assert forall i | 0 < i < |w| + 1 :: ([c] + w)[i] == w[i - 1];
  }

  /** Decimal digits, optionally followed by `.` and more decimal digits. */
  predicate IsNumberText(w: string)
  {
    IsDigits(w) || exists i | 0 < i < |w| :: IsDigits(w[..i]) && w[i] == '.' && IsDigits(w[i + 1..])
  }

  /** The digits `i`, a dot and the digits `f` form number text. */
  lemma FractionIsNumber(i: string, f: string)
    requires IsDigits(i) && IsDigits(f)
    ensures IsNumberText(i + ['.'] + f)
  {
    var w := i + ['.'] + f;
    assert w[..|i|] == i && w[|i| + 1..] == f;
  }

  /** Re-associating the parts of a number: integer, dot, fraction, rest. */
  lemma DotSplit(all: string, i: string, mid: string, f: string, tail: string)
    requires all == i + mid && mid != [] && mid[0] == '.' && mid[1..] == f + tail
    ensures all == (i + ['.'] + f) + tail
  {
    assert mid == ['.'] + mid[1..];
  }

  /**
   * `number`: an integer, then, when a `.` follows, the `.` and a second
   * integer. A `.` not followed by a digit fails with `AssertionFailed`
   * after consuming the integer and the `.`; a rewinding scanner instead
   * ends the number before such a `.` and leaves it unread.
   */
  function NumberText(s: Scanner): (r: (Scanner, Result<string, Error>))
    ensures (s.rest == [] || !IsDigit(s.rest[0])) ==> r.1 == Err(AssertionFailed) && r.0 == s
    ensures r.1.Ok? ==> IsNumberText(r.1.value) && s.rest == r.1.value + r.0.rest
    ensures r.1.Ok? && r.0.rest != [] ==> !IsDigit(r.0.rest[0])
    ensures r.1.Err? ==> r.1.error == AssertionFailed
    ensures s.rewind ==> (r.1.Ok? <==> s.rest != [] && IsDigit(s.rest[0]))
    ensures |r.0.rest| <= |s.rest|
    ensures s.rest != [] && IsDigit(s.rest[0]) ==> |r.0.rest| < |s.rest|
    ensures r.0.tokens == s.tokens && r.0.text == s.text && r.0.rewind == s.rewind && r.0.index + |r.0.rest| == s.index + |s.rest|
  {
    var (s1, i) := Integer(s);
    match i
    case Err(e) => (s1, Err(e))
    case Ok(i) =>
      if Peek(s1) == Some('.') && !(s.rewind && !DigitAfterDot(s1)) then
        var (s2, f) := Integer(Skip(s1));
        match f
        case Err(e) => (s2, Err(e))
        case Ok(f) =>
          FractionIsNumber(i, f);
          DotSplit(s.rest, i, s1.rest, f, s2.rest);
          (s2, Ok(i + ['.'] + f))
      else (s1, Ok(i))
  }

  /** The char after the next one is a digit. */
  predicate DigitAfterDot(s: Scanner)
  {
    |s.rest| > 1 && IsDigit(s.rest[1])
  }

  /** `integer` at a digit takes the digit run in front, `Span(IsDigit, _)` long. */
  lemma IntegerRun(s: Scanner)
    requires s.rest != [] && IsDigit(s.rest[0])
    ensures var n := Span(IsDigit, s.rest);
      Integer(s).1 == Ok(s.rest[..n]) && Integer(s).0.rest == s.rest[n..]
  {
    var n := Span(IsDigit, s.rest);
    var (s1, i) := Integer(s);
    assert s.rest == i.value + s1.rest && |i.value| == n;
    assert s.rest[..n] == i.value;
  }

  /** A `.` followed by a digit after an integer: `number` joins the two integers. */
  lemma NumberJoins(s: Scanner)
    requires Integer(s).1.Ok? && DigitAfterDot(Integer(s).0) && Integer(s).0.rest[0] == '.'
    ensures var s1 := Integer(s).0;
      var s2 := Integer(Skip(s1));
      s2.1.Ok? && NumberText(s) == (s2.0, Ok(Integer(s).1.value + ['.'] + s2.1.value))
  {
    var s1 := Integer(s).0;
    assert Peek(s1) == Some('.');
    var s1' := Skip(s1);
    assert s1'.rest == s1.rest[1..] && IsDigit(s1'.rest[0]);
    assert Integer(s1').1.Ok?;
  }

  /** A digit run, a `.` and a digit run are taken as one number, by either scanner. */
  lemma NumberFraction(s: Scanner, n: nat, m: nat)
    requires s.rest != [] && IsDigit(s.rest[0]) && n == Span(IsDigit, s.rest)
    requires n + 1 < |s.rest| && s.rest[n] == '.' && IsDigit(s.rest[n + 1])
    requires m == Span(IsDigit, s.rest[n + 1..])
    ensures NumberText(s).1 == Ok(s.rest[..n + 1 + m]) && NumberText(s).0.rest == s.rest[n + 1 + m..]
    ensures FollowsSpec(s)
  {
    var w := s.rest;
    FractionSplit(w, n, m);
    var i, f, tail := w[..n], w[n + 1..n + 1 + m], w[n + 1 + m..];
    FractionTaken(s, i, f, tail);
    assert i + ['.'] + f == w[..n + 1 + m];
    SpecFraction(w, s.rewind, n, m);
  }

  /** The grammar's answer on a digit run, a `.` and a digit run. */
  lemma SpecFraction(w: string, rewind: bool, n: nat, m: nat)
    requires w != [] && IsDigit(w[0]) && n == Span(IsDigit, w)
    requires n + 1 < |w| && w[n] == '.' && IsDigit(w[n + 1])
    requires m == Span(IsDigit, w[n + 1..])
    ensures NumberSpec(w, rewind) == (Ok(w[..n + 1 + m]), n + 1 + m)
  {
    assert n < |w| && w[n] == '.';
    assert n + 1 < |w| && IsDigit(w[n + 1]);
  }

  /** The digit runs around a `.` cut a string into the parts `FractionTaken` expects. */
  lemma FractionSplit(w: string, n: nat, m: nat)
    requires w != [] && IsDigit(w[0]) && n == Span(IsDigit, w) && n + 1 < |w| && w[n] == '.' && IsDigit(w[n + 1])
    requires m == Span(IsDigit, w[n + 1..])
    ensures IsDigits(w[..n]) && IsDigits(w[n + 1..n + 1 + m])
    ensures var tail := w[n + 1 + m..]; tail == [] || !IsDigit(tail[0])
    ensures w == w[..n] + ['.'] + w[n + 1..n + 1 + m] + w[n + 1 + m..]
    ensures w[..n + 1 + m] == w[..n] + ['.'] + w[n + 1..n + 1 + m]
  {
    SliceParts(w, n, m);
    var d := w[n + 1..];
    assert n + 1 + m < |w| ==> w[n + 1 + m] == d[m];
    assert Span(IsDigit, d) > 0;
    var f := w[n + 1..n + 1 + m];
    forall k | 0 <= k < m ensures IsDigit(f[k]) {
      assert f[k] == d[k];
    }
    forall k | 0 <= k < n ensures IsDigit(w[..n][k]) {
      assert w[..n][k] == w[k];
    }
  }

  /** Cutting a string at `n`, after the char at `n`, and `m` chars further. */
  lemma SliceParts(w: string, n: nat, m: nat)
    requires n + 1 + m <= |w|
    ensures w[n + 1..][..m] == w[n + 1..n + 1 + m]
    ensures w[n + 1..][m..] == w[n + 1 + m..]
    ensures w[..n + 1 + m] == w[..n] + [w[n]] + w[n + 1..][..m]
  {
  }

  /**
   * A digit run, then a `.` with no digit after it: the scan as written
   * fails after consuming both; the rewinding scan ends before the `.`.
   */
  lemma NumberDanglingDot(s: Scanner)
    requires s.rest != [] && IsDigit(s.rest[0])
    requires var n := Span(IsDigit, s.rest);
      n < |s.rest| && s.rest[n] == '.' && (n + 1 == |s.rest| || !IsDigit(s.rest[n + 1]))
    ensures var n := Span(IsDigit, s.rest);
      if s.rewind then NumberText(s).1 == Ok(s.rest[..n]) && NumberText(s).0.rest == s.rest[n..]
      else NumberText(s).1 == Err(AssertionFailed) && NumberText(s).0.rest == s.rest[n + 1..]
    ensures FollowsSpec(s)
  {
    var n := Span(IsDigit, s.rest);
    IntegerRun(s);
    var s1 := Integer(s).0;
    assert !DigitAfterDot(s1);
    var s1' := Skip(s1);
    assert s1'.rest == s.rest[n + 1..];
    assert NumberSpec(s.rest, s.rewind) == if s.rewind then (Ok(s.rest[..n]), n) else (Err(AssertionFailed), n + 1);
  }

  /** A digit run not followed by a `.` is the whole number. */
  lemma NumberInteger(s: Scanner)
    requires s.rest != [] && IsDigit(s.rest[0])
    requires var n := Span(IsDigit, s.rest);
      !(n < |s.rest| && s.rest[n] == '.')
    ensures var n := Span(IsDigit, s.rest);
      NumberText(s).1 == Ok(s.rest[..n]) && NumberText(s).0.rest == s.rest[n..]
    ensures FollowsSpec(s)
  {
    IntegerRun(s);
    var n := Span(IsDigit, s.rest);
    assert NumberSpec(s.rest, s.rewind) == (Ok(s.rest[..n]), n);
  }

  /**
   * The number grammar on the unread input alone, independent of the
   * scanner: the result of `number` and how many chars it consumes. Let `n`
   * be the length of the digit run in front. A `.` followed by a digit is
   * taken together with the digit run after it. A `.` followed by anything
   * else, or by nothing, is a failure after the integer and the `.`; the
   * rewinding scanner ends the number before that `.` instead. Without a `.`
   * the number is the digit run alone.
   */
  function NumberSpec(w: string, rewind: bool): (Result<string, Error>, nat)
    requires w != [] && IsDigit(w[0])
  {
    var n := Span(IsDigit, w);
    if n < |w| && w[n] == '.' then
      if n + 1 < |w| && IsDigit(w[n + 1]) then
        var m := Span(IsDigit, w[n + 1..]);
        (Ok(w[..n + 1 + m]), n + 1 + m)
      else if rewind then (Ok(w[..n]), n)
      else (Err(AssertionFailed), n + 1)
    else (Ok(w[..n]), n)
  }

  /** `number` on `s` gives what the grammar names, with exactly the chars it counts consumed. */
  predicate FollowsSpec(s: Scanner)
    requires s.rest != [] && IsDigit(s.rest[0])
  {
    var (v, k) := NumberSpec(s.rest, s.rewind);
    k <= |s.rest| && NumberText(s).1 == v && NumberText(s).0.rest == s.rest[k..]
  }

  /** `number` follows the grammar on every input that starts with a digit. */
  lemma NumberCases(s: Scanner)
    requires s.rest != [] && IsDigit(s.rest[0])
    ensures FollowsSpec(s)
  {
    var n := Span(IsDigit, s.rest);
    if n < |s.rest| && s.rest[n] == '.' {
      if n + 1 < |s.rest| && IsDigit(s.rest[n + 1]) {
        NumberFraction(s, n, Span(IsDigit, s.rest[n + 1..]));
      } else {
        NumberDanglingDot(s);
      }
    } else {
      NumberInteger(s);
    }
  }

  /** The digit run in front of `i + tail` is `i` when `tail` does not start with a digit. */
  lemma {:induction false} SpanDigits(i: string, tail: string)
    requires forall k | 0 <= k < |i| :: IsDigit(i[k])
    requires tail == [] || !IsDigit(tail[0])
    ensures Span(IsDigit, i + tail) == |i|
    decreases |i|
  {
    if i != [] {
      assert (i + tail)[1..] == i[1..] + tail;
      SpanDigits(i[1..], tail);
    } else {
      assert i + tail == tail;
    }
  }

  /**
   * Digits, a `.` and digits, followed by anything but a digit, are taken as
   * one number, by either scanner.
   */
  lemma FractionTaken(s: Scanner, i: string, f: string, tail: string)
    requires IsDigits(i) && IsDigits(f) && (tail == [] || !IsDigit(tail[0]))
    requires s.rest == i + ['.'] + f + tail
    ensures NumberText(s).1 == Ok(i + ['.'] + f) && NumberText(s).0.rest == tail
  {
    assert s.rest == i + (['.'] + f + tail);
    IntegerAt(s, i, ['.'] + f + tail);
    AfterDot(Integer(s).0, f, tail);
    NumberJoins(s);
  }

  /** After the integer: a `.`, then digits `f` that `integer` takes, leaving `tail`. */
  lemma AfterDot(s1: Scanner, f: string, tail: string)
    requires IsDigits(f) && (tail == [] || !IsDigit(tail[0]))
    requires s1.rest == ['.'] + f + tail
    ensures DigitAfterDot(s1) && s1.rest[0] == '.'
    ensures Integer(Skip(s1)).1 == Ok(f) && Integer(Skip(s1)).0.rest == tail
  {
    assert Skip(s1).rest == f + tail;
    IntegerAt(Skip(s1), f, tail);
  }

  /** `integer` on digits `i` in front of a non-digit takes exactly `i`. */
  lemma IntegerAt(s: Scanner, i: string, rest: string)
    requires IsDigits(i) && s.rest == i + rest && (rest == [] || !IsDigit(rest[0]))
    ensures Integer(s).1 == Ok(i) && Integer(s).0.rest == rest
  {
    SpanDigits(i, rest);
    var (s1, v) := Integer(s);
    assert s.rest[..|i|] == i && s.rest[|i|..] == rest;
    assert v.value == s.rest[..|i|];
  }

  /** `ScanNumber` queues digits, a `.` and digits as one `Number` token. */
  lemma FractionToken(s: Scanner, i: string, f: string, tail: string)
    requires IsDigits(i) && IsDigits(f) && (tail == [] || !IsDigit(tail[0]))
    requires s.rest == i + ['.'] + f + tail
    ensures ScanNumber(s).1.Ok? && ScanNumber(s).0.rest == tail
    ensures ScanNumber(s).0.tokens == s.tokens + [Token(Number, i + ['.'] + f)]
  {
    FractionTaken(s, i, f, tail);
    NumberQueued(s);
  }

  /** A successful `number` is queued as a `Number` token, with the scanner it leaves. */
  lemma NumberQueued(s: Scanner)
    requires NumberText(s).1.Ok?
    ensures ScanNumber(s) == (Push(NumberText(s).0, Token(Number, NumberText(s).1.value)), Ok(()))
  {
  }

  /**
   * The non-rewinding `number` fails exactly where no digit starts, or where
   * the digit run is followed by a `.` and then by the end or a non-digit.
   */
  lemma NumberFails(s: Scanner)
    requires !s.rewind
    ensures var n := Span(IsDigit, s.rest);
      NumberText(s).1.Err? <==>
        || s.rest == [] || !IsDigit(s.rest[0])
        || (n < |s.rest| && s.rest[n] == '.' && (n + 1 == |s.rest| || !IsDigit(s.rest[n + 1])))
  {
    if s.rest != [] && IsDigit(s.rest[0]) {
      NumberCases(s);
    }
  }

  /** The escape table: the char after a backslash, and what it stands for. */
  function EscapeOf(c: char): Option<char>
  {
    match c
    case 'n' => Some('\n')
    case 'r' => Some('\r')
    case '"' => Some('"')
    case '{' => Some('{')
    case '(' => Some('(')
    case '@' => Some('@')
    case '/' => Some('/')
    case '\\' => Some('\\')
    case _ => None
  }

  /** The chars that have an escape, and the char that writes each after a backslash. */
  function EscapeFor(d: char): Option<char>
  {
    match d
    case '\n' => Some('n')
    case '\r' => Some('r')
    case '"' => Some('"')
    case '{' => Some('{')
    case '(' => Some('(')
    case '@' => Some('@')
    case '/' => Some('/')
    case '\\' => Some('\\')
    case _ => None
  }

  /** The escape table is a bijection between its eight codes and eight chars. */
  lemma EscapeInverse(c: char, d: char)
    ensures EscapeOf(c) == Some(d) <==> EscapeFor(d) == Some(c)
  {
  }

  /**
   * `escape`: a backslash, then one char, both consumed. A char in the
   * table gives the one-char string it stands for; any other char a
   * `SyntaxError` at the position after it; no char at all `EndOfInput`;
   * no backslash `AssertionFailed`, consuming nothing.
   */
  function EscapeSeq(s: Scanner): (r: (Scanner, Result<string, Error>))
    ensures Peek(s) != Some(Escape) ==> r.1 == Err(AssertionFailed) && r.0 == s
    ensures s.rest == [Escape] ==> r.1 == Err(EndOfInput) && r.0.rest == []
    ensures Peek(s) == Some(Escape) && |s.rest| >= 2 ==>
      && r.0.rest == s.rest[2..] && r.0.index == s.index + 2
      && (EscapeOf(s.rest[1]).Some? ==> r.1 == Ok([EscapeOf(s.rest[1]).value]))
      && (EscapeOf(s.rest[1]).None? ==> r.1.Err? && r.1.error.SyntaxError? && r.1.error.start == s.index + 2)
    ensures |r.0.rest| <= |s.rest|
    ensures r.1.Ok? ==> |r.0.rest| + 2 == |s.rest|
    ensures r.0.tokens == s.tokens && r.0.text == s.text && r.0.rewind == s.rewind && r.0.index + |r.0.rest| == s.index + |s.rest|
  {
    var (s1, b) := AssertChar(s, Escape);
    match b
    case Err(e) => (s1, Err(e))
    case Ok(_) =>
      var (s2, n) := Next(s1);
      match n
      case None => (s2, Err(EndOfInput))
      case Some(c) =>
        match EscapeOf(c)
        case Some(d) => (s2, Ok([d]))
        case None => (s2, Err(SyntaxError(s2.text, s2.index, s2.index, "Invalid escape sequence")))
  }

  /** Writing an escapable char after a backslash and scanning the escape gives the char back. */
  lemma EscapeRoundTrip(d: char, rest: string)
    requires EscapeFor(d).Some?
    ensures EscapeSeq(New([Escape, EscapeFor(d).value] + rest)).1 == Ok([d])
  {
    EscapeInverse(EscapeFor(d).value, d);
  }

  /** Moving the first char of `w` onto the end of `buf`. */
  lemma PushFront(buf: string, w: string)
    requires w != []
    ensures (buf + [w[0]]) + w[1..] == buf + w
  {
    assert w == [w[0]] + w[1..];
  }

  /** Text without quotes or backslashes, which a string literal copies unchanged. */
  predicate NoQuoteOrEscape(w: string)
  {
    forall i | 0 <= i < |w| :: w[i] != Quote && w[i] != Escape
  }

  /** The loop of `string`, with the text collected so far in `buf`. */
  function StringBody(s: Scanner, buf: string): (r: (Scanner, Result<string, Error>))
    ensures r.1.Ok? ==> r.0.rest == [] || r.0.rest[0] == Quote
    ensures |r.0.rest| <= |s.rest|
    ensures r.0.tokens == s.tokens && r.0.text == s.text && r.0.rewind == s.rewind && r.0.index + |r.0.rest| == s.index + |s.rest|
    decreases |s.rest|, 1
  {
    match Peek(s)
    case None => (s, Ok(buf))
    case Some(c) =>
      if c == Escape then StringEscape(s, buf)
      else if c == Quote then (s, Ok(buf))
      else StringBody(Skip(s), buf + [c])
  }

  /** An escape inside a string literal, then the rest of the loop. */
  function StringEscape(s: Scanner, buf: string): (r: (Scanner, Result<string, Error>))
    requires Peek(s) == Some(Escape)
    ensures r.1.Ok? ==> r.0.rest == [] || r.0.rest[0] == Quote
    ensures |r.0.rest| < |s.rest|
    ensures r.0.tokens == s.tokens && r.0.text == s.text && r.0.rewind == s.rewind && r.0.index + |r.0.rest| == s.index + |s.rest|
    decreases |s.rest|, 0
  {
    var (s2, e) := EscapeSeq(s);
    match e
    case Err(err) => (s2, Err(err))
    case Ok(d) => StringBody(s2, buf + d)
  }

  /** The head of quote-free text is copied as is; the tail is quote-free too. */
  lemma NoQuoteTail(w: string)
    requires NoQuoteOrEscape(w) && w != []
    ensures w[0] != Quote && w[0] != Escape && NoQuoteOrEscape(w[1..])
  {
    assert forall i | 0 <= i < |w[1..]| :: w[1..][i] == w[i + 1];
  }

  /** One turn of the loop of `string` on a plain char. */
  lemma StringStep(s: Scanner, buf: string)
    requires s.rest != [] && s.rest[0] != Escape && s.rest[0] != Quote
    ensures StringBody(s, buf) == StringBody(Skip(s), buf + [s.rest[0]])
  {
  }

  /** At the closing quote the loop of `string` stops with what it collected. */
  lemma StringAtQuote(s: Scanner, buf: string)
    requires s.rest != [] && s.rest[0] == Quote
    ensures StringBody(s, buf) == (s, Ok(buf))
  {
  }

  /** One turn of the loop on the first char of quote-free text `w`, in terms of `w`. */
  lemma StringPlainStep(s: Scanner, buf: string, w: string, after: string)
    requires NoQuoteOrEscape(w) && w != [] && s.rest == w + after
    ensures NoQuoteOrEscape(w[1..]) && Skip(s).rest == w[1..] + after
    ensures StringBody(s, buf) == StringBody(Skip(s), buf + [w[0]])
    ensures buf + w == (buf + [w[0]]) + w[1..]
  {
    NoQuoteTail(w);
    TailOfConcat(w, after);
    assert s.rest[0] == w[0];
    StringStep(s, buf);
    PushFront(buf, w);
  }

  /** Dropping the head of `w + after` drops the head of `w`. */
  lemma TailOfConcat(w: string, after: string)
    requires w != []
    ensures (w + after)[0] == w[0] && (w + after)[1..] == w[1..] + after
  {
  }

  /** Without quotes or escapes, the loop of `string` copies the chars up to the quote. */
  lemma {:induction false} StringBodyPlain(s: Scanner, buf: string, w: string, after: string)
    requires NoQuoteOrEscape(w) && s.rest == w + after && after != [] && after[0] == Quote
    ensures StringBody(s, buf).1 == Ok(buf + w)
    ensures StringBody(s, buf).0.rest == after
    decreases |w|
  {
    if w == [] {
      assert s.rest == after && buf + w == buf;
      StringAtQuote(s, buf);
    } else {
      StringPlainStep(s, buf, w, after);
      StringBodyPlain(Skip(s), buf + [w[0]], w[1..], after);
    }
  }

  /**
   * `string`: a quote, then chars and escapes up to the next quote, then
   * that quote. Input that ends before the closing quote fails with
   * `AssertionFailed`.
   */
  function StringText(s: Scanner): (r: (Scanner, Result<string, Error>))
    ensures Peek(s) != Some(Quote) ==> r.1 == Err(AssertionFailed) && r.0 == s
    ensures r.1.Ok? ==> Peek(s) == Some(Quote) && |r.0.rest| + 2 <= |s.rest|
    ensures r.0.tokens == s.tokens && r.0.text == s.text && r.0.rewind == s.rewind && r.0.index + |r.0.rest| == s.index + |s.rest|
  {
    var (s1, q) := AssertChar(s, Quote);
    match q
    case Err(e) => (s1, Err(e))
    case Ok(_) =>
      var (s2, body) := StringBody(s1, []);
      match body
      case Err(e) => (s2, Err(e))
      case Ok(w) =>
        var (s3, q2) := AssertChar(s2, Quote);
        match q2
        case Err(e) => (s3, Err(e))
        case Ok(_) => (s3, Ok(w))
  }

  /** A quoted literal without quotes or escapes inside scans to its contents, both quotes consumed. */
  lemma StringRoundTrip(w: string, tail: string)
    requires NoQuoteOrEscape(w)
    ensures StringText(New([Quote] + w + [Quote] + tail)).1 == Ok(w)
    ensures StringText(New([Quote] + w + [Quote] + tail)).0.rest == tail
  {
    var s := New([Quote] + w + [Quote] + tail);
    var s1 := Skip(s);
    var after := [Quote] + tail;
    assert s1.rest == w + after;
    StringBodyPlain(s1, [], w, after);
    assert [] + w == w && after[1..] == tail;
  }

  /** Without a closing quote the loop of `string` runs to the end of the input. */
  lemma {:induction false} UnterminatedBody(s: Scanner, buf: string, w: string)
    requires NoQuoteOrEscape(w) && s.rest == w
    ensures StringBody(s, buf).1.Ok? && StringBody(s, buf).0.rest == []
    decreases |w|
  {
    if w != [] {
      NoQuoteTail(w);
      StringStep(s, buf);
      UnterminatedBody(Skip(s), buf + [w[0]], w[1..]);
    }
  }

  /** An unterminated literal is an `AssertionFailed` error. */
  lemma StringUnterminated(w: string)
    requires NoQuoteOrEscape(w)
    ensures StringText(New([Quote] + w)).1 == Err(AssertionFailed)
  {
    var s1 := Skip(New([Quote] + w));
    UnterminatedBody(s1, [], w);
  }

  /** Append a token to the queue (`push`). */
  function Push(s: Scanner, tok: Token): (r: Scanner)
    ensures r.tokens == s.tokens + [tok] && r.rest == s.rest && r.index == s.index && r.text == s.text && r.rewind == s.rewind
    ensures Valid(s) && tok.ttype != End ==> Valid(r)
  {
    s.(tokens := s.tokens + [tok])
  }

  /** What a successful scan step guarantees: one more token, not `End`, for at least one char. */
  predicate Scanned(s: Scanner, r: Scanner)
  {
    && |r.tokens| == |s.tokens| + 1 && r.tokens[..|s.tokens|] == s.tokens
    && r.tokens[|s.tokens|].ttype != End
    && |r.rest| < |s.rest|
  }

  /** `scan_ident`: one `Ident` token for the identifier at the cursor. */
  function ScanIdent(s: Scanner): (r: (Scanner, Result<(), Error>))
    ensures s.rest != [] && IsIdentStart(s.rest[0]) ==>
      && r.1.Ok? && Scanned(s, r.0)
      && r.0.tokens[|s.tokens|] == Token(Ident, s.rest[..|s.rest| - |r.0.rest|])
    ensures r.0.rewind == s.rewind && (Valid(s) ==> Valid(r.0))
  {
    var (s1, name) := IdentText(s);
    match name
    case Err(e) => (s1, Err(e))
    case Ok(name) => (Push(s1, Token(Ident, name)), Ok(()))
  }

  /**
   * `scan_number`: one `Number` token for the number at the cursor. A
   * failed number keeps what it consumed.
   */
  function ScanNumber(s: Scanner): (r: (Scanner, Result<(), Error>))
    ensures r.1.Ok? ==>
      && Scanned(s, r.0) && r.0.tokens[|s.tokens|].ttype == Number
      && IsNumberText(r.0.tokens[|s.tokens|].ttext)
    ensures r.1.Err? ==> r.0.tokens == s.tokens && r.1.error == AssertionFailed
    ensures |r.0.rest| <= |s.rest|
    ensures s.rest != [] && IsDigit(s.rest[0]) ==> |r.0.rest| < |s.rest|
    ensures r.0.text == s.text && r.0.rewind == s.rewind && (Valid(s) ==> Valid(r.0))
  {
    var (s1, val) := NumberText(s);
    match val
    case Err(e) => (s1, Err(e))
    case Ok(val) => (Push(s1, Token(Number, val)), Ok(()))
  }

  /** `scan_operator`: one `Operator` token holding the whole run of operator chars. */
  function ScanOperator(s: Scanner): (r: (Scanner, Result<(), Error>))
    ensures r.1.Ok?
    ensures r.0.tokens == s.tokens + [Token(Operator, s.rest[..Span(IsOperator, s.rest)])]
    ensures r.0.rest == s.rest[Span(IsOperator, s.rest)..]
    ensures r.0.text == s.text && r.0.rewind == s.rewind && (Valid(s) ==> Valid(r.0))
  {
    var (s1, w) := TakeWhile(s, IsOperator);
    (Push(s1, Token(Operator, w)), Ok(()))
  }

  /** The kind of token a char starts, in the order `scan_semantic` tries them. */
  function KindOf(c: char): TType
  {
    if IsIdentStart(c) then Ident else if IsNumberStart(c) then Number else Operator
  }

  /**
   * `scan_semantic`: an identifier, a number or an operator run, chosen by
   * the first char in that order; anything else is `TokenNotMatched`
   * without consuming.
   */
  function ScanSemantic(s: Scanner): (r: (Scanner, Result<(), Error>))
    ensures (s.rest == [] || !StartsToken(s.rest[0])) ==> r == (s, Err(TokenNotMatched))
    ensures r.1.Ok? ==> s.rest != [] && Scanned(s, r.0) && r.0.tokens[|s.tokens|].ttype == KindOf(s.rest[0])
    ensures s.rest != [] && (IsIdentStart(s.rest[0]) || IsOperator(s.rest[0])) ==> r.1.Ok?
    ensures r.1.Err? ==> r.0.tokens == s.tokens
    ensures |r.0.rest| <= |s.rest|
    ensures s.rest != [] && StartsToken(s.rest[0]) ==> |r.0.rest| < |s.rest|
    ensures r.0.text == s.text && r.0.rewind == s.rewind && (Valid(s) ==> Valid(r.0))
  {
    match Peek(s)
    case None => (s, Err(TokenNotMatched))
    case Some(c) =>
      if IsIdentStart(c) then ScanIdent(s)
      else if IsNumberStart(c) then ScanNumber(s)
      else if IsOperator(c) then ScanOperator(s)
      else (s, Err(TokenNotMatched))
  }

  /**
   * The loop of `scan_verbatim`: collect chars and escapes until a char
   * that starts another token, or the end of the input.
   */
  function VerbatimRun(s: Scanner, buf: string): (r: (Scanner, Result<string, Error>))
    ensures r.1.Ok? ==> r.0.rest == [] || StartsToken(r.0.rest[0])
    ensures |r.0.rest| <= |s.rest|
    ensures s.rest != [] && !StartsToken(s.rest[0]) ==> |r.0.rest| < |s.rest|
    ensures r.0.tokens == s.tokens && r.0.text == s.text && r.0.rewind == s.rewind && r.0.index + |r.0.rest| == s.index + |s.rest|
    decreases |s.rest|, 1
  {
    match Peek(s)
    case None => (s, Ok(buf))
    case Some(c) =>
      if StartsToken(c) then (s, Ok(buf))
      else if c == Escape then VerbatimEscape(s, buf)
      else VerbatimRun(Skip(s), buf + [c])
  }

  /** An escape inside a verbatim run, then the rest of the run. */
  function VerbatimEscape(s: Scanner, buf: string): (r: (Scanner, Result<string, Error>))
    requires Peek(s) == Some(Escape)
    ensures r.1.Ok? ==> r.0.rest == [] || StartsToken(r.0.rest[0])
    ensures |r.0.rest| < |s.rest|
    ensures r.0.tokens == s.tokens && r.0.text == s.text && r.0.rewind == s.rewind && r.0.index + |r.0.rest| == s.index + |s.rest|
    decreases |s.rest|, 0
  {
    var (s2, e) := EscapeSeq(s);
    match e
    case Err(err) => (s2, Err(err))
    case Ok(d) => VerbatimRun(s2, buf + d)
  }

  /** Chars a verbatim run copies one by one: no backslash and no token start. */
  predicate Plain(w: string)
  {
    forall i | 0 <= i < |w| :: w[i] != Escape && !StartsToken(w[i])
  }

  /** The head of plain text is copied as is; the tail is plain too. */
  lemma PlainTail(w: string)
    requires Plain(w) && w != []
    ensures w[0] != Escape && !StartsToken(w[0]) && Plain(w[1..])
  {
    assert forall i | 0 <= i < |w[1..]| :: w[1..][i] == w[i + 1];
  }

  /** One turn of the verbatim loop on a plain char. */
  lemma VerbatimStep(s: Scanner, buf: string)
    requires s.rest != [] && s.rest[0] != Escape && !StartsToken(s.rest[0])
    ensures VerbatimRun(s, buf) == VerbatimRun(Skip(s), buf + [s.rest[0]])
  {
  }

  /** The verbatim loop stops at the end of the input and before a token start. */
  lemma VerbatimStop(s: Scanner, buf: string)
    requires s.rest == [] || StartsToken(s.rest[0])
    ensures VerbatimRun(s, buf) == (s, Ok(buf))
  {
  }

  /** Without escapes, a verbatim run copies its chars up to the next token start. */
  lemma {:induction false} VerbatimPlain(s: Scanner, buf: string, w: string, tail: string)
    requires Plain(w) && s.rest == w + tail
    requires tail == [] || StartsToken(tail[0])
    ensures VerbatimRun(s, buf) == (s.(rest := tail, index := s.index + |w|), Ok(buf + w))
    decreases |w|
  {
    if w == [] {
      VerbatimStop(s, buf);
      assert s.rest == tail && buf + w == buf;
    } else {
      var s1 := Skip(s);
      PlainTail(w);
      VerbatimStep(s, buf);
      assert s1.rest == w[1..] + tail;
      VerbatimPlain(s1, buf + [w[0]], w[1..], tail);
      PushFront(buf, w);
    }
  }

  /**
   * `scan_verbatim`: one `Verbatim` token holding the run up to the next
   * token start. Spaces and punctuation end up here.
   */
  function ScanVerbatim(s: Scanner): (r: (Scanner, Result<(), Error>))
    ensures r.1.Ok? ==>
      && |r.0.tokens| == |s.tokens| + 1 && r.0.tokens[..|s.tokens|] == s.tokens
      && r.0.tokens[|s.tokens|].ttype == Verbatim
      && (r.0.rest == [] || StartsToken(r.0.rest[0]))
    ensures r.1.Err? ==> r.0.tokens == s.tokens
    ensures |r.0.rest| <= |s.rest|
    ensures s.rest != [] && !StartsToken(s.rest[0]) ==> |r.0.rest| < |s.rest|
    ensures r.0.text == s.text && r.0.rewind == s.rewind && (Valid(s) ==> Valid(r.0))
  {
    var (s1, w) := VerbatimRun(s, []);
    match w
    case Err(e) => (s1, Err(e))
    case Ok(w) => (Push(s1, Token(Verbatim, w)), Ok(()))
  }

  /**
   * `scan`: at the end of the input nothing happens; otherwise a semantic
   * token, or, when that fails, a verbatim run from wherever the failed
   * attempt stopped.
   */
  function ScanStep(s: Scanner): (r: (Scanner, Result<(), Error>))
    ensures s.rest == [] ==> r == (s, Ok(()))
    ensures r.1.Err? ==> r.0.tokens == s.tokens
    ensures |r.0.rest| <= |s.rest|
    ensures r.0.text == s.text && r.0.rewind == s.rewind && (Valid(s) ==> Valid(r.0))
  {
    match Peek(s)
    case None => (s, Ok(()))
    case Some(_) =>
      match ScanSemantic(s)
      case (s2, Ok(v)) => (s2, Ok(v))
      case (s2, Err(_)) => ScanVerbatim(s2)
  }

  /** At a digit, a scan step is the number scan whenever that succeeds. */
  lemma NumberScanStep(s: Scanner)
    requires s.rest != [] && IsDigit(s.rest[0]) && NumberText(s).1.Ok?
    ensures ScanStep(s) == ScanNumber(s)
  {
    var c := s.rest[0];
    assert !IsIdentStart(c) && IsNumberStart(c);
    var r := ScanSemantic(s);
    assert r == ScanNumber(s);
    assert r.1.Ok?;
  }

  /**
   * `scan` tries the token kind the next char starts; when that attempt
   * fails, it falls back to a verbatim run from wherever the attempt
   * stopped.
   */
  lemma ScanDispatch(s: Scanner)
    requires s.rest != []
    ensures var (s2, e) := ScanSemantic(s);
      ScanStep(s) == if e.Ok? then (s2, e) else ScanVerbatim(s2)
    ensures StartsToken(s.rest[0]) ==>
      (ScanSemantic(s) ==
        if IsIdentStart(s.rest[0]) then ScanIdent(s)
        else if IsDigit(s.rest[0]) then ScanNumber(s)
        else ScanOperator(s))
    ensures !StartsToken(s.rest[0]) ==> ScanStep(s) == ScanVerbatim(s)
  {
  }

  /** Every successful scan of a non-empty input queues one token and consumes at least one char. */
  lemma ScanProgress(s: Scanner)
    ensures s.rest != [] && ScanStep(s).1.Ok? ==> Scanned(s, ScanStep(s).0)
  {
    var (s2, e) := ScanSemantic(s);
    if s.rest != [] && e.Err? {
      if s2.rest != [] && !StartsToken(s2.rest[0]) {
      } else {
        assert StartsToken(s.rest[0]);
      }
    }
  }

  /** The measure of unfinished work: unread chars plus queued tokens. */
  function Work(s: Scanner): nat
  {
    |s.rest| + |s.tokens|
  }

  /**
   * `token`: the first queued token, scanning when the queue is empty; an
   * `End` token with empty text once nothing is left. Scan errors are
   * passed on with the state they leave.
   */
  function NextToken(s: Scanner): (r: (Scanner, Result<Token, Error>))
    ensures |s.tokens| > 0 ==> r == (s.(tokens := s.tokens[1..]), Ok(s.tokens[0]))
    ensures s.tokens == [] && s.rest == [] ==> r == (s, Ok(Token(End, "")))
    ensures Valid(s) ==> Valid(r.0)
    ensures Work(r.0) <= Work(s)
    ensures Valid(s) && r.1.Ok? && r.1.value.ttype != End ==> Work(r.0) < Work(s)
    ensures Valid(s) && r.1.Ok? && r.1.value.ttype == End ==> r.0.rest == [] && r.0.tokens == []
    ensures r.0.rewind == s.rewind
  {
    if |s.tokens| == 0 then
      match ScanStep(s)
      case (s1, Err(e)) => (s1, Err(e))
      case (s1, Ok(_)) =>
        if |s1.tokens| > 0 then
          ScanProgress(s);
          assert s1.tokens[0] in s1.tokens;
          (s1.(tokens := s1.tokens[1..]), Ok(s1.tokens[0]))
        else
          ScanProgress(s);
          (s1, Ok(Token(End, "")))
    else
      assert s.tokens[0] in s.tokens;
      (s.(tokens := s.tokens[1..]), Ok(s.tokens[0]))
  }

  /**
   * The lookahead the parser relies on (`la_type`, which the scanner does
   * not define): the kind of the next token, scanning one if needed but
   * consuming none; `None` when scanning fails.
   */
  function LaType(s: Scanner): (r: (Scanner, Option<TType>))
    ensures Valid(s) ==> Valid(r.0)
    ensures Work(r.0) <= Work(s)
    ensures |s.tokens| > 0 ==> r == (s, Some(s.tokens[0].ttype))
    ensures r.0.rewind == s.rewind
    ensures Valid(s) && r.1.Some? ==> NextToken(r.0).1.Ok? && NextToken(r.0).1.value.ttype == r.1.value
  {
    if |s.tokens| == 0 then
      match ScanStep(s)
      case (s1, Err(_)) => (s1, None)
      case (s1, Ok(_)) =>
        if |s1.tokens| > 0 then
          ScanProgress(s);
          (s1, Some(s1.tokens[0].ttype))
        else
          ScanProgress(s);
          (s1, Some(End))
    else (s, Some(s.tokens[0].ttype))
  }
}

=== FILE: text.dfy ===
/**
 * The cursor model of src/text/mod.rs: a text, its wrap width, the lines
 * `Layout` computed for it, and the remembered cursor `loc`. Cursor
 * indices count code points; the text itself is edited at byte offsets,
 * which `OffsetForIndex` converts to.
 *
 * Every `Text` the source builds has `lines == Layout.Layout(text, width)`
 * (`new`, `new_with_str` and every edit end in `reflow`); `Wf` states it,
 * and the operations require it, as the source's slicing and indexing
 * rely on it.
 */
module TextBuffer {
  import opened Wrappers
  import opened Utf8
  import opened Layout
  import opened Cursor

  /** `Line::width`: the consumed width, in code points. */
  function Width(l: Line): nat
    requires l.coff <= l.cext
  {
    l.cext - l.coff
  }

  /** `Line::right`: the end of the displayed part. */
  function RightEdge(l: Line): nat
  {
    l.coff + l.chars
  }

  /** `Line::contains`. */
  predicate Contains(l: Line, idx: nat)
  {
    l.coff <= idx < l.cext
  }

  /** `Line::text`: the displayed code points, which are the bytes `[boff, boff + bytes)` of the text. */
  function LineText(l: Line, text: seq<char>): (s: seq<char>)
    requires LineCounters(text, l)
    ensures |s| == l.chars
    ensures text[..l.coff] + s == text[..l.coff + l.chars]
    ensures Bytes(text[..l.coff]) == l.boff && Bytes(s) == l.bytes
  {
    OffsetIsBytes(text, l.coff);
    OffsetSlice(text, l.coff, l.coff + l.chars);
    assert text[..l.coff] + text[l.coff..l.coff + l.chars] == text[..l.coff + l.chars];
    text[l.coff..l.coff + l.chars]
  }

  /**
   * `Line::pos`: `None` outside `[coff, cext)`; inside, the column is the
   * distance from the line start, clamped to the wrap width.
   */
  function LinePos(l: Line, width: nat, idx: nat): (r: Option<Pos>)
    ensures r.None? <==> !(l.coff <= idx < l.cext)
    ensures r.Some? ==> && r.value.index == idx && r.value.y == l.num
                        && r.value.x <= width && r.value.x <= idx - l.coff
                        && (r.value.x == idx - l.coff || r.value.x == width)
  {
    if !Contains(l, idx) then None
    else
      var eix := idx - l.coff;
      if eix < width then Some(Pos(idx, eix, l.num)) else Some(Pos(idx, width, l.num))
  }

  datatype Text = Text(text: seq<char>, width: nat, lines: seq<Line>, loc: nat)

  /** What the layout promises about line `k` of a well-formed text. */
  lemma LineFacts(t: Text, k: nat)
    requires Wf(t) && k < |t.lines|
    ensures LineCounters(t.text, t.lines[k]) && t.lines[k].num == k
    ensures forall j | RightEdge(t.lines[k]) <= j < t.lines[k].cext :: IsWhitespace(t.text[j])
  {
    assert Shown(t.text, t.lines[k]);
  }

  /**
   * `Layout.Layout`, run as its pass (`LinesAreLayout` says they agree),
   * with the part of its contract the buffer relies on: the lines tile the
   * text, the last one ends at its byte length, and each line's counters
   * agree with the text and what it does not display is whitespace.
   */
  function Lines(text: seq<char>, width: nat): (lines: seq<Line>)
    ensures Tiles(lines, |text|)
    ensures |lines| > 0 ==> lines[|lines| - 1].bext == Bytes(text)
    ensures forall k | 0 <= k < |lines| :: Shown(text, lines[k])
  {
    var lines := Close(Run(text, width, false, 0, Start));
    assert lines == Layout.Layout(text, width);
    forall k | 0 <= k < |lines|
      ensures Shown(text, lines[k]) && lines[k].coff < lines[k].cext
    {
      assert lines[k] in lines;
    }
    lines
  }

  /** A line whose counters agree with the text and whose undisplayed part is whitespace. */
  ghost predicate Shown(text: seq<char>, l: Line)
  {
    && LineCounters(text, l)
    && forall j | RightEdge(l) <= j < l.cext :: IsWhitespace(text[j])
  }

  /** The buffer's lines are the layout. */
  lemma LinesAreLayout(text: seq<char>, width: nat)
    ensures Lines(text, width) == Layout.Layout(text, width)
  {
  }

  /** The lines are the layout of the text. */
  predicate Wf(t: Text)
  {
    t.lines == Lines(t.text, t.width)
  }

  /** `Text::new_with_str`; `Text::new` is the case of the empty text. */
  function New(width: nat, text: seq<char>): (t: Text)
    ensures Wf(t) && t.text == text && t.width == width && t.loc == 0
    ensures text == [] ==> t.lines == []
  {
    Text(text, width, Lines(text, width), 0)
  }

  /** `set_text`: replace the text and lay it out again, as every edit ends by doing (`reflow`). */
  function SetText(t: Text, text: seq<char>): (r: Text)
    ensures Wf(r) && r.text == text && r.width == t.width && r.loc == t.loc
  {
    t.(text := text, lines := Lines(text, t.width))
  }

  /** `Storage::num_lines`. */
  function NumLines(t: Text): (n: nat)
    ensures Wf(t) ==> (n == 0 <==> |t.text| == 0) && n <= |t.text|
  {
    if Wf(t) then WfTiles(t); NumLinesBound(t.lines, |t.text|); |t.lines| else |t.lines|
  }

  /** Non-empty lines that tile `[0, n)` number at most `n`. */
  lemma {:induction false} NumLinesBound(lines: seq<Line>, n: nat)
    requires Tiles(lines, n)
    ensures |lines| <= n
  {
    if |lines| > 0 {
      TilesStart(lines, n, |lines| - 1);
    }
  }

  /** Line `k` of a tiling starts at or after `k`, since every line is non-empty. */
  lemma {:induction false} TilesStart(lines: seq<Line>, n: nat, k: nat)
    requires Tiles(lines, n) && k < |lines|
    ensures k <= lines[k].coff
  {
    if k > 0 {
      TilesStart(lines, n, k - 1);
    }
  }

  /** `Storage::line_metrics`: line `i`, if there is one. */
  function LineMetrics(t: Text, i: nat): (r: Option<Line>)
    ensures r.Some? <==> i < |t.lines|
    ensures r.Some? ==> r.value == t.lines[i]
    ensures Wf(t) && r.Some? ==> r.value.num == i && r.value.coff < r.value.cext <= |t.text|
  {
    if i < |t.lines| then
      if Wf(t) then LineFacts(t, i); Some(t.lines[i]) else Some(t.lines[i])
    else None
  }

  /** `Storage::line_text`: the displayed code points of line `i`, if there is one. */
  function LineTextAt(t: Text, i: nat): (r: Option<seq<char>>)
    requires Wf(t)
    ensures r.Some? <==> i < |t.lines|
    ensures r.Some? ==> && |r.value| == t.lines[i].chars
                        && t.text[..t.lines[i].coff] + r.value == t.text[..RightEdge(t.lines[i])]
                        && Bytes(r.value) == t.lines[i].bytes
  {
    match LineMetrics(t, i)
    case None => None
    case Some(l) =>
      LineFacts(t, i);
      Some(LineText(l, t.text))
  }

  /** `len`: the last line's extent, which is the number of code points. */
  function Len(t: Text): (n: nat)
    ensures Wf(t) ==> n == |t.text|
  {
    if |t.lines| == 0 then 0 else t.lines[|t.lines| - 1].cext
  }

  /** The linear search of `line_with_index`, from line `i` on. */
  function FindLine(lines: seq<Line>, idx: nat, i: nat): (r: Option<nat>)
    requires i <= |lines|
    ensures r.Some? ==> && i <= r.value < |lines| && Contains(lines[r.value], idx)
                        && forall j | i <= j < r.value :: !Contains(lines[j], idx)
    ensures r.None? ==> forall j | i <= j < |lines| :: !Contains(lines[j], idx)
    decreases |lines| - i
  {
    if i == |lines| then None
    else if idx >= lines[i].coff && idx < lines[i].cext then Some(i)
    else FindLine(lines, idx, i + 1)
  }

  /** Lines that tile `[0, n)` (`Layout.Tiled`), each consuming at least one code point. */
  ghost predicate Tiles(lines: seq<Line>, n: nat)
  {
    Tiled(lines, n) && forall k | 0 <= k < |lines| :: lines[k].coff < lines[k].cext
  }

  lemma WfTiles(t: Text)
    requires Wf(t)
    ensures Tiles(t.lines, |t.text|)
  {
  }

  /** Tiling lines are ordered: an earlier line ends before a later one starts. */
  lemma {:induction false} TiledOrdered(lines: seq<Line>, n: nat, j: nat, k: nat)
    requires Tiles(lines, n) && j < k < |lines|
    ensures lines[j].cext <= lines[k].coff
    decreases k - j
  {
    if j + 1 < k {
      TiledOrdered(lines, n, j, k - 1);
    }
  }

  /** Every index below `lines[m - 1].cext` lies in one of the first `m` lines. */
  lemma {:induction false} Covered(lines: seq<Line>, n: nat, idx: nat, m: nat)
    requires Tiles(lines, n) && 0 < m <= |lines| && idx < lines[m - 1].cext
    ensures exists k | 0 <= k < m :: Contains(lines[k], idx)
    decreases m
  {
    if idx < lines[m - 1].coff {
      Covered(lines, n, idx, m - 1);
    } else {
      assert Contains(lines[m - 1], idx);
    }
  }

  /** On tiling lines the search succeeds exactly inside the range, at the only line containing the index. */
  lemma FindLineTiles(lines: seq<Line>, n: nat, idx: nat)
    requires Tiles(lines, n)
    ensures FindLine(lines, idx, 0).Some? <==> idx < n
    ensures forall k | 0 <= k < |lines| && Contains(lines[k], idx) :: FindLine(lines, idx, 0) == Some(k)
  {
    var r := FindLine(lines, idx, 0);
    if idx < n {
      Covered(lines, n, idx, |lines|);
    } else {
      forall k | 0 <= k < |lines|
        ensures !Contains(lines[k], idx)
      {
        if k + 1 < |lines| {
          TiledOrdered(lines, n, k, |lines| - 1);
        }
      }
      NotFound(lines, idx, 0);
    }
    forall k | 0 <= k < |lines| && Contains(lines[k], idx)
      ensures r == Some(k)
    {
      if r.value < k {
        TiledOrdered(lines, n, r.value, k);
      }
    }
  }

  /** A search finds nothing when no line contains the index. */
  lemma NotFound(lines: seq<Line>, idx: nat, i: nat)
    requires i <= |lines| && forall k | 0 <= k < |lines| :: !Contains(lines[k], idx)
    ensures FindLine(lines, idx, i).None?
  {
  }

  /**
   * `line_with_index` (returning the line's position in `lines`): on a
   * well-formed text it finds a line exactly for the indices below the
   * length, and that line is the only one containing the index.
   */
  function LineWithIndex(t: Text, idx: nat): (r: Option<nat>)
    ensures r.Some? ==> r.value < |t.lines| && Contains(t.lines[r.value], idx)
    ensures Wf(t) ==> (r.Some? <==> idx < |t.text|)
    ensures Wf(t) ==> forall k | 0 <= k < |t.lines| && Contains(t.lines[k], idx) :: r == Some(k)
  {
    if |t.lines| == 0 then None
    else
      var r := FindLine(t.lines, idx, 0);
      if Wf(t) then LineWithIndexFacts(t, idx, r); r else r
  }

  lemma LineWithIndexFacts(t: Text, idx: nat, r: Option<nat>)
    requires Wf(t) && |t.lines| > 0 && r == FindLine(t.lines, idx, 0)
    ensures r.Some? <==> idx < |t.text|
    ensures forall k | 0 <= k < |t.lines| && Contains(t.lines[k], idx) :: r == Some(k)
  {
    WfTiles(t);
    FindLineTiles(t.lines, |t.text|, idx);
  }

  /**
   * The inner loop of `offset_for_index`: walk the displayed code points,
   * adding their UTF-8 widths, until `rem` of them are passed; `None` when
   * the displayed part runs out first.
   */
  function Walk(s: seq<char>, rem: nat): (r: Option<nat>)
    requires rem >= 1
    ensures r.Some? <==> rem <= |s|
    ensures r.Some? ==> r.value == Offset(s, rem)
  {
    if |s| == 0 then None
    else if rem == 1 then Some(Utf8Len(s[0]))
    else
      match Walk(s[1..], rem - 1)
      case None => None
      case Some(e) =>
        OffsetFront(s, rem);
        Some(Utf8Len(s[0]) + e)
  }

  lemma {:induction false} OffsetFront(s: seq<char>, k: nat)
    requires 1 <= k <= |s|
    ensures Offset(s, k) == Utf8Len(s[0]) + Offset(s[1..], k - 1)
  {
    OffsetShift(s, 1, |s|, k - 1);
    assert s[1..|s|] == s[1..];
  }

  /**
   * `offset_for_index`: the byte offset of cursor index `idx`. `None`
   * exactly past the text; otherwise the offset of `idx`, except that an
   * index in the part of a line consumed but not displayed clamps to the
   * end of the displayed part.
   */
  function OffsetForIndex(t: Text, idx: nat): (r: Option<nat>)
    requires Wf(t)
    ensures r.None? <==> idx >= |t.text|
    ensures r.None? <==> LineWithIndex(t, idx).None?
    ensures r.Some? ==>
      var l := t.lines[LineWithIndex(t, idx).value];
      && r.value == Offset(t.text, Min(idx, l.coff + l.chars))
      && (idx >= l.coff + l.chars ==> r.value == l.boff + l.bytes)
  {
    var w := LineWithIndex(t, idx);
    if w.None? then None
    else
      LineFacts(t, w.value);
      Some(LineOffset(t.text, t.lines[w.value], idx))
  }

  /** The byte offset of `idx` within line `l`, clamped to its displayed part. */
  function LineOffset(text: seq<char>, l: Line, idx: nat): (o: nat)
    requires LineCounters(text, l) && l.coff <= idx
    ensures o == Offset(text, Min(idx, l.coff + l.chars))
    ensures idx >= l.coff + l.chars ==> o == l.boff + l.bytes
  {
    var rem := idx - l.coff;
    if rem == 0 then l.boff
    else
      var w := Walk(LineText(l, text), rem);
      if w.None? then l.boff + l.bytes
      else
        OffsetShift(text, l.coff, l.coff + l.chars, rem);
        l.boff + w.value
  }

  /** Inside the displayed part, `offset_for_index` is the UTF-8 length of the first `idx` code points. */
  lemma OffsetForIndexShown(t: Text, idx: nat)
    requires Wf(t) && idx < |t.text|
    requires idx <= RightEdge(t.lines[LineWithIndex(t, idx).value])
    ensures OffsetForIndex(t, idx) == Some(Bytes(t.text[..idx]))
  {
    OffsetIsBytes(t.text, idx);
  }

  /** `next_offset`: where text is appended, the byte length of the text. */
  function NextOffset(t: Text): (n: nat)
    ensures Wf(t) ==> n == Bytes(t.text)
  {
    if |t.lines| > 0 then t.lines[|t.lines| - 1].bext else 0
  }

  /** What `index` answers after the loop finds no line: the column after the last line, or the next row. */
  function PastEnd(l: Line, n: nat, width: nat, idx: nat): Pos
    requires l.coff <= l.cext
  {
    if l.hard || Width(l) + 1 > width then Pos(idx, 0, n) else Pos(idx, Width(l), l.num)
  }

  /** The loop of `index` from line `i` on; `x`, `y` and `hard` describe the line before `i`. */
  function IndexScan(lines: seq<Line>, width: nat, idx: nat, i: nat, x: nat, y: nat, hard: bool): (p: Pos)
    requires i <= |lines| && forall l <- lines :: l.coff <= l.cext
    ensures FindLine(lines, idx, i).Some? ==>
              p == LinePos(lines[FindLine(lines, idx, i).value], width, idx).value
    ensures FindLine(lines, idx, i).None? && i < |lines| ==>
              p == PastEnd(lines[|lines| - 1], |lines|, width, idx)
    decreases |lines| - i
  {
    if i == |lines| then
      if hard || x + 1 > width then Pos(idx, 0, |lines|) else Pos(idx, x, y)
    else
      var l := lines[i];
      assert l in lines;
      match LinePos(l, width, idx)
      case Some(p) => p
      case None => IndexScan(lines, width, idx, i + 1, Width(l), l.num, l.hard)
  }

  /**
   * `index`: the position of cursor index `idx`, clamped to the length.
   * Inside the text it is on the row of the line containing the index, at
   * the distance from the line start clamped to the width. At the end of
   * the text it is after the last line, or at the start of the next row
   * when the last line is hard or full.
   */
  function Index(t: Text, idx: nat): (p: Pos)
    requires Wf(t)
    ensures p.index == Min(idx, |t.text|)
    ensures |t.text| == 0 || idx == 0 ==> p == Zero
    ensures p.y <= |t.lines|
    ensures 0 < idx < |t.text| ==>
      && p.y < |t.lines| && Contains(t.lines[p.y], idx)
      && p.x <= t.width && p.x <= idx - t.lines[p.y].coff
      && (p.x == idx - t.lines[p.y].coff || p.x == t.width)
    ensures 0 < |t.text| <= idx ==>
      var l := t.lines[|t.lines| - 1];
      if l.hard || l.cext - l.coff + 1 > t.width then p == Pos(|t.text|, 0, |t.lines|)
      else p == Pos(|t.text|, l.cext - l.coff, |t.lines| - 1)
  {
    if Len(t) == 0 then Zero
    else if idx == 0 then Zero
    else
      var i := Min(Len(t), idx);
      IndexScanFacts(t, i);
      IndexScan(t.lines, t.width, i, 0, 0, 0, false)
  }

  lemma IndexScanFacts(t: Text, i: nat)
    requires Wf(t) && 0 < i <= |t.text|
    ensures FindLine(t.lines, i, 0).Some? <==> i < |t.text|
    ensures i < |t.text| ==> FindLine(t.lines, i, 0) == LineWithIndex(t, i)
    ensures t.lines[|t.lines| - 1].coff <= t.lines[|t.lines| - 1].cext
  {
    WfTiles(t);
    FindLineTiles(t.lines, |t.text|, i);
  }

  /** `left`: one code point back, clamped to the text. */
  function Left(t: Text, idx: nat): (p: Pos)
    requires Wf(t)
    ensures p.index == if idx == 0 then 0 else Min(idx - 1, |t.text|)
    ensures idx <= 1 ==> p == Zero
  {
    if idx > 0 then Index(t, idx - 1) else Zero
  }

  /** `right`: one code point forward, clamped to the text. */
  function Right(t: Text, idx: nat): (p: Pos)
    requires Wf(t)
    ensures p.index == Min(idx + 1, |t.text|)
  {
    Index(t, idx + 1)
  }

  /**
   * `up`: from row 0, `ZERO_POS`; otherwise the row above, at the same
   * column if that row displays that many code points, else at its end.
   */
  function Up(t: Text, idx: nat): (p: Pos)
    requires Wf(t)
    ensures var q := Index(t, idx);
      && (q.y == 0 ==> p == Zero)
      && (q.y > 0 ==>
            var l := t.lines[q.y - 1];
            && p.y == q.y - 1
            && p.x <= q.x && p.x <= l.chars && (p.x == q.x || p.x == l.chars)
            && p.index == l.coff + p.x)
  {
    var pos := Index(t, idx);
    if pos.y == 0 then Zero
    else
      var n := pos.y - 1;
      var l := t.lines[n];
      var w := l.chars;
      if w > pos.x then Pos(l.coff + pos.x, pos.x, n) else Pos(RightEdge(l), w, n)
  }

  /**
   * `down`: with no lines, `ZERO_POS`. From the last row (or past it), the
   * end of the last line, or the start of the row after it when that line
   * is hard. Otherwise the row below, at the same column if that row
   * displays that many code points, else at its end.
   */
  function Down(t: Text, idx: nat): (p: Pos)
    requires Wf(t)
    ensures |t.lines| == 0 ==> p == Zero
    ensures |t.lines| > 0 ==>
      var q := Index(t, idx);
      var y := Min(|t.lines| - 1, q.y);
      if y + 1 >= |t.lines| then
        var l := t.lines[y];
        && p.index == |t.text|
        && (l.hard ==> p == Pos(|t.text|, 0, y + 1))
        && (!l.hard ==> p == Pos(|t.text|, l.chars, y))
      else
        var l := t.lines[y + 1];
        && p.y == y + 1
        && p.x <= q.x && p.x <= l.chars && (p.x == q.x || p.x == l.chars)
        && p.index == l.coff + p.x
  {
    var nl := |t.lines|;
    if nl == 0 then Zero
    else
      var pos := Index(t, idx);
      var y := if nl > 0 then Min(nl - 1, pos.y) else 0;
      var n := y + 1;
      if n >= nl then
        var l := t.lines[y];
        if l.hard then Pos(l.cext, 0, y + 1) else Pos(l.cext, l.chars, y)
      else
        var l := t.lines[n];
        var w := l.chars;
        if w > pos.x then Pos(l.coff + pos.x, pos.x, n) else Pos(l.coff + l.chars, w, n)
  }

  /**
   * `home`: column 0 of the cursor's row, at the row's start, which is never
   * after the cursor; past the last row, the end of the text on a new row.
   */
  function Home(t: Text, idx: nat): (p: Pos)
    requires Wf(t)
    ensures p.x == 0
    ensures |t.lines| == 0 ==> p == Zero
    ensures |t.lines| > 0 && Index(t, idx).y >= |t.lines| ==> p == Pos(|t.text|, 0, |t.lines|)
    ensures |t.lines| > 0 && Index(t, idx).y < |t.lines| ==>
      p == Pos(t.lines[Index(t, idx).y].coff, 0, Index(t, idx).y) && p.index <= Index(t, idx).index
  {
    var nl := |t.lines|;
    if nl == 0 then Zero
    else
      var pos := Index(t, idx);
      if pos.y >= nl then Pos(t.lines[nl - 1].cext, 0, nl)
      else
        HomeBefore(t, idx);
        Pos(t.lines[pos.y].coff, 0, pos.y)
  }

  lemma HomeBefore(t: Text, idx: nat)
    requires Wf(t) && Index(t, idx).y < |t.lines|
    ensures t.lines[Index(t, idx).y].coff <= Index(t, idx).index
  {
    var p := Index(t, idx);
    if 0 < idx && |t.text| <= idx {
      assert t.lines[|t.lines| - 1] in t.lines;
    } else if |t.text| == 0 || idx == 0 {
      assert t.lines[0].coff == 0;
    }
  }

  /**
   * `end`: the end of the displayed part of the cursor's row, at the
   * column of its last displayed code point plus one; past the last row,
   * the end of the text on a new row.
   */
  function End(t: Text, idx: nat): (p: Pos)
    requires Wf(t)
    ensures |t.lines| == 0 ==> p == Zero
    ensures |t.lines| > 0 && Index(t, idx).y >= |t.lines| ==> p == Pos(|t.text|, 0, |t.lines|)
    ensures |t.lines| > 0 && Index(t, idx).y < |t.lines| ==>
      var l := t.lines[Index(t, idx).y];
      p.y == Index(t, idx).y && p.x == l.chars && p.index == l.coff + l.chars && p.index <= |t.text|
  {
    var nl := |t.lines|;
    if nl == 0 then Zero
    else
      var pos := Index(t, idx);
      if pos.y >= nl then Pos(t.lines[nl - 1].cext, 0, nl)
      else
        var l := t.lines[pos.y];
        assert l in t.lines;
        Pos(RightEdge(l), l.chars, pos.y)
  }

  /** The byte offset `insert` writes at, as a code point position. */
  ghost function InsertAt(t: Text, idx: nat): (k: nat)
    requires Wf(t)
    ensures k <= |t.text|
  {
    if idx < |t.text| then
      var l := t.lines[LineWithIndex(t, idx).value];
      assert l in t.lines;
      Min(idx, l.coff + l.chars)
    else |t.text|
  }

  /**
   * `insert`: splice exactly one `c` where `offset_for_index` points (at
   * the end when `idx` is past the text), lay out again, and answer the
   * position one code point after `idx`.
   */
  function Insert(t: Text, idx: nat, c: char): (r: (Text, Pos))
    requires Wf(t)
    ensures Wf(r.0) && r.0.width == t.width && r.0.loc == t.loc
    ensures r.0.text == t.text[..InsertAt(t, idx)] + [c] + t.text[InsertAt(t, idx)..]
    ensures r.1 == Index(r.0, idx + 1)
  {
    var offset := match OffsetForIndex(t, idx) case Some(o) => o case None => NextOffset(t);
    var k := CharCount(t.text, offset);
    assert k == InsertAt(t, idx) by {
      if idx < |t.text| {
        CharCountOfOffset(t.text, InsertAt(t, idx));
      } else {
        OffsetIsBytes(t.text, |t.text|);
        assert t.text[..|t.text|] == t.text;
        CharCountOfOffset(t.text, |t.text|);
      }
    }
    var t2 := SetText(t, t.text[..k] + [c] + t.text[k..]);
    (t2, Index(t2, idx + 1))
  }

  /** `insert` lengthens the text by one and moves the cursor one past `idx`, or to the end. */
  lemma InsertCursor(t: Text, idx: nat, c: char)
    requires Wf(t)
    ensures |Insert(t, idx, c).0.text| == |t.text| + 1
    ensures Insert(t, idx, c).1.index == Min(idx + 1, |t.text| + 1)
  {
    var k := InsertAt(t, idx);
    assert |t.text[..k] + [c] + t.text[k..]| == |t.text| + 1;
  }

  /** The code point `backspace` removes, for an index inside the text. */
  ghost function RemoveAt(t: Text, idx: nat): (k: nat)
    requires Wf(t) && idx < |t.text|
    ensures k <= idx && k < |t.text|
  {
    var l := t.lines[LineWithIndex(t, idx).value];
    Min(idx, l.coff + l.chars)
  }

  /** `s` without its code point at `k`. */
  function Drop(s: seq<char>, k: nat): (r: seq<char>)
    requires k < |s|
    ensures |r| == |s| - 1
    ensures r[..k] == s[..k] && r[k..] == s[k + 1..]
  {
    s[..k] + s[k + 1..]
  }

  /** The text without the code point `RemoveAt` names. */
  ghost function Removed(t: Text, eix: nat): (text: seq<char>)
    requires Wf(t) && eix < |t.text|
  {
    Drop(t.text, RemoveAt(t, eix))
  }

  /**
   * `backspace` (which the source calls only with `idx >= 1`; at 0 the
   * subtraction would underflow): remove the code point before `idx` where
   * `offset_for_index` points, lay out again and answer the position of
   * `idx - 1`; past the text, do nothing and answer `ZERO_POS`.
   */
  function Backspace(t: Text, idx: nat): (r: (Text, Pos))
    requires Wf(t) && idx >= 1
    ensures Wf(r.0) && r.0.width == t.width && r.0.loc == t.loc
    ensures idx - 1 >= |t.text| ==> r == (t, Zero)
    ensures idx - 1 < |t.text| ==> r.1 == Index(r.0, idx - 1)
  {
    var eix := idx - 1;
    BackspaceInside(t, eix);
    var o := OffsetForIndex(t, eix);
    if o.None? then (t, Zero)
    else DropAt(t, CharCount(t.text, o.value), eix)
  }

  /** The code point `backspace` removes lies inside the text. */
  lemma BackspaceInside(t: Text, eix: nat)
    requires Wf(t)
    ensures OffsetForIndex(t, eix).Some? ==> CharCount(t.text, OffsetForIndex(t, eix).value) < |t.text|
  {
    BackspaceAt(t, eix);
  }

  /** Lay out the text without its code point at `k` and place the cursor at `eix`. */
  function DropAt(t: Text, k: nat, eix: nat): (r: (Text, Pos))
    requires k < |t.text|
    ensures Wf(r.0) && r.0.width == t.width && r.0.loc == t.loc
    ensures r.0.text == Drop(t.text, k) && r.1 == Index(r.0, eix)
  {
    var u := SetText(t, Drop(t.text, k));
    (u, Index(u, eix))
  }

  /** Inside the text, `backspace` removes exactly the code point `RemoveAt` names. */
  lemma BackspaceRemoves(t: Text, idx: nat)
    requires Wf(t) && 1 <= idx <= |t.text|
    ensures Backspace(t, idx).0.text == Removed(t, idx - 1)
  {
    var eix := idx - 1;
    BackspaceAt(t, eix);
    var k := CharCount(t.text, OffsetForIndex(t, eix).value);
    assert Backspace(t, idx) == DropAt(t, k, eix);
  }

  /** Inside the text, `backspace` moves the cursor back by exactly one code point. */
  lemma BackspaceCursor(t: Text, idx: nat)
    requires Wf(t) && 1 <= idx
    ensures idx <= |t.text| ==> |Backspace(t, idx).0.text| == |t.text| - 1
    ensures idx <= |t.text| ==> Backspace(t, idx).1.index == idx - 1
  {
    if idx <= |t.text| {
      BackspaceRemoves(t, idx);
    }
  }

  /** Where `backspace` finds an offset, it is the offset of the code point `RemoveAt` names. */
  lemma BackspaceAt(t: Text, eix: nat)
    requires Wf(t)
    ensures OffsetForIndex(t, eix).None? <==> eix >= |t.text|
    ensures OffsetForIndex(t, eix).Some? ==> CharCount(t.text, OffsetForIndex(t, eix).value) == RemoveAt(t, eix)
  {
    if eix < |t.text| {
      CharCountOfOffset(t.text, RemoveAt(t, eix));
    }
  }

  /**
   * Inserting a non-whitespace code point and then deleting backwards from
   * just after where it landed restores the text: a code point that is not
   * whitespace is always displayed, so `backspace` finds it.
   */
  lemma InsertBackspace(t: Text, idx: nat, c: char)
    requires Wf(t) && !IsWhitespace(c)
    ensures Backspace(Insert(t, idx, c).0, InsertAt(t, idx) + 1).0.text == t.text
  {
    var k := InsertAt(t, idx);
    var t2 := Insert(t, idx, c).0;
    assert t2.text == t.text[..k] + [c] + t.text[k..];
    assert t2.text[k] == c;
    NonWhitespaceShown(t2, k);
    BackspaceRemoves(t2, k + 1);
    assert Removed(t2, k) == Drop(t2.text, k);
    SpliceRemove(t.text, k, c);
  }

  /** `insert` writes at `idx` itself whenever `idx` is displayed, and at the end past the text. */
  lemma InsertLands(t: Text, idx: nat)
    requires Wf(t)
    ensures idx >= |t.text| ==> InsertAt(t, idx) == |t.text|
    ensures idx < |t.text| && idx <= RightEdge(t.lines[LineWithIndex(t, idx).value]) ==> InsertAt(t, idx) == idx
  {
  }

  /** Removing the code point just spliced in gives the sequence back. */
  lemma SpliceRemove(s: seq<char>, k: nat, c: char)
    requires k <= |s|
    ensures Drop(s[..k] + [c] + s[k..], k) == s
  {
    var u := s[..k] + [c] + s[k..];
    assert u[..k] == s[..k];
    assert u[k + 1..] == s[k..];
  }

  /** A code point that is not whitespace is displayed, so `backspace` removes it and no other. */
  lemma NonWhitespaceShown(t: Text, j: nat)
    requires Wf(t) && j < |t.text| && !IsWhitespace(t.text[j])
    ensures RemoveAt(t, j) == j
  {
    var k := LineWithIndex(t, j).value;
    LineFacts(t, k);
  }

  /** Move the remembered cursor to where an operation answered. */
  function Moved(t: Text, p: Pos): (r: (Text, Pos))
    ensures r.0 == t.(loc := p.index) && r.1 == p
  {
    (t.(loc := p.index), p)
  }

  /** `up_rel`: `up` from `loc`, remembering the answer. */
  function UpRel(t: Text): (r: (Text, Pos))
    requires Wf(t)
    ensures r.1 == Up(t, t.loc) && r.0 == t.(loc := r.1.index)
  {
    Moved(t, Up(t, t.loc))
  }

  /** `down_rel`. */
  function DownRel(t: Text): (r: (Text, Pos))
    requires Wf(t)
    ensures r.1 == Down(t, t.loc) && r.0 == t.(loc := r.1.index)
  {
    Moved(t, Down(t, t.loc))
  }

  /** `left_rel`: one code point back from `loc`, never below 0. */
  function LeftRel(t: Text): (r: (Text, Pos))
    requires Wf(t)
    ensures r.0 == t.(loc := r.1.index) && r.1 == Left(t, t.loc)
    ensures 0 < t.loc <= |t.text| ==> r.0.loc == t.loc - 1
  {
    Moved(t, Left(t, t.loc))
  }

  /** `right_rel`: one code point forward from `loc`, never past the text. */
  function RightRel(t: Text): (r: (Text, Pos))
    requires Wf(t)
    ensures r.0 == t.(loc := r.1.index) && r.1 == Right(t, t.loc)
    ensures t.loc < |t.text| ==> r.0.loc == t.loc + 1
  {
    Moved(t, Right(t, t.loc))
  }

  /** `home_rel`. */
  function HomeRel(t: Text): (r: (Text, Pos))
    requires Wf(t)
    ensures r.1 == Home(t, t.loc) && r.0 == t.(loc := r.1.index)
  {
    Moved(t, Home(t, t.loc))
  }

  /** `end_rel`. */
  function EndRel(t: Text): (r: (Text, Pos))
    requires Wf(t)
    ensures r.1 == End(t, t.loc) && r.0 == t.(loc := r.1.index)
  {
    Moved(t, End(t, t.loc))
  }

  /** `insert_rel`: insert at `loc`; a cursor inside the text moves past the new code point. */
  function InsertRel(t: Text, c: char): (r: (Text, Pos))
    requires Wf(t)
    ensures Wf(r.0) && r.0.text == Insert(t, t.loc, c).0.text && r.0.loc == r.1.index
    ensures t.loc <= |t.text| ==> r.0.loc == t.loc + 1
  {
    InsertCursor(t, t.loc, c);
    var (t2, p) := Insert(t, t.loc, c);
    Moved(t2, p)
  }

  /**
   * `backspace_rel`: at `loc` 0 nothing changes. Inside the text the code
   * point before the cursor goes and the cursor moves back one. Past the end
   * of the text, which `SetText` can leave `loc` at, `backspace` finds no
   * offset and answers `ZERO_POS`, so the text stays and `loc` becomes 0.
   */
  function BackspaceRel(t: Text): (r: (Text, Pos))
    requires Wf(t)
    ensures Wf(r.0)
    ensures t.loc == 0 ==> r == (t, Zero)
    ensures t.loc > |t.text| ==> r == (t.(loc := 0), Zero)
    ensures 0 < t.loc <= |t.text| ==>
      && r.0.loc == t.loc - 1 && |r.0.text| == |t.text| - 1
      && r.0.text == Backspace(t, t.loc).0.text
  {
    if t.loc == 0 then (t, Zero)
    else
      BackspaceCursor(t, t.loc);
      var (t2, p) := Backspace(t, t.loc);
      Moved(t2, p)
  }
}

=== FILE: tokenize.dfy ===
/**
 * The token stream the parser consumes: `token` called until it answers
 * `End` or fails (src/rdl/scan.rs), with the property that for text free of
 * backslashes and of a `.` straight after a digit that no digit follows,
 * the stream loses nothing: the token texts spell out the input again. A
 * rewinding scanner loses nothing on any text free of backslashes.
 */
module Tokenize {
  import opened Wrappers
  import opened RdlError
  import opened Scan

  /** The tokens of a scanner, in order, up to the `End` token; the first error ends the stream. */
  function Tokens(s: Scanner): (r: Result<seq<Token>, Error>)
    requires Valid(s)
    ensures r.Ok? ==> forall t <- r.value :: t.ttype != End
    decreases Work(s)
  {
    match NextToken(s)
    case (s1, Err(e)) => Err(e)
    case (s1, Ok(t)) =>
      if t.ttype == End then Ok([])
      else
        match Tokens(s1)
        case Err(e) => Err(e)
        case Ok(ts) => Ok([t] + ts)
  }

  /** The token texts, concatenated. */
  function Texts(ts: seq<Token>): string
  {
    if ts == [] then [] else ts[0].ttext + Texts(ts[1..])
  }

  /**
   * Text that scans without loss: no backslash, and, unless the scanner
   * rewinds, every `.` that follows a digit is followed by a digit.
   */
  predicate Clean(rewind: bool, w: string)
  {
    NoBackslash(w) && (rewind || forall i | 0 < i < |w| :: DotFollowed(w, i))
  }

  /** Text without a backslash. */
  predicate NoBackslash(w: string)
  {
    forall i | 0 <= i < |w| :: w[i] != Escape
  }

  /** A `.` at `i` straight after a digit has a digit after it. */
  predicate DotFollowed(w: string, i: nat)
    requires 0 < i < |w|
  {
    w[i] == '.' && IsDigit(w[i - 1]) ==> i + 1 < |w| && IsDigit(w[i + 1])
  }

  /** Every suffix of clean text is clean. */
  lemma CleanSuffix(rewind: bool, w: string, k: nat)
    requires Clean(rewind, w) && k <= |w|
    ensures Clean(rewind, w[k..])
  {
    var v := w[k..];
    assert NoBackslash(v) by {
      forall i | 0 <= i < |v| ensures v[i] != Escape { assert v[i] == w[k + i]; }
    }
    if !rewind {
      forall i | 0 < i < |v| ensures DotFollowed(v, i) {
        assert DotFollowed(w, k + i);
      }
    }
  }

  /** The length of the run of chars at the front of `w` that start no token. */
  function RunLength(w: string): (n: nat)
    ensures n <= |w|
  {
    if |w| > 0 && !StartsToken(w[0]) then 1 + RunLength(w[1..]) else 0
  }

  /** On clean text a number scan succeeds whenever a digit comes next. */
  lemma NumberClean(s: Scanner)
    requires Clean(s.rewind, s.rest) && s.rest != [] && IsDigit(s.rest[0])
    ensures NumberText(s).1.Ok?
  {
    if s.rewind { return; }
    var (s1, i) := Integer(s);
    var n := |i.value|;
    assert s.rest == i.value + s1.rest;
    if Peek(s1) == Some('.') {
      assert s1.rest[0] == s.rest[n] == '.' && IsDigit(s.rest[n - 1]) by {
        assert s.rest[n - 1] == i.value[n - 1];
      }
      assert DotFollowed(s.rest, n);
      var s2 := Skip(s1);
      assert s2.rest != [] && s2.rest[0] == s.rest[n + 1];
      assert Integer(s2).1.Ok?;
    }
  }

  /** The run of non-token-start chars at the front of text without backslashes is plain, and a token start ends it. */
  lemma {:induction false} RunPlain(w: string)
    requires NoBackslash(w)
    ensures Plain(w[..RunLength(w)])
    ensures RunLength(w) < |w| ==> StartsToken(w[RunLength(w)])
    decreases |w|
  {
    var n := RunLength(w);
    if n > 0 {
      var v := w[1..];
      assert NoBackslash(v) by {
        forall i | 0 <= i < |v| ensures v[i] != Escape { assert v[i] == w[i + 1]; }
      }
      RunPlain(v);
      assert w[..n] == [w[0]] + v[..n - 1];
      PlainCons(w[0], v[..n - 1]);
      assert n < |w| ==> w[n] == v[n - 1];
    }
  }

  /** A plain char in front of plain text. */
  lemma PlainCons(c: char, v: string)
    requires c != Escape && !StartsToken(c) && Plain(v)
    ensures Plain([c] + v)
  {
    forall i | 0 <= i < |[c] + v| ensures ([c] + v)[i] != Escape && !StartsToken(([c] + v)[i]) {
      if i > 0 { assert ([c] + v)[i] == v[i - 1]; }
    }
  }

  /** What one scan step leaves when it loses nothing: one non-empty token holding the chars it consumed. */
  predicate OneToken(s: Scanner, r: (Scanner, Result<(), Error>))
  {
    && r.1.Ok? && |r.0.tokens| == 1 && r.0.tokens[0].ttext != []
    && s.rest == r.0.tokens[0].ttext + r.0.rest && r.0.rewind == s.rewind
  }

  /** Without backslashes, a scan step at a char that starts no token copies the run up to the next start. */
  lemma VerbatimClean(s: Scanner)
    requires NoBackslash(s.rest) && s.rest != [] && !StartsToken(s.rest[0]) && s.tokens == []
    ensures OneToken(s, ScanStep(s))
  {
    var n := RunLength(s.rest);
    RunPlain(s.rest);
    var w := s.rest[..n];
    assert s.rest == w + s.rest[n..];
    VerbatimPlain(s, [], w, s.rest[n..]);
    assert [] + w == w;
    ScanDispatch(s);
  }

  /** A scan step at a digit, when the number scan succeeds, queues the whole number. */
  lemma NumberStep(s: Scanner)
    requires s.rest != [] && IsDigit(s.rest[0]) && s.tokens == [] && NumberText(s).1.Ok?
    ensures OneToken(s, ScanStep(s))
  {
    ScanDispatch(s);
  }

  /** A scan step at an identifier start queues the whole identifier. */
  lemma IdentStep(s: Scanner)
    requires s.rest != [] && IsIdentStart(s.rest[0]) && s.tokens == []
    ensures OneToken(s, ScanStep(s))
  {
    ScanDispatch(s);
  }

  /** A scan step at an operator char queues the whole operator run. */
  lemma OperatorStep(s: Scanner)
    requires s.rest != [] && IsOperator(s.rest[0]) && s.tokens == []
    ensures OneToken(s, ScanStep(s))
  {
    ScanDispatch(s);
    assert Span(IsOperator, s.rest) > 0;
  }

  /**
   * One scan step on clean, non-empty input with an empty queue: it
   * succeeds and queues one non-empty token whose text is exactly the
   * chars it consumed.
   */
  lemma ScanClean(s: Scanner)
    requires Clean(s.rewind, s.rest) && s.rest != [] && s.tokens == []
    ensures OneToken(s, ScanStep(s))
  {
    var c := s.rest[0];
    if IsIdentStart(c) {
      IdentStep(s);
    } else if IsDigit(c) {
      NumberClean(s);
      NumberStep(s);
    } else if IsOperator(c) {
      OperatorStep(s);
    } else {
      assert NoBackslash(s.rest);
      VerbatimClean(s);
    }
  }

  /** The token texts of `[t] + ts` are `t`'s text, then those of `ts`. */
  lemma TextsCons(t: Token, ts: seq<Token>)
    ensures Texts([t] + ts) == t.ttext + Texts(ts)
  {
    assert ([t] + ts)[1..] == ts;
  }

  /**
   * From a scanner with an empty queue over clean text, the token stream
   * succeeds, has no empty token, and its texts spell out the unread text.
   */
  lemma {:induction false} TokensClean(s: Scanner)
    requires Valid(s) && Clean(s.rewind, s.rest) && s.tokens == []
    ensures Tokens(s).Ok?
    ensures Texts(Tokens(s).value) == s.rest
    ensures forall t <- Tokens(s).value :: t.ttext != []
    decreases |s.rest|
  {
    if s.rest == [] {
      assert NextToken(s) == (s, Ok(Token(End, "")));
    } else {
      ScanClean(s);
      var (s1, _) := ScanStep(s);
      var t := s1.tokens[0];
      var s2 := s1.(tokens := s1.tokens[1..]);
      assert NextToken(s) == (s2, Ok(t));
      assert t.ttype != End && s2.tokens == [];
      assert s2.rest == s.rest[|t.ttext|..];
      CleanSuffix(s.rewind, s.rest, |t.ttext|);
      TokensClean(s2);
      TextsCons(t, Tokens(s2).value);
    }
  }

  /** Scanning clean text from the start loses nothing: the token texts are the text. */
  lemma Lossless(text: string)
    requires Clean(false, text)
    ensures Tokens(New(text)).Ok?
    ensures Texts(Tokens(New(text)).value) == text
  {
    TokensClean(New(text));
  }

  /** A rewinding scanner loses nothing on any text without backslashes. */
  lemma RewindingLossless(text: string)
    requires NoBackslash(text)
    ensures Tokens(Rewinding(text)).Ok?
    ensures Texts(Tokens(Rewinding(text)).value) == text
    ensures forall t <- Tokens(Rewinding(text)).value :: t.ttext != []
  {
    TokensClean(Rewinding(text));
  }

  /**
   * A digit, a `.` and a char that is neither a digit nor a backslash:
   * what the number scan as written loses, a rewinding scanner keeps.
   */
  lemma DanglingDotKept(d: char, c: char)
    requires IsDigit(d) && !IsDigit(c) && c != Escape
    ensures Tokens(Rewinding([d, '.', c])).Ok?
    ensures Texts(Tokens(Rewinding([d, '.', c])).value) == [d, '.', c]
  {
    var w := [d, '.', c];
    assert NoBackslash(w) by {
      forall i | 0 <= i < |w| ensures w[i] != Escape { assert w[i] in {d, '.', c}; }
    }
    RewindingLossless(w);
  }

  /**
   * A number whose `.` has no digit after it: the scan fails after taking
   * `1.`, the fallback verbatim run starts at `a` and is empty, and the
   * chars `1.` appear in no token.
   */
  lemma DanglingDot()
    ensures ScanStep(New("1.a")) == (Scanner("1.a", "a", [Token(Verbatim, "")], 2, false), Ok(()))
  {
    var s := New("1.a");
    assert Integer(s).1 == Ok("1") && Integer(s).0.rest == ".a";
    assert Integer(Skip(Integer(s).0)).1 == Err(AssertionFailed);
    var s2 := NumberText(s).0;
    assert s2.rest == "a" && s2.index == 2;
    assert VerbatimRun(s2, []) == (s2, Ok([]));
  }

  /** A scan step on digits, a `.` and digits queues them as one `Number` token and consumes them all. */
  lemma FractionStep(s: Scanner, i: string, f: string)
    requires IsDigits(i) && IsDigits(f) && s.rest == i + ['.'] + f + []
    ensures ScanStep(s).0.tokens == s.tokens + [Token(Number, i + ['.'] + f)]
    ensures ScanStep(s).0.rest == []
  {
    FractionToken(s, i, f, []);
    assert s.rest[0] == i[0];
    NumberScanStep(s);
  }
}

=== FILE: units.dfy ===
/**
 * Quantities with units (src/rdl/unit.rs). The source stores an `f64` in
 * each of twelve variants; here a quantity is an exact `real` next to its
 * `Kind`, so the conversion factors hold exactly.
 */
module Units {
  import opened Wrappers

  /** The variants of `Unit`; `NoUnit` is the source's indivisible `Unit::None`. */
  datatype Kind =
    | NoUnit
    | Teaspoon | Tablespoon | Cup | Quart | Gallon
    | Liter | Deciliter | Centiliter | Milliliter
    | Gram | Kilogram

  datatype Unit = Unit(kind: Kind, q: real)

  /** The name `Unit::from` accepts for each kind. */
  function Name(k: Kind): string
  {
    match k
    case NoUnit => "none"
    case Teaspoon => "tsp"
    case Tablespoon => "tbsp"
    case Cup => "cup"
    case Quart => "quart"
    case Gallon => "gallon"
    case Liter => "l"
    case Deciliter => "dl"
    case Centiliter => "cl"
    case Milliliter => "ml"
    case Gram => "g"
    case Kilogram => "kg"
  }

  /**
   * `Unit::from`: an absent name gives a plain quantity; a name gives the
   * kind it names, and any other name gives `None`.
   */
  function From(q: real, n: Option<string>): (r: Option<Unit>)
    ensures n.None? ==> r == Some(Unit(NoUnit, q))
    ensures n.Some? && r.Some? ==> r.value.q == q && Name(r.value.kind) == n.value
  {
    match n
    case None => Some(Unit(NoUnit, q))
    case Some(s) =>
      if s == "none" then Some(Unit(NoUnit, q))
      else if s == "tsp" then Some(Unit(Teaspoon, q))
      else if s == "tbsp" then Some(Unit(Tablespoon, q))
      else if s == "cup" then Some(Unit(Cup, q))
      else if s == "quart" then Some(Unit(Quart, q))
      else if s == "gallon" then Some(Unit(Gallon, q))
      else if s == "l" then Some(Unit(Liter, q))
      else if s == "dl" then Some(Unit(Deciliter, q))
      else if s == "cl" then Some(Unit(Centiliter, q))
      else if s == "ml" then Some(Unit(Milliliter, q))
      else if s == "g" then Some(Unit(Gram, q))
      else if s == "kg" then Some(Unit(Kilogram, q))
      else None
  }

  /** Every kind is found by its name, and only the twelve names are found. */
  lemma FromName(q: real, n: string)
    ensures forall k: Kind :: From(q, Some(Name(k))) == Some(Unit(k, q))
    ensures From(q, Some(n)).Some? <==> exists k: Kind :: n == Name(k)
  {
    if From(q, Some(n)).Some? {
      var k := From(q, Some(n)).value.kind;
      assert n == Name(k);
    }
  }

  /** The base unit of a kind's family. */
  function Family(k: Kind): Kind
  {
    match k
    case NoUnit => NoUnit
    case Teaspoon | Tablespoon | Cup | Quart | Gallon => Teaspoon
    case Liter | Deciliter | Centiliter | Milliliter => Liter
    case Gram | Kilogram => Gram
  }

  /** How many base units one unit of a kind is. */
  function Factor(k: Kind): real
  {
    match k
    case NoUnit => 1.0
    case Teaspoon => 1.0
    case Tablespoon => 3.0
    case Cup => 48.0
    case Quart => 192.0
    case Gallon => 768.0
    case Liter => 1.0
    case Deciliter => 0.1
    case Centiliter => 0.01
    case Milliliter => 0.001
    case Gram => 1.0
    case Kilogram => 1000.0
  }

  /** A quantity `q` of kind `k`, in the base unit of its family. */
  function InBase(q: real, k: Kind): real
  {
    match k
    case NoUnit => q
    case Teaspoon => q
    case Tablespoon => q * 3.0
    case Cup => q * 48.0
    case Quart => q * 192.0
    case Gallon => q * 768.0
    case Liter => q
    case Deciliter => q / 10.0
    case Centiliter => q / 100.0
    case Milliliter => q / 1000.0
    case Gram => q
    case Kilogram => q * 1000.0
  }

  /** Steps down the ladder from a kind to its family's base. */
  function Depth(k: Kind): nat
  {
    match k
    case NoUnit | Teaspoon | Liter | Gram => 0
    case Tablespoon | Deciliter | Kilogram => 1
    case Cup | Centiliter => 2
    case Quart | Milliliter => 3
    case Gallon => 4
  }

  /**
   * `base`: step down the ladder until the family's base unit. The result
   * is the same quantity in the base unit: one gallon is 768 teaspoons,
   * one millilitre a thousandth of a litre, one kilogram 1000 grams.
   */
  function Base(u: Unit): (r: Unit)
    ensures r.kind == Family(u.kind)
    ensures r.q == InBase(u.q, u.kind)
    decreases Depth(u.kind)
  {
    match u.kind
    case NoUnit => u
    case Teaspoon => u
    case Tablespoon => Base(Unit(Teaspoon, u.q * 3.0))
    case Cup => Base(Unit(Tablespoon, u.q * 16.0))
    case Quart => Base(Unit(Cup, u.q * 4.0))
    case Gallon => Base(Unit(Quart, u.q * 4.0))
    case Liter => u
    case Deciliter => Base(Unit(Liter, u.q / 10.0))
    case Centiliter => Base(Unit(Deciliter, u.q / 10.0))
    case Milliliter => Base(Unit(Centiliter, u.q / 10.0))
    case Gram => u
    case Kilogram => Base(Unit(Gram, u.q * 1000.0))
  }

  /** `base` leaves the four base units alone. */
  lemma BaseOfBase(u: Unit)
    requires u.kind in {NoUnit, Teaspoon, Liter, Gram}
    ensures Base(u) == u
  {
  }

  /** Steps up the ladder from a kind to its family's top. */
  function Height(k: Kind): nat
  {
    match k
    case NoUnit | Gallon | Liter | Kilogram => 0
    case Quart | Deciliter | Gram => 1
    case Cup | Centiliter => 2
    case Tablespoon | Milliliter => 3
    case Teaspoon => 4
  }

  /** The quantity from which `pack` climbs to the next unit up; `None` for the top units. */
  function Threshold(k: Kind): Option<real>
  {
    match k
    case Teaspoon => Some(3.0)
    case Tablespoon | Cup | Quart => Some(4.0)
    case Milliliter | Centiliter | Deciliter => Some(10.0)
    case Gram => Some(1000.0)
    case NoUnit | Gallon | Liter | Kilogram => None
  }

  /** Where `pack` stops: at a top unit, or below the climb threshold. */
  predicate Packed(u: Unit)
  {
    Threshold(u.kind).None? || u.q < Threshold(u.kind).value
  }

  /**
   * `pack`: climb the ladder while the quantity reaches the threshold. The
   * result stays in the family, denotes the same base quantity, and is
   * packed.
   */
  function Pack(u: Unit): (r: Unit)
    ensures Family(r.kind) == Family(u.kind)
    ensures Base(r) == Base(u)
    ensures Packed(r)
    ensures Packed(u) ==> r == u
    decreases Height(u.kind)
  {
    match u.kind
    case NoUnit => u
    case Teaspoon => if u.q < 3.0 then u else Pack(Unit(Tablespoon, u.q / 3.0))
    case Tablespoon => if u.q < 4.0 then u else Pack(Unit(Cup, u.q / 16.0))
    case Cup => if u.q < 4.0 then u else Pack(Unit(Quart, u.q / 4.0))
    case Quart => if u.q < 4.0 then u else Pack(Unit(Gallon, u.q / 4.0))
    case Gallon => u
    case Milliliter => if u.q < 10.0 then u else Pack(Unit(Centiliter, u.q / 10.0))
    case Centiliter => if u.q < 10.0 then u else Pack(Unit(Deciliter, u.q / 10.0))
    case Deciliter => if u.q < 10.0 then u else Pack(Unit(Liter, u.q / 10.0))
    case Liter => u
    case Gram => if u.q < 1000.0 then u else Pack(Unit(Kilogram, u.q / 1000.0))
    case Kilogram => u
  }

  /** Packing twice is packing once. */
  lemma PackIdempotent(u: Unit)
    ensures Pack(Pack(u)) == Pack(u)
  {
  }

  /** `pack` never climbs down: the result's unit is at least as large. */
  lemma PackClimbs(u: Unit)
    ensures Factor(Pack(u).kind) >= Factor(u.kind)
    decreases Height(u.kind)
  {
    match u.kind
    case Teaspoon => if u.q >= 3.0 { PackClimbs(Unit(Tablespoon, u.q / 3.0)); }
    case Tablespoon => if u.q >= 4.0 { PackClimbs(Unit(Cup, u.q / 16.0)); }
    case Cup => if u.q >= 4.0 { PackClimbs(Unit(Quart, u.q / 4.0)); }
    case Quart => if u.q >= 4.0 { PackClimbs(Unit(Gallon, u.q / 4.0)); }
    case Milliliter => if u.q >= 10.0 { PackClimbs(Unit(Centiliter, u.q / 10.0)); }
    case Centiliter => if u.q >= 10.0 { PackClimbs(Unit(Deciliter, u.q / 10.0)); }
    case Deciliter => if u.q >= 10.0 { PackClimbs(Unit(Liter, u.q / 10.0)); }
    case Gram => if u.q >= 1000.0 { PackClimbs(Unit(Kilogram, u.q / 1000.0)); }
    case _ =>
  }

  /**
   * `a + b`: the quantities add when the kinds are the same; otherwise the
   * right operand counts as zero and `a` comes back unchanged.
   */
  function Add(a: Unit, b: Unit): (r: Unit)
    ensures r.kind == a.kind
    ensures a.kind == b.kind ==> r.q == a.q + b.q
    ensures a.kind != b.kind ==> r == a
  {
    Unit(a.kind, a.q + if b.kind == a.kind then b.q else 0.0)
  }

  /** Same-kind addition commutes and preserves the base quantity's sum. */
  lemma AddSameKind(a: Unit, b: Unit)
    requires a.kind == b.kind
    ensures Add(a, b) == Add(b, a)
    ensures Base(Add(a, b)).q == Base(a).q + Base(b).q
  {
  }

  /** The value `k/8`. */
  function Eighth(k: int): real
  {
    k as real / 8.0
  }

  /** The fraction `k/8` in lowest terms, for `k` in 1..7. */
  function EighthName(k: int): string
    requires 1 <= k <= 7
  {
    var g := if k % 2 == 1 then 1 else if k % 4 == 2 then 2 else 4;
    [(('0' as int) + k / g) as char, '/', (('0' as int) + 8 / g) as char]
  }

  /**
   * `to_fraction`: exactly the eighths strictly between 0 and 1 have a
   * name, which is the fraction in lowest terms.
   */
  function ToFraction(n: real): (r: Option<string>)
    ensures r.Some? <==> exists k | 1 <= k <= 7 :: n == Eighth(k)
    ensures forall k | 1 <= k <= 7 && n == Eighth(k) :: r == Some(EighthName(k))
  {
    if n == 0.125 then assert n == Eighth(1); Some("1/8")
    else if n == 0.25 then assert n == Eighth(2); Some("1/4")
    else if n == 0.375 then assert n == Eighth(3); Some("3/8")
    else if n == 0.5 then assert n == Eighth(4); Some("1/2")
    else if n == 0.625 then assert n == Eighth(5); Some("5/8")
    else if n == 0.75 then assert n == Eighth(6); Some("3/4")
    else if n == 0.875 then assert n == Eighth(7); Some("7/8")
    else None
  }
}

=== FILE: utf8.dfy ===
/**
 * Character measures shared by the text engine: the UTF-8 width of a code
 * point (section 3 of RFC 3629), the byte length of a run of code points,
 * the inverse mapping from a byte offset back to a code point count, and
 * the Unicode White_Space property used by the reflow.
 */
module Utf8 {

  /** Number of bytes UTF-8 uses for `c` (section 3 of RFC 3629). */
  function Utf8Len(c: char): (n: nat)
    ensures 1 <= n <= 4
    ensures n == 1 <==> c as int < 0x80
    ensures n == 4 <==> 0x10000 <= c as int
  {
    if c as int < 0x80 then 1
    else if c as int < 0x800 then 2
    else if c as int < 0x10000 then 3
    else 4
  }

  /** UTF-8 byte length of a sequence of code points (Rust's `str::len`). */
  function Bytes(s: seq<char>): nat
  {
    if |s| == 0 then 0 else Utf8Len(s[0]) + Bytes(s[1..])
  }

  /** Byte length is additive over concatenation. */
  lemma {:induction false} BytesAppend(s: seq<char>, t: seq<char>)
    ensures Bytes(s + t) == Bytes(s) + Bytes(t)
  {
    if |s| == 0 {
      assert s + t == t;
    } else {
      assert (s + t)[1..] == s[1..] + t;
      BytesAppend(s[1..], t);
    }
  }

  /** Every code point takes at least one byte and at most four. */
  lemma {:induction false} BytesBounds(s: seq<char>)
    ensures |s| <= Bytes(s) <= 4 * |s|
  {
    if |s| > 0 {
      BytesBounds(s[1..]);
    }
  }

  /** Splitting a slice `s[a..c]` at `b` splits its byte length. */
  lemma BytesSplit(s: seq<char>, a: nat, b: nat, c: nat)
    requires a <= b <= c <= |s|
    ensures Bytes(s[a..c]) == Bytes(s[a..b]) + Bytes(s[b..c])
  {
    assert s[a..c] == s[a..b] + s[b..c];
    BytesAppend(s[a..b], s[b..c]);
  }

  /** Byte offsets of code point boundaries grow strictly with the index. */
  lemma BytesPrefixMonotone(s: seq<char>, i: nat, j: nat)
    requires i <= j <= |s|
    ensures Bytes(s[..i]) + (j - i) <= Bytes(s[..j])
  {
    BytesSplit(s, 0, i, j);
    assert s[0..i] == s[..i] && s[0..j] == s[..j];
    BytesBounds(s[i..j]);
  }

  /** Byte offset of code point `k` of `s`: the UTF-8 length of `s[..k]`. */
  function Offset(s: seq<char>, k: nat): nat
    requires k <= |s|
  {
    if k == 0 then 0 else Offset(s, k - 1) + Utf8Len(s[k - 1])
  }

  lemma {:induction false} OffsetIsBytes(s: seq<char>, k: nat)
    requires k <= |s|
    ensures Offset(s, k) == Bytes(s[..k])
  {
    if k == 0 {
      assert s[..k] == [];
    } else {
      OffsetIsBytes(s, k - 1);
      assert s[..k] == s[..k - 1] + [s[k - 1]];
      BytesAppend(s[..k - 1], [s[k - 1]]);
      assert Bytes([s[k - 1]]) == Utf8Len(s[k - 1]);
    }
  }

  /** Between two code point boundaries lie at least one and at most four bytes per code point. */
  lemma {:induction false} OffsetMonotone(s: seq<char>, i: nat, j: nat)
    requires i <= j <= |s|
    ensures Offset(s, i) + (j - i) <= Offset(s, j) <= Offset(s, i) + 4 * (j - i)
    decreases j
  {
    if i < j {
      OffsetMonotone(s, i, j - 1);
    }
  }

  /** Byte offsets inside a slice are offsets in the whole sequence, shifted by the slice start. */
  lemma {:induction false} OffsetShift(s: seq<char>, a: nat, b: nat, k: nat)
    requires a <= b <= |s| && k <= b - a
    ensures Offset(s[a..b], k) + Offset(s, a) == Offset(s, a + k)
  {
    if k > 0 {
      OffsetShift(s, a, b, k - 1);
      assert s[a..b][k - 1] == s[a + k - 1];
    }
  }

  /** The byte length of a slice is the difference of its boundary offsets. */
  lemma OffsetSlice(s: seq<char>, a: nat, b: nat)
    requires a <= b <= |s|
    ensures Bytes(s[a..b]) == Offset(s, b) - Offset(s, a)
  {
    OffsetIsBytes(s, a);
    OffsetIsBytes(s, b);
    BytesSplit(s, 0, a, b);
    assert s[0..a] == s[..a] && s[0..b] == s[..b];
  }

  /**
   * The number of leading code points of `s` whose bytes fit in the first
   * `off` bytes: the code point index of byte offset `off`.
   */
  function CharCount(s: seq<char>, off: nat): (k: nat)
    ensures k <= |s|
  {
    if |s| == 0 || off < Utf8Len(s[0]) then 0
    else 1 + CharCount(s[1..], off - Utf8Len(s[0]))
  }

  /** `CharCount` inverts `Offset`. */
  lemma CharCountOfOffset(s: seq<char>, k: nat)
    requires k <= |s|
    ensures CharCount(s, Offset(s, k)) == k
  {
    OffsetIsBytes(s, k);
    CharCountOfPrefix(s, k);
  }

  /** `CharCount` inverts the byte length of every prefix. */
  lemma {:induction false} CharCountOfPrefix(s: seq<char>, k: nat)
    requires k <= |s|
    ensures CharCount(s, Bytes(s[..k])) == k
  {
    if k > 0 {
      assert s[..k][1..] == s[1..][..k-1];
      CharCountOfPrefix(s[1..], k - 1);
    } else {
      assert s[..k] == [];
    }
  }

  /**
   * Rust's `char::is_whitespace`: the Unicode White_Space property.
   * True for `'\n'` and `' '`, false for the `'\0'` sentinel.
   */
  predicate IsWhitespace(c: char)
  {
    var n := c as int;
    (0x09 <= n <= 0x0D) || n == 0x20 || n == 0x85 || n == 0xA0 || n == 0x1680
    || (0x2000 <= n <= 0x200A) || n == 0x2028 || n == 0x2029 || n == 0x202F
    || n == 0x205F || n == 0x3000
  }
}

=== FILE: util.dfy ===
/** Small helpers shared by the program (src/util/mod.rs). */
module Util {
  import opened Wrappers

  /** `coalesce`: the first of two options that holds a value. */
  function Coalesce<T>(a: Option<T>, b: Option<T>): (r: Option<T>)
    ensures a.Some? ==> r == a
    ensures a.None? ==> r == b
    ensures r.None? <==> a.None? && b.None?
  {
    match a
    case Some(v) => Some(v)
    case None =>
      match b
      case Some(w) => Some(w)
      case None => None
  }

  /**
   * Coalescing is associative, `None` is its unit on both sides, and it is
   * idempotent: a chain of fallbacks picks the first value present, however
   * the chain is bracketed.
   */
  lemma CoalesceMonoid<T>(a: Option<T>, b: Option<T>, c: Option<T>)
    ensures Coalesce(Coalesce(a, b), c) == Coalesce(a, Coalesce(b, c))
    ensures Coalesce(None, a) == a && Coalesce(a, None) == a
    ensures Coalesce(a, a) == a
  {
  }

  /** The first value present in a list of options, left to right. */
  function First<T>(xs: seq<Option<T>>): Option<T>
  {
    if xs == [] then None else Coalesce(xs[0], First(xs[1..]))
  }

  /**
   * Folding `coalesce` over a list answers its first value: `Some` exactly
   * when some entry holds a value, and then the value of the earliest one.
   */
  lemma {:induction false} FirstPresent<T>(xs: seq<Option<T>>)
    ensures First(xs).None? <==> forall i | 0 <= i < |xs| :: xs[i].None?
    ensures First(xs).Some? ==> exists i | 0 <= i < |xs| ::
      xs[i] == First(xs) && forall j | 0 <= j < i :: xs[j].None?
  {
    if xs != [] {
      FirstPresent(xs[1..]);
      if xs[0].None? && First(xs[1..]).Some? {
        var i :| 0 <= i < |xs[1..]| && xs[1..][i] == First(xs[1..]) && forall j | 0 <= j < i :: xs[1..][j].None?;
        assert xs[i + 1] == First(xs);
        assert forall j | 0 <= j < i + 1 :: xs[j].None? by {
          forall j | 0 <= j < i + 1 ensures xs[j].None? {
            if j > 0 { assert xs[j] == xs[1..][j - 1]; }
          }
        }
      }
      if xs[0].None? && First(xs[1..]).None? {
        assert forall i | 0 <= i < |xs| :: xs[i].None? by {
          forall i | 0 <= i < |xs| ensures xs[i].None? {
            if i > 0 { assert xs[i] == xs[1..][i - 1]; }
          }
        }
      }
    }
  }
}

=== FILE: wrappers.dfy ===
/** Failure-compatible wrappers shared by every module of the model. */
module Wrappers {

  /** Rust's `Option<T>`. */
  datatype Option<+T> = None | Some(value: T)

  /** Rust's `Result<T, E>`. */
  datatype Result<+T, +E> = Ok(value: T) | Err(error: E) {
    predicate IsFailure() {
      Err?
    }

    function PropagateFailure<U>(): Result<U, E>
      requires Err?
    {
      Err(error)
    }

    function Extract(): T
      requires Ok?
    {
      value
    }
  }
}
